=== FILE: README.md ===
# Investment platform ledger — a Dafny model

This project models the money side of the investment platform. The centre is
the balance ledger of `api/lib/db.js`. Around it sit the pure rules that the
server routes and the browser scripts apply to it.

**The ledger** is two collections:

- an append-only log of `deposit | withdrawal | plan | earnings` transactions,
  each `pending`, `approved` or `rejected`;
- a per-user cached balance record with `currentBalance`, `totalDeposits`,
  `totalEarnings`, `totalWithdrawals` and an append-only `balanceHistory`.

The ledger is modelled as a `Ledger(log: seq<Transaction>, balances: map<UserId, BalanceRecord>)`.
Every operation is a pure function from one ledger to the next. A transaction
id is its position in the log. Time is an integer count of milliseconds, and
money is `real`.

The operations modelled are:

- recording a transaction;
- approval, with its ROI tier, its `planDetails` stamp, the incremental
  `'deposit'` credit and the de-duplicated "instant" day of earnings;
- rejection;
- earnings credits;
- the full recomputation from the log;
- the two accrual passes: the once-a-day 6% credit and the catch-up over
  elapsed days;
- the per-transaction "ensure today's rewards" route;
- the listing and statistics queries;
- the balance-history series.

The central invariant is `LedgerModel.Reconciled(L, u)`. It says that `u`'s
record holds the approved totals of the log, and that
`currentBalance = deposits + earnings − withdrawals`.

The model keeps the source's inconsistencies as stated behaviour:

- The incremental approval path sets `currentBalance = deposits − withdrawals`.
  It therefore drops earnings, while the earnings and recomputation paths
  include them (`LedgerProofs.ApprovalConsistentIffNoPriorEarnings`).
- Approval credits the `'deposit'` category for every kind, withdrawals
  included (`LedgerProofs.ApproveWithdrawalCreditsDeposits`).
- A rejected transaction can still be approved
  (`LedgerProofs.ApproveAfterRejectSucceeds`).
- Rejecting an approved transaction leaves the balance alone until the next
  recomputation (`LedgerProofs.RejectApprovedThenRecalculate`).
- The server accepts withdrawals above the browser form's 1,000,000 maximum
  (`ServerRules.ServerHasNoMaximum`).

The rules around the ledger are:

- the plan tables and the affiliate tiers;
- referral registration;
- custom-deposit and withdrawal validation, on both the server and the form;
- the legacy "approve if not yet approved" admin routes;
- transaction normalisation and filtering;
- the chart's daily series;
- password strength and phone formatting;
- OTP generation and re-entry;
- the dashboard's weighted-average ROI.

Module layout:

| file | module | models |
|---|---|---|
| wrappers.dfy | `Wrappers` | `Option` and `Result` |
| text.dfy | `Text` | digits, decimal rendering, `parseInt`, `trim`, ASCII lower case |
| clock.dfy | `Clock` | midnight, day and hour numbers |
| js_number.dfy | `JsNumbers` | a parsed JavaScript number (`NaN`, the infinities, a finite value) |
| ledger_model.dfy | `LedgerModel` | transactions, balance records, the approved sums of the log |
| ledger_sums.dfy | `LedgerSums` | how the approved sums change under appends and updates |
| ledger_ops.dfy | `LedgerOps` | the ledger operations of `api/lib/db.js` |
| ledger_proofs.dfy | `LedgerProofs` | properties that relate several operations |
| accrual.dfy, accrual_proofs.dfy | `Accrual`, `AccrualProofs` | the two accrual passes |
| today_rewards.dfy | `TodayRewards` | the per-transaction `ensure-today-rewards` route |
| listing.dfy | `Listing` | the listing and statistics queries |
| history.dfy | `History` | balance history, bucket maps and carry-forward |
| server_rules.dfy | `ServerRules` | the pure rules of `server/index.js` |
| withdraw_form.dfy | `WithdrawForm` | the withdrawal form's checks |
| affiliate.dfy | `Affiliate` | the affiliate page's stage table |
| auth_shared.dfy | `AuthShared` | password strength and phone formatting |
| transactions_view.dfy | `TransactionsView` | the transactions page's normalisation and filters |
| chart.dfy | `BalanceChart` | the chart's date keys and daily series |
| otp.dfy | `Otp` | OTP generation and the verifier's reformatting |
| dashboard.dfy | `Dashboard` | the dashboard's ROI and estimated daily profit |

## Model

| member | source | states |
|---|---|---|
| LedgerOps.GetUserBalance | api/lib/db.js:231-245 | The user's stored record is returned and nothing changes. A missing record is created zeroed, stored, and returned. Other users and the log are untouched. |
| LedgerOps.RecordTransaction | api/lib/db.js:83-101 | Appends exactly one `pending` transaction with the given owner, kind, amount and details. Its id is the old log length, and no balance record changes. |
| LedgerOps.UpdateUserBalance | api/lib/db.js:294-341 | Adds the amount to `totalDeposits` for deposit or plan, and to `totalWithdrawals` for withdrawal. Sets `currentBalance = totalDeposits − totalWithdrawals`, leaves `totalEarnings` alone, and appends one history entry carrying the new balance. |
| LedgerOps.EarningsTransaction | api/lib/db.js:568-586 | The earnings record is already `approved`. It has kind `earnings`, the given amount, `details.planName` and `details.sourceTxId`. |
| LedgerOps.RecordEarningsTransaction | api/lib/db.js:568-586 | Appends exactly that approved earnings transaction and changes no balance. |
| LedgerOps.AddEarnings | api/lib/db.js:517-564 | `totalEarnings` and `currentBalance` both grow by exactly `x`, and deposits and withdrawals are unchanged. One history entry `earnings-<plan>` carries the new balance, and one approved earnings transaction with `sourceTxId` is appended. |
| LedgerOps.AddEarningsKeepsConsistent | api/lib/db.js:525-528 | A record satisfying `current = deposits + earnings − withdrawals` still satisfies it after an earnings credit. |
| LedgerOps.AddEarningsKeepsReconciled | api/lib/db.js:517-586 | Any user whose record agreed with the log still agrees after an earnings credit. The credit is written to both the record and the log. |
| LedgerOps.ApprovalRoi | api/lib/db.js:132-146 | The approval tier is always 4, 6 or 8. |
| LedgerProofs.ApprovalRoiTiers | api/lib/db.js:132-146 | Both directions of the tier rule. Lower-cased plan type basic/standard/premium gives 4/6/8. Otherwise amount < 99 gives 4, amount < 499 gives 6, and anything else gives 8. |
| LedgerProofs.ApprovalRoiExamples | api/lib/db.js:132-146 | 50, 200 and 1000 without a plan type give 4, 6 and 8. `premium` and `Premium` give 8 whatever the amount. |
| LedgerOps.Approve | api/lib/db.js:108-203 | A missing id fails with not-found, and an approved transaction fails with already-approved. Otherwise the transaction is stamped approved, with actor, time and `planDetails {daily-reward, plan name, tier, midnight}`, and the rest of the log is unchanged. The amount is added to `totalDeposits` whatever the kind, and the balance becomes deposits − withdrawals plus any instant credit. One instant day `amount·tier/100` is credited only when it is positive and no earnings with this `sourceTxId` was submitted today. |
| LedgerProofs.ApproveThenRecalculate | api/lib/db.js:108-406 | After approve then recompute, `currentBalance = deposits + earnings − withdrawals`. Each total is the old approved log total plus the approved amount in its own kind, plus the instant day when it was credited. |
| LedgerProofs.ApprovalConsistentIffNoPriorEarnings | api/lib/db.js:162-313 | Right after an approval the cached record satisfies the balance identity exactly when the user had no earnings before. The incremental path drops them. |
| LedgerProofs.ApproveWithdrawalCreditsDeposits | api/lib/db.js:162 | Approving a withdrawal raises `totalDeposits` by its amount, leaves `totalWithdrawals` alone, and sets the cached balance to at least the old deposits − withdrawals plus that amount. |
| LedgerProofs.ApproveTwiceFails | api/lib/db.js:112-118 | A second approval of the same transaction fails with already-approved, so nothing is credited twice. |
| LedgerProofs.ApproveAfterRejectSucceeds | api/lib/db.js:112-225 | Rejection succeeds on any existing id, and the rejected transaction can then be approved. |
| ServerRules.ApproveKeepsIdentity | api/lib/db.js:122-130 | Approval changes no owner, kind, amount or details of the approved transaction. |
| LedgerOps.Reject | api/lib/db.js:206-225 | Fails exactly on a missing id. Otherwise it sets `rejected`, reason, actor and time on that one transaction, approved ones included. Every other field of it is kept: owner, kind, amount, description, details, submission time, approval actor and time, and plan details. Every other transaction is left alone and no balance changes. |
| LedgerProofs.RejectApprovedThenRecalculate | api/lib/db.js:206-406 | Rejecting an approved transaction leaves the balances untouched. The next recomputation takes its amount back out of its kind's total. |
| LedgerOps.Recalculate | api/lib/db.js:347-406 | Afterwards the record is reconciled: each total is the sum of the approved amounts of its kind (plan counted as deposit), and `current = deposits − withdrawals + earnings`. History, log and other users are unchanged. |
| LedgerOps.RecalculateIdempotent | api/lib/db.js:347-406 | Recomputing twice gives the totals and balance of recomputing once. |
| LedgerProofs.RecordKeepsReconciled | api/lib/db.js:83-101 | Recording a pending transaction keeps every reconciled user reconciled. |
| LedgerProofs.DepositOfHundredScenario | api/lib/db.js:83-406 | A deposit of 100 recorded, approved and recomputed on an empty ledger gives deposits 100, earnings 6, withdrawals 0 and balance 106. |
| LedgerOps.GetBalanceSummary | api/lib/db.js:412-432 | Reports the five figures of the user's record. A new user gets a zeroed record stored and all-zero figures. |
| Accrual.QualifyingUsers | api/lib/db.js:603-611 | Lists exactly the owners of approved daily-reward or deposit transactions, each once. |
| Accrual.EnsureStep | api/lib/db.js:613-646 | Skips a user who already has a `daily-balance-percent` credit today, or whose 6% is not positive. Otherwise it credits exactly 6% of the current balance, so the balance becomes 1.06 times the old one, and appends one earnings record. Every qualifying snapshot transaction of `u` gets `lastEarningAt` = today's midnight; every other transaction is unchanged. |
| Accrual.EarliestLastEarning | api/lib/db.js:706-713 | The minimum `lastEarningAt` over the user's selected transactions, or none when none carries one. |
| Accrual.Latest | api/lib/db.js:715-718 | The latest earnings time, or none when there are none. |
| Accrual.EarningsTimesContains | api/lib/db.js:716 | The submission time of every earnings transaction of the user is among the times searched. |
| Accrual.EarningsTimesMembers | api/lib/db.js:716 | Every time searched is the submission time of some earnings transaction of the user. |
| Accrual.UserQualifyingContains | api/lib/db.js:693-706 | Every approved daily-reward or deposit transaction of the user is in the user's view. |
| Accrual.UserQualifyingMembers | api/lib/db.js:693-706 | The user's view holds only approved daily-reward or deposit transactions of that user, taken from the log. |
| Accrual.DaysElapsedBounds | api/lib/db.js:725 | `last + days·86400000 ≤ now < last + (days+1)·86400000` for `days = floor((now − last)/86400000)`. |
| Accrual.CreditElapsedDays | api/lib/db.js:725-742 | With no whole day elapsed or a non-positive total, nothing changes. Otherwise it credits `0.06·balance·days` once and moves the user's selected `lastEarningAt` to `last + days·86400000`. |
| AccrualProofs.EnsureDailyCreditsEveryone | api/lib/db.js:594-652 | After the daily pass every qualifying user holds a daily-percent credit dated today, or has a balance whose 6% is not positive. |
| AccrualProofs.EnsureDailyIdempotent | api/lib/db.js:613-631 | A second daily pass on the same calendar day changes nothing: at most one credit per user per day. |
| AccrualProofs.ProcessDailyLeavesLessThanADay | api/lib/db.js:687-753 | After the catch-up pass no qualifying user is a whole day behind with something positive to credit. |
| AccrualProofs.ProcessDailyIdempotent | api/lib/db.js:725-742 | Running the catch-up pass again at the same instant changes nothing. |
| AccrualProofs.CatchUpLeavesLessThanADay | api/lib/db.js:725-737 | Moving `last` forward by the whole days elapsed leaves zero whole days. |
| AccrualProofs.AccrualKeepsReconciled | api/lib/db.js:594-753 | Both passes keep every reconciled user reconciled. |
| AccrualProofs.RunSettlesAll | api/lib/db.js:594-753 | After a pass every user who qualifies in the resulting log is settled. The log only grows by non-qualifying entries and `lastEarningAt` stamps. |
| TodayRewards.RewardTxIds | server/index.js:2113-2118 | Exactly the caller's approved daily-reward transactions with an ROI, in log order. |
| TodayRewards.RoundCents | server/index.js:2147 | `Math.round(x·100)/100` is a whole number of cents, within half a cent of `x`. |
| TodayRewards.RewardStep | server/index.js:2122-2146 | Skips the transaction when it is already settled today. Otherwise it credits `amount·roi/100` through the earnings path with this `sourceTxId`, stamps `lastEarningAt` with today's midnight, and reports the rounded amount. |
| TodayRewards.EnsureTodayRewardsIdempotent | server/index.js:2102-2157 | A second call on the same day credits nothing and reports the same summary. |
| TodayRewards.EnsureTodayRewardsSettlesAll | server/index.js:2122-2146 | After a call every transaction the route selects is credited for today or has nothing to credit. |
| TodayRewards.EnsureTodayRewardsProperties | server/index.js:2102-2157 | The route keeps reconciled users reconciled. Its credits name only selected transactions, each at most once, in transaction order. |
| Listing.GetUserTransactions | api/lib/db.js:250-272 | Exactly the user's transactions passing the optional status filter, each once, newest first. |
| Listing.GetPendingTransactions | api/lib/db.js:277-288 | Exactly the pending transactions of all users, each once, oldest first. |
| Listing.GetTransactionStats | api/lib/db.js:658-679 | The total is the number of the user's transactions. Each status count is the length of the user's listing filtered by that status, and each type count is the number of log positions holding the user's transactions of that type. Pending + approved + rejected equals the total, and the three type counts do not exceed it. |
| Listing.CountStatusIsSelected | api/lib/db.js:664-666 | Counting one status gives the length of the listing filtered by that status string. |
| Listing.CountKindIsPositions | api/lib/db.js:668-670 | Counting one type gives the number of log positions holding the user's transactions of that type. |
| Listing.StatusCountsPartition | api/lib/db.js:664-666 | The three status counts add up to the user's transaction count. |
| Listing.KindCountsPartition | api/lib/db.js:667-671 | The four kind counts add up to the user's transaction count, so earnings are the ones the type counts omit. |
| Listing.CountUserIsSelected | api/lib/db.js:660-663 | The statistics total equals the length of the unfiltered listing. |
| History.LastWins | api/balance/routes.js:50-51 | Every raw key is in the map, no other key is, and a key maps to the balance of its last entry. |
| History.CarryForward | api/balance/routes.js:63-70 | One value per key. A key with a recorded balance shows it, and a key without one repeats the previous value (the start value first). |
| History.CarryForwardIsLastKnown | api/balance/routes.js:63-70 | Each carried value is the balance of the latest recorded key at or before it, else the start value. |
| History.GetBalanceHistory | api/lib/db.js:438-463 | A user without a record has no history. |
| History.WindowSource | api/lib/db.js:446-456 | Every raw point comes from a history entry at or after the cutoff, at the same or a later position. |
| History.WindowSnoc | api/lib/db.js:446-456 | Appending an entry to the history appends its point exactly when it is at or after the cutoff, so the points follow history order. |
| History.WindowComplete | api/lib/db.js:446-456 | Every history entry at or after the cutoff appears as a raw point. |
| History.ParseDays | api/balance/routes.js:29-37 | 30 without parameters. A `days` value that parses wins over `range`. When `days` is missing or does not parse, `range = s + "d"` with `s` parsing gives that number, and any other `range` gives 30. |
| History.ParseDaysIgnoresUnparseable | api/balance/routes.js:29-37 | `range=7d` with `days=abc` gives 7 days. |
| History.ParseDaysOfRendered | api/balance/routes.js:29-37 | A rendered integer N is read back as N from `range=Nd`, and from `days=N` whatever `range` says. |
| History.DayKeysConsecutive | api/balance/routes.js:44-66 | The keys are `days` consecutive day numbers ending today. |
| History.BalanceHistoryRoute | api/balance/routes.js:26-81 | Exactly `days` points (none when `days ≤ 0`) on consecutive days ending today. The stored record is exactly the user's record, created zeroed for a new user, and the reported `currentBalance` is its balance. Nothing else changes. |
| History.BalanceHistoryRouteCarries | api/balance/routes.js:53-70 | Each point shows the balance of the latest day at or before it that has a raw point. Before any such day it shows the last raw balance, or the current balance when the window is empty. |
| History.DayTableLatestWins | api/balance/routes.js:51 | A day with raw points maps to the balance of its last raw point. |
| History.HourEntriesSnoc | api/lib/db.js:476-484 | Appending an entry appends its (hour, balance) bucket exactly when it is at or after the cutoff, so the buckets follow history order. |
| History.HourKeysConsecutive | api/lib/db.js:487-494 | The buckets are `hours` consecutive hour numbers ending with the current hour. |
| History.GetBalanceHistoryHours | api/lib/db.js:469-512 | No record gives no points. Otherwise it gives exactly `hours` points on consecutive hours ending now. |
| History.GetBalanceHistoryHoursCarries | api/lib/db.js:496-504 | Each hour shows the balance of the latest filled bucket at or before it, else 0. |
| ServerRules.PlanAmount | server/index.js:1069-1076 | Basic costs 50, standard 100 and premium 500. The price is non-zero exactly for those three plan types. |
| ServerRules.PlanDailyRoi | server/index.js:1079-1086 | Basic earns 0.5%, standard 0.75% and premium 1% a day. The rate is non-zero exactly for those three plan types. |
| ServerRules.PlanTablesAgree | server/index.js:1069-1086 | A dearer plan has a strictly higher daily rate. |
| ServerRules.AffiliateInfoMatchesPage | server/index.js:672-677 | The server's affiliate-info tier equals the page's `stageForCount` on the stored count (missing counts as 0). |
| ServerRules.RegistrationRewardMatchesStage | server/index.js:728-732 | The registration reward equals the page's reward for the new count. |
| ServerRules.RegisterReferral | server/index.js:705-745 | Missing fields fail, and registration fails with already-referred exactly when the referred account already has a referrer. On success the referrer's count grows by one, the referred id is appended, the referred account points to the referrer, `totalReferralRewards` grows by the tier reward, both users get one `referral` earnings credit, and no other account changes. The referred account changes only in `referredBy`, and the referrer only in its referral fields, when the two differ. |
| ServerRules.RegisterReferralCredits | server/index.js:735-740 | Each user's record gains the reward in earnings and current balance, twice over when both share an email. No other record changes, and reconciled users stay reconciled. |
| ServerRules.ReferralRegisteredOnce | server/index.js:716 | A second registration of the same referred user fails with already-referred. |
| ServerRules.ValidateCustomDeposit | server/index.js:1320-1334 | Accepted exactly when address and proof are truthy and `amount` is a number with 0 < amount ≤ 1,000,000. Above the limit the error is amount-too-large. |
| ServerRules.SubmitCustomDeposit | server/index.js:1320-1367 | A valid request appends exactly one pending deposit of that amount, described as `Custom deposit of <amount> USDT`. A refused one leaves the ledger unchanged. |
| ServerRules.SubmitWithdrawal | server/index.js:1764-1820 | Accepted exactly when the fields are present, the address matches `^0x[a-fA-F0-9]{40}$`, and the parsed amount is finite with 50 ≤ amount ≤ current balance. It then appends one pending withdrawal of that amount, described as `Withdrawal request to <address>`. A refusal records no transaction. |
| ServerRules.FormValidImpliesSubmitted | server/index.js:1773-1797 | Whatever the form accepts, the server accepts. |
| ServerRules.ServerHasNoMaximum | server/index.js:1784-1797 | 1,500,000 from a balance of 2,000,000 is accepted by the server but refused by the form as above the maximum. |
| ServerRules.FindLinked | server/index.js:2230-2233 | The first transaction carrying the deposit or withdrawal link, or none when none does. |
| ServerRules.ApproveLinked | server/index.js:2235-2249 | An already approved linked transaction leaves the ledger unchanged. A pending or rejected one gets the approval effect. Without one, a transaction with the route's owner, kind, amount and link is recorded and approved. |
| ServerRules.ApproveDepositRoute | server/index.js:2226-2252 | The linked deposit, or else a new one, ends approved and the owner ends reconciled. A new one belongs to the owner, carries the link and the amount, and is described as `Deposit approved for <plan name, or "plan">`. |
| ServerRules.ApproveWithdrawalRoute | server/index.js:2405-2428 | The linked withdrawal, or else a new one, ends approved and the owner ends reconciled. A new one belongs to the owner, carries the link and the amount, and is described as `Withdrawal to <address>`. |
| ServerRules.ApprovePlanRoute | server/index.js:2316-2345 | The transaction of the enrollment's deposit is chosen when one is linked; otherwise a new deposit is recorded. The new deposit belongs to the owner, has the plan amount, is described as `Plan enrollment approved: <name>`, and carries the plan name and `planId`. The chosen transaction ends approved, and the owner stays reconciled through the recomputation and both accrual passes. |
| WithdrawForm.Erc20PatternIsFormat | js/withdraw.js:115-119 | The left-to-right regular-expression match holds exactly when the address has length 42, starts with `0x` and has 40 hex digits. |
| WithdrawForm.ValidateWithdrawalAmount | js/withdraw.js:124-144 | The first failing check wins: not a number, then below 50, then above 1,000,000, then above the balance. It is valid exactly when 50 ≤ amount ≤ min(1,000,000, balance). |
| WithdrawForm.ValidateWithdrawalAddress | js/withdraw.js:149-159 | A blank address is missing. It is valid exactly when non-blank and in ERC20 format. |
| WithdrawForm.ValidAddressIsFormat | js/withdraw.js:149-159 | Valid exactly when in ERC20 format: a formatted address is never blank. |
| JsNumbers.Trichotomy | js/withdraw.js:127-140 | A parsed number is below, above or equal to a bound, except `NaN`, which is none of them. |
| Affiliate.StageForCount | js/affiliate.js:14-19 | Platinum/10 exactly when c > 25, Gold/8 exactly when c = 25, Silver/5 exactly when 10 ≤ c < 25, and Bronze/2 exactly when c < 10. |
| Affiliate.RewardMonotone | js/affiliate.js:14-19 | More referrals never pay a smaller reward. |
| AuthShared.EvaluatePasswordStrength | js/auth-shared.js:260-272 | Each rule holds exactly when its character class occurs, or when the UTF-16 length is ≥ 8. The score is 20 times the number of rules passed (`Math.round(passed / 5 * 100)`), so it is 100 exactly when all rules pass and 0 exactly when none do. |
| AuthShared.ScoreMonotone | js/auth-shared.js:260-272 | Appending a character never lowers the score. |
| AuthShared.EmptyPasswordScoresZero | __tests__/password.test.js:4-12 | The empty password fails every rule and scores 0. |
| AuthShared.MixedPasswordScoresFull | __tests__/password.test.js:14-22 | `Abcdef1!` passes every rule and scores 100. |
| AuthShared.NoSpecialScoresEighty | __tests__/password.test.js:24-32 | `Abcdef12` fails only the special-character rule and scores 80. |
| AuthShared.FormatPhoneNumber | js/auth-shared.js:170-183 | Shape by the count of the first ten digits: `(ddd) ddd-rest`, `(ddd) rest`, `(d…` or empty. |
| AuthShared.FormatPhoneKeepsDigits | js/auth-shared.js:170-183 | The digits of the output are exactly the input's digits cut to ten. |
| AuthShared.FormatPhoneIdempotent | js/auth-shared.js:170-183 | Formatting a formatted number changes nothing. |
| AuthShared.DigitsOfAppend | js/auth-shared.js:171 | Removing non-digits distributes over concatenation. |
| TransactionsView.NormalizeTransaction | js/transactions.js:61-78 | Null in gives null out. Otherwise `status` and `approvalStatus` default to each other and then to `pending`; `type` defaults to `unknown`, a `NaN` amount to 0, `details` to `{}` and `description` to empty. |
| TransactionsView.NormalizedStatusesAgree | js/transactions.js:69-70 | When at most one of the two status fields is set, both normalised statuses agree and are non-empty. |
| TransactionsView.ApplyFilters | js/transactions.js:191-222 | A non-array gives `[]`, and `all` or an unknown filter returns the input. A status filter keeps exactly the transactions with that `status` or `approvalStatus`, and a type filter exactly those of that type. The result is an order-preserving subsequence. A kept transaction appears as many times as in the input, a dropped one not at all. |
| TransactionsView.FilterCounts | js/transactions.js:196-216 | Each kept transaction keeps its multiplicity, and each dropped one occurs zero times. |
| TransactionsView.FilterIsSubsequence | js/transactions.js:196-216 | Filtering keeps the input order and drops elements only. |
| TransactionsView.ApplyFiltersIdempotent | js/transactions.js:191-222 | Applying a filter to its own result changes nothing. |
| TransactionsView.AllKeptFilter | js/transactions.js:218-220 | `all` and unknown filters keep the input as is. |
| BalanceChart.FormatDateKeyRoundTrip | js/balance-chart.js:9-14 | For four-digit years `formatDateKey` gives a `YYYY-MM-DD` key that reads back as the same date. |
| BalanceChart.CivilFromDays | js/balance-chart.js:9-14 | The calendar date of a day number has month 1–12 and day 1–31. |
| BalanceChart.CivilRoundTrip | js/balance-chart.js:9-14 | Converting a day number to its calendar date and back gives the same day number. |
| BalanceChart.CivilFromDaysInjective | js/balance-chart.js:9-14 | Distinct day numbers have distinct calendar dates, so distinct days get distinct keys. |
| BalanceChart.YearOfEraSplit | js/balance-chart.js:9-14 | Within a 400-year era, the chosen year of era holds the day, which falls at day of year 0–365. |
| BalanceChart.EpochDates | js/balance-chart.js:9-14 | Day 0 is 1970-01-01 and day −1 is 1969-12-31. |
| BalanceChart.LeapDayDates | js/balance-chart.js:9-14 | Days 11016 and 19782 are 2000-02-29 and 2024-02-29. |
| BalanceChart.AddEntry | js/balance-chart.js:31-48 | An entry without a usable date is skipped. A numeric value overwrites its day. A non-numeric one keeps the day's value, or sets 0 when the day is new. |
| BalanceChart.DateMapKeys | js/balance-chart.js:29-49 | A day is in the map exactly when some entry carries it. |
| BalanceChart.DateMapLatestWins | js/balance-chart.js:44-48 | For the same day the last numeric entry in input order wins, whatever non-numeric entries of that day follow it. |
| BalanceChart.DateMapNonNumeric | js/balance-chart.js:44-46 | A day whose entries are all non-numeric shows 0. |
| BalanceChart.BuildDailySeries | js/balance-chart.js:27-67 | Exactly `days` values (none when `days ≤ 0`). |
| BalanceChart.BuildDailySeriesCarries | js/balance-chart.js:51-66 | Each value is the balance of the latest keyed day at or before it, and 0 before the first. |
| Otp.GenerateOtp | api/lib/email.js:22-27 | For a draw in [100000, 999999] the code has 7 characters, a dash at index 3, digits elsewhere and a non-zero first digit. It is two three-digit chunks, and removing the dash gives the draw's decimal rendering. |
| Otp.GenerateOtpDecodes | api/lib/email.js:22-27 | The code without its dash reads back as the draw. |
| Otp.JoinChunks | api/lib/email.js:25-26 | Cutting into chunks of three and joining without a separator gives the string back. |
| Otp.FormatTypedCode | js/verify-email.js:23-28 | Six characters become `abc-def`, and removing the dash gives them back. Any other length is sent unchanged. |
| Otp.TypedCodeMatchesGenerated | js/verify-email.js:23-28 | Typing the six digits of a generated code gives exactly the generated code. |
| Otp.SixDigitBoxes | js/verify-email.js:23-28 | Six one-digit boxes give a `ddd-ddd` code. |
| Dashboard.OrZeroNumber | js/dashboard.js:126 | A falsy amount reads as 0, and a truthy one as its `Number` value. |
| Dashboard.GetDepositRoi | js/dashboard.js:124-134 | The deposit tier is always 4, 6 or 8. |
| Dashboard.DepositRoiIsApprovalRoi | js/dashboard.js:124-134 | The dashboard's tier equals the approval tier for the same plan type and amount. |
| Dashboard.WeightOf | js/dashboard.js:137-140 | The total adds the amount, or 0 when it is not a number. The weighted sum can use it exactly when it is a number. The tier is the deposit's tier. |
| Dashboard.ApprovedDepositsAppend | js/dashboard.js:136 | The averaged deposits of a concatenation are those of each part, in order. |
| Dashboard.ApprovedDepositsSingle | js/dashboard.js:136 | One deposit is averaged exactly when it is approved and its amount is finite or `NaN`; an unapproved one contributes nothing. |
| Dashboard.ApprovedDepositsDropsUnapproved | js/dashboard.js:136 | A list of unapproved deposits averages nothing. |
| Dashboard.PendingDepositIgnored | js/dashboard.js:136-146 | One pending basic deposit of 100 gives a profit of 0. |
| Dashboard.ApprovedDepositsKeepsApproved | js/dashboard.js:136 | Every approved deposit with a finite or `NaN` amount is averaged, in order, including those whose amount is not a number. |
| Dashboard.EstimatedDailyProfit | js/dashboard.js:136-146 | With no approved deposits the profit is 0. It is `NaN` exactly when the approved total is positive and some approved amount is not a number. Otherwise, with a non-negative balance and amounts, it lies between 0 and 8% of the balance. |
| Dashboard.PlainMeanProfit | js/dashboard.js:142-146 | When the approved deposits have no positive total, the profit is the plain mean of their tiers, whatever their amounts: between 4% and 8% of a non-negative balance. |
| Dashboard.NonNumericBasicDeposit | js/dashboard.js:124-146 | A single approved basic deposit whose amount is not a number yields exactly 4% of the balance. |
| Dashboard.AverageWithinTiers | js/dashboard.js:136-143 | The weighted average (or the plain mean when the total is 0) lies between the lowest and highest tier of the approved deposits. |
| Dashboard.WeightedSumBounds | js/dashboard.js:137-140 | The amount-weighted tier sum lies between lowest and highest tier times the total amount. |
| Text.ParseIntOfIntToString | api/balance/routes.js:31-36 | `parseInt` reads back the decimal rendering of any integer. |
| Text.Trim | js/verify-email.js:23 | `trim` removes leading and trailing white space, and is empty exactly for blank strings. |
| Text.TrimSlice | js/verify-email.js:23 | The input is a blank prefix, then the trimmed string, then a blank suffix. |
| Clock.OnDayOfIffSameMidnight | api/lib/db.js:597-600 | An instant lies in today's `[midnight, midnight + 1 day)` window exactly when it has today's midnight. |

## Left out

- Persistence: the MongoDB collections become an in-memory `seq` and `map`. The `Deposit`, `Withdrawal`, `PlanEnrollment` and `User` documents appear only through the ids and fields the rules read.
- Concurrency: every handler, timer and pass is one atomic step. The source's read-then-write races are not modelled.
- Timers, the `notify` event emitter and server-sent events: triggers become explicit calls with a `now` parameter, and notifications are not modelled.
- Floating point: money is exact `real`. IEEE rounding, `toFixed` and the grammar of `parseFloat`/`Number` are not modelled. A parsed amount comes in as a `JsNumbers.JsNumber` (or a JSON number).
- Local time: every midnight is the UTC midnight, that is, the server runs at offset zero. The source takes some midnights in local time (`setHours(0, 0, 0, 0)`, and `getFullYear`/`getDate` in the chart) but builds keys with the UTC `toISOString`. The two agree only on a UTC host. Daylight-saving days are not modelled, and ISO `YYYY-MM-DD` keys are day numbers.
- `toLocaleDateString` chart labels: locale data is not available to the model, so only the values of the series are modelled.
- ServerRules.PlanAmount: a plan type naming an `Object.prototype` member (such as `constructor`) is treated as unknown. In the source it reads an inherited property.
- Listing.GetUserTransactions: the order among equal submission times is left open, as the database leaves it.
- Otp.FormatTypedCode: the length test counts characters, not UTF-16 code units.
- Dashboard.ApprovedDeposits: an approved deposit whose amount reads as an infinity is dropped, because infinite reals are not modelled. The source would carry the infinity into the total and the weighted sum.
- Dashboard.EstimatedDailyProfit: a `NaN` profit is returned as `None`. The card's rendering of it as `$0.00` is DOM code and is not modelled.
- ServerRules.SubmitCustomDeposit: the amount's text in the description is an input, because JavaScript's number-to-string rendering is not modelled.
- Otp.GenerateOtp: `Math.random` is replaced by the draw it produces, an integer in [100000, 999999].
- Express routing, sessions, Passport/OAuth, bcrypt, JWT, Cloudinary, nodemailer, file handling and all DOM code: these are foreign libraries or I/O.
- Absent JSON string fields: `undefined`, `null` and `""` all read as missing, and string fields are `Option<string>` or the empty string.
- BalanceChart.Keyed: a `null` entry in the history array, which the script would fail on, is not modelled.
- ServerRules.RegisterReferral: the `catch` around each referral credit never fires in the model, because the credits cannot fail.
- ServerRules.ApproveLinked: the error branch after `approveTransaction` is proved unreachable, so the swallowed-error path is not modelled.
- LedgerOps.Approve, Accrual.EnsureStep, Accrual.CreditElapsedDays, TodayRewards.RewardStep: the mongoose schema of `planDetails` does not declare `lastEarningAt`, so a strict schema could drop the stamp these set (api/lib/db.js:633-641 and 725-742, server/index.js:2122-2146). The model stores the stamp as the code intends. If the stamp were dropped, the catch-up would fall back to the latest earnings time (api/lib/db.js:715-718); that variant is not modelled.
- Accrual.LastAccrual: the "most recent earnings" fallback uses the log's latest earnings time. Mongo's `sort` on equal times is not needed for that.

=== FILE: accrual.dfy ===
/**
 * The earnings accrual passes of `api/lib/db.js`: the once-per-day credit
 * of 6% of each user's balance (`ensureDailyRewardsForToday`) and the
 * catch-up credit over the full days elapsed since the last accrual
 * (`processDailyEarnings`). Both iterate over the users that own a
 * qualifying transaction, in the order they first appear in the log.
 */
module Accrual {
  import opened Wrappers
  import opened Clock
  import opened LedgerModel
  import opened LedgerSums
  import opened LedgerOps

  /** The system-wide daily accrual rate. */
  const DailyRate: real := 0.06
  const DailyPercentPlan: string := "daily-balance-percent"

  /** The query of both passes: approved, and a daily-reward plan or a deposit. */
  predicate Qualifies(t: Transaction) {
    t.status == Approved && (t.planDetails.planType == Some("daily-reward") || t.kind == Deposit)
  }

  /** `[...new Set(txs.map(t => t.userId))]` over the qualifying transactions. */
  function QualifyingUsers(log: seq<Transaction>): (users: seq<UserId>)
    ensures forall u :: u in users <==> exists i :: 0 <= i < |log| && Qualifies(log[i]) && log[i].userId == u
    ensures forall i, j :: 0 <= i < j < |users| ==> users[i] != users[j]
    decreases |log|
  {
    if |log| == 0 then []
    else
      var users := QualifyingUsers(log[..|log| - 1]);
      var t := log[|log| - 1];
      assert forall i :: 0 <= i < |log| - 1 ==> log[..|log| - 1][i] == log[i];
      if Qualifies(t) && t.userId !in users then users + [t.userId] else users
  }

  /** `updateOne({_id}, {$set: {'planDetails.lastEarningAt': at}})` for `u`'s snapshot transactions. */
  function StampUser(log: seq<Transaction>, snap: seq<Transaction>, u: UserId, at: int): (r: seq<Transaction>)
    ensures |r| == |log|
    ensures forall i :: 0 <= i < |log| ==> SameButLastEarning(log[i], r[i])
    ensures forall i :: 0 <= i < |log| ==>
      r[i] == (if i < |snap| && snap[i].userId == u && Qualifies(snap[i]) then WithLastEarning(log[i], at) else log[i])
  {
    seq(|log|, i requires 0 <= i < |log| =>
      if i < |snap| && snap[i].userId == u && Qualifies(snap[i]) then WithLastEarning(log[i], at) else log[i])
  }

  /**
   * The credit both passes make: `addEarnings` with the daily-percent plan
   * name, then the stamp of `u`'s snapshot transactions with `at`.
   */
  function CreditAndStamp(L: Ledger, snap: seq<Transaction>, u: UserId, x: real, now: int, at: int): (r: Ledger)
    ensures |r.log| == |L.log| + 1
    ensures forall i :: 0 <= i < |L.log| ==> SameButLastEarning(L.log[i], r.log[i])
    ensures SameButLastEarning(EarningsTransaction(u, x, DailyPercentPlan, None, now), r.log[|L.log|])
    ensures forall i :: 0 <= i < |L.log| && i < |snap| && snap[i].userId == u && Qualifies(snap[i]) ==>
      r.log[i].planDetails.lastEarningAt == Some(at)
    ensures forall i :: 0 <= i < |L.log| && !(i < |snap| && snap[i].userId == u && Qualifies(snap[i])) ==>
      r.log[i] == L.log[i]
    ensures u in r.balances && r.balances - {u} == L.balances - {u}
    ensures r.balances[u].totalEarnings == RecordOf(L, u, now).totalEarnings + x
    ensures r.balances[u].currentBalance == RecordOf(L, u, now).currentBalance + x
  {
    var L1 := AddEarnings(L, u, x, DailyPercentPlan, None, now);
    L1.(log := StampUser(L1.log, snap, u, at))
  }

  // ---------------------------------------------------------------------
  // ensureDailyRewardsForToday

  /** A per-user daily-percent credit submitted on the day of `now`. */
  predicate IsDailyPercentOn(t: Transaction, u: UserId, now: int) {
    t.userId == u && t.kind == Earnings && t.details.planName == Some(DailyPercentPlan) && OnDayOf(t.submittedAt, now)
  }

  predicate HasDailyPercentOn(log: seq<Transaction>, u: UserId, now: int) {
    exists i :: 0 <= i < |log| && IsDailyPercentOn(log[i], u, now)
  }

  /**
   * One user of `ensureDailyRewardsForToday`: skip when today's credit
   * exists or 6% of the balance is not positive, otherwise credit it and
   * stamp the user's snapshot transactions with today's midnight.
   */
  function EnsureStep(L: Ledger, snap: seq<Transaction>, u: UserId, now: int): (r: Ledger)
    ensures var e := RecordOf(L, u, now).currentBalance * DailyRate;
      if HasDailyPercentOn(L.log, u, now) || e <= 0.0 then r == L
      else
        && |r.log| == |L.log| + 1
        && SameButLastEarning(EarningsTransaction(u, e, DailyPercentPlan, None, now), r.log[|L.log|])
        && u in r.balances
        && r.balances[u].totalEarnings == RecordOf(L, u, now).totalEarnings + e
        && r.balances[u].currentBalance == RecordOf(L, u, now).currentBalance * (1.0 + DailyRate)
        && r.balances - {u} == L.balances - {u}
        && (forall i :: 0 <= i < |L.log| && i < |snap| && snap[i].userId == u && Qualifies(snap[i]) ==>
              r.log[i].planDetails.lastEarningAt == Some(Midnight(now)))
        && (forall i :: 0 <= i < |L.log| && !(i < |snap| && snap[i].userId == u && Qualifies(snap[i])) ==>
              r.log[i] == L.log[i])
  {
    if HasDailyPercentOn(L.log, u, now) then L
    else
      var e := RecordOf(L, u, now).currentBalance * DailyRate;
      if e <= 0.0 then L
      else
        CreditAndStamp(L, snap, u, e, now, Midnight(now))
  }

  // ---------------------------------------------------------------------
  // processDailyEarnings

  /** `u`'s qualifying transactions, in log order. */
  function UserQualifying(log: seq<Transaction>, u: UserId): (r: seq<Transaction>)
    ensures |r| <= |log|
    decreases |log|
  {
    if |log| == 0 then []
    else
      var t := log[|log| - 1];
      assert log == log[..|log| - 1] + [t];
      UserQualifying(log[..|log| - 1], u) + (if t.userId == u && Qualifies(t) then [t] else [])
  }

  /** Every qualifying transaction of `u` is in the view. */
  lemma {:induction false} UserQualifyingContains(log: seq<Transaction>, u: UserId, i: nat)
    requires i < |log| && log[i].userId == u && Qualifies(log[i])
    ensures log[i] in UserQualifying(log, u)
    decreases |log|
  {
    if i < |log| - 1 {
      UserQualifyingContains(log[..|log| - 1], u, i);
    }
  }

  /** The view holds only qualifying transactions of `u` from the log. */
  lemma {:induction false} UserQualifyingMembers(log: seq<Transaction>, u: UserId, t: Transaction)
    requires t in UserQualifying(log, u)
    ensures t in log && t.userId == u && Qualifies(t)
    decreases |log|
  {
    var prefix := log[..|log| - 1];
    if t in UserQualifying(prefix, u) {
      UserQualifyingMembers(prefix, u, t);
      assert t in log by {
        var k :| 0 <= k < |prefix| && prefix[k] == t;
        assert log[k] == t;
      }
    }
  }

  /** The earliest `planDetails.lastEarningAt` present among `txs`. */
  function EarliestLastEarning(txs: seq<Transaction>): (m: Option<int>)
    ensures m.None? <==> forall k :: 0 <= k < |txs| ==> txs[k].planDetails.lastEarningAt.None?
    ensures m.Some? ==> exists k :: 0 <= k < |txs| && txs[k].planDetails.lastEarningAt == m
    ensures m.Some? ==> forall k :: 0 <= k < |txs| && txs[k].planDetails.lastEarningAt.Some? ==>
      m.value <= txs[k].planDetails.lastEarningAt.value
    decreases |txs|
  {
    if |txs| == 0 then None
    else
      var rest := EarliestLastEarning(txs[1..]);
      var d := txs[0].planDetails.lastEarningAt;
      assert forall k :: 1 <= k < |txs| ==> txs[k] == txs[1..][k - 1];
      if d.None? then rest
      else if rest.None? || d.value < rest.value then d
      else rest
  }

  /** Submission times of `u`'s earnings transactions, any status, in log order. */
  function EarningsTimes(log: seq<Transaction>, u: UserId): (r: seq<int>)
    ensures |r| <= |log|
    decreases |log|
  {
    if |log| == 0 then []
    else
      var t := log[|log| - 1];
      EarningsTimes(log[..|log| - 1], u) + (if t.userId == u && t.kind == Earnings then [t.submittedAt] else [])
  }

  /** The submission time of every earnings transaction of `u` is among the times. */
  lemma {:induction false} EarningsTimesContains(log: seq<Transaction>, u: UserId, i: nat)
    requires i < |log| && log[i].userId == u && log[i].kind == Earnings
    ensures log[i].submittedAt in EarningsTimes(log, u)
    decreases |log|
  {
    if i < |log| - 1 {
      EarningsTimesContains(log[..|log| - 1], u, i);
    }
  }

  /** Every time listed is the submission time of an earnings transaction of `u`. */
  lemma {:induction false} EarningsTimesMembers(log: seq<Transaction>, u: UserId, x: int) returns (i: nat)
    requires x in EarningsTimes(log, u)
    ensures i < |log| && log[i].userId == u && log[i].kind == Earnings && log[i].submittedAt == x
    decreases |log|
  {
    var prefix := log[..|log| - 1];
    if x in EarningsTimes(prefix, u) {
      i := EarningsTimesMembers(prefix, u, x);
    } else {
      i := |log| - 1;
    }
  }

  /** The greatest of `xs`, if any. */
  function Latest(xs: seq<int>): (m: Option<int>)
    ensures m.None? <==> |xs| == 0
    ensures m.Some? ==> (exists k :: 0 <= k < |xs| && xs[k] == m.value) && forall k :: 0 <= k < |xs| ==> xs[k] <= m.value
  {
    if |xs| == 0 then None
    else
      var rest := Latest(xs[1..]);
      assert forall k :: 1 <= k < |xs| ==> xs[k] == xs[1..][k - 1];
      if rest.None? || xs[0] > rest.value then Some(xs[0]) else rest
  }

  /**
   * The instant up to which `u` has been credited: the earliest
   * `lastEarningAt` of the snapshot's qualifying transactions; failing that
   * the latest earnings submission in the current log; failing that the
   * first qualifying transaction's approval (or submission) time; failing
   * that `now`.
   */
  function LastAccrual(snap: seq<Transaction>, log: seq<Transaction>, u: UserId, now: int): int {
    var own := UserQualifying(snap, u);
    var earliest := EarliestLastEarning(own);
    if earliest.Some? then earliest.value
    else
      var latest := Latest(EarningsTimes(log, u));
      if latest.Some? then latest.value
      else if |own| > 0 then own[0].approvedAt.GetOr(own[0].submittedAt)
      else now
  }

  /** `Math.floor((now - last) / msPerDay)`. */
  function DaysElapsed(last: int, now: int): int {
    (now - last) / DayMs
  }

  lemma DaysElapsedBounds(last: int, now: int)
    ensures last + DaysElapsed(last, now) * DayMs <= now < last + (DaysElapsed(last, now) + 1) * DayMs
  {
  }

  /** `dailyEarning * daysElapsed`, with `dailyEarning = currentBalance * 0.06`. */
  function CatchUpTotal(balance: real, days: int): real {
    balance * DailyRate * (days as real)
  }

  /**
   * The credit of `processDailyEarnings` for a user last credited at
   * `last`: when whole days have elapsed and 6% of the balance times the
   * days is positive, credit it in one batch and move the user's
   * `lastEarningAt` forward by exactly that many days.
   */
  function CreditElapsedDays(L: Ledger, snap: seq<Transaction>, u: UserId, now: int, last: int): (r: Ledger)
    ensures var days := DaysElapsed(last, now);
      var total := CatchUpTotal(RecordOf(L, u, now).currentBalance, days);
      if days <= 0 || total <= 0.0 then r == L
      else
        && |r.log| == |L.log| + 1
        && SameButLastEarning(EarningsTransaction(u, total, DailyPercentPlan, None, now), r.log[|L.log|])
        && u in r.balances
        && r.balances[u].totalEarnings == RecordOf(L, u, now).totalEarnings + total
        && r.balances[u].currentBalance == RecordOf(L, u, now).currentBalance + total
        && r.balances - {u} == L.balances - {u}
        && (forall i :: 0 <= i < |L.log| && i < |snap| && snap[i].userId == u && Qualifies(snap[i]) ==>
              r.log[i].planDetails.lastEarningAt == Some(last + days * DayMs))
  {
    var days := DaysElapsed(last, now);
    var total := CatchUpTotal(RecordOf(L, u, now).currentBalance, days);
    if days <= 0 || total <= 0.0 then L
    else CreditAndStamp(L, snap, u, total, now, last + days * DayMs)
  }

  /** One user of `processDailyEarnings`. */
  function ProcessStep(L: Ledger, snap: seq<Transaction>, u: UserId, now: int): Ledger {
    CreditElapsedDays(L, snap, u, now, LastAccrual(snap, L.log, u, now))
  }

  // ---------------------------------------------------------------------
  // The passes

  datatype Job = EnsureToday | CatchUp

  function Step(job: Job, L: Ledger, snap: seq<Transaction>, u: UserId, now: int): Ledger {
    match job
    case EnsureToday => EnsureStep(L, snap, u, now)
    case CatchUp => ProcessStep(L, snap, u, now)
  }

  /** The loop `for (const userId of userIds)` of either pass. */
  function Pass(job: Job, L: Ledger, snap: seq<Transaction>, users: seq<UserId>, now: int): Ledger
    decreases |users|
  {
    if |users| == 0 then L else Pass(job, Step(job, L, snap, users[0], now), snap, users[1..], now)
  }

  /** `ensureDailyRewardsForToday`, triggered at `now`. */
  function EnsureDailyRewardsForToday(L: Ledger, now: int): Ledger {
    Pass(EnsureToday, L, L.log, QualifyingUsers(L.log), now)
  }

  /** `processDailyEarnings`, triggered at `now`. */
  function ProcessDailyEarnings(L: Ledger, now: int): Ledger {
    Pass(CatchUp, L, L.log, QualifyingUsers(L.log), now)
  }
}

=== FILE: accrual_proofs.dfy ===
/**
 * What the accrual passes guarantee: every ledger record stays reconciled
 * with the log, every qualifying user ends the pass settled (credited for
 * today, or less than a day behind), and a second run of a pass on the
 * same day (catch-up: at the same instant) changes nothing.
 */
module AccrualProofs {
  import opened Wrappers
  import opened Clock
  import opened LedgerModel
  import opened LedgerSums
  import opened LedgerOps
  import opened Accrual

  /**
   * `b` is `a` after some accrual steps: the same entries up to
   * `lastEarningAt`, followed by entries no accrual query selects.
   */
  predicate Extends(a: seq<Transaction>, b: seq<Transaction>) {
    Restamped(a, b) && forall i :: |a| <= i < |b| ==> !Qualifies(b[i])
  }

  lemma ExtendsTransitive(a: seq<Transaction>, b: seq<Transaction>, c: seq<Transaction>)
    requires Extends(a, b) && Extends(b, c)
    ensures Extends(a, c)
  {
    forall i | |a| <= i < |c|
      ensures !Qualifies(c[i])
    {
      if i < |b| {
        assert SameButLastEarning(b[i], c[i]);
      }
    }
  }

  /** A user is settled when the pass has nothing left to credit them. */
  predicate Settled(job: Job, L: Ledger, u: UserId, now: int) {
    match job
    case EnsureToday =>
      HasDailyPercentOn(L.log, u, now) || RecordOf(L, u, now).currentBalance * DailyRate <= 0.0
    case CatchUp =>
      var days := DaysElapsed(LastAccrual(L.log, L.log, u, now), now);
      days <= 0 || CatchUpTotal(RecordOf(L, u, now).currentBalance, days) <= 0.0
  }

  // ---------------------------------------------------------------------
  // Frames of the per-user views of the log

  lemma {:induction false} UserQualifyingFrame(a: seq<Transaction>, b: seq<Transaction>, u: UserId)
    requires |a| <= |b|
    requires forall i :: 0 <= i < |a| && ((a[i].userId == u && Qualifies(a[i])) || (b[i].userId == u && Qualifies(b[i]))) ==>
      a[i] == b[i]
    requires forall i :: |a| <= i < |b| ==> !(b[i].userId == u && Qualifies(b[i]))
    ensures UserQualifying(a, u) == UserQualifying(b, u)
    decreases |b|
  {
    if |b| == 0 {
    } else if |a| < |b| {
      var b' := b[..|b| - 1];
      UserQualifyingFrame(a, b', u);
    } else {
      var a' := a[..|a| - 1];
      var b' := b[..|b| - 1];
      UserQualifyingFrame(a', b', u);
    }
  }

  lemma {:induction false} EarningsTimesFrame(a: seq<Transaction>, b: seq<Transaction>, u: UserId)
    requires |a| <= |b|
    requires forall i :: 0 <= i < |a| ==> SameButLastEarning(a[i], b[i])
    requires forall i :: |a| <= i < |b| ==> !(b[i].userId == u && b[i].kind == Earnings)
    ensures EarningsTimes(a, u) == EarningsTimes(b, u)
    decreases |b|
  {
    if |b| == 0 {
    } else if |a| < |b| {
      EarningsTimesFrame(a, b[..|b| - 1], u);
    } else {
      EarningsTimesFrame(a[..|a| - 1], b[..|b| - 1], u);
    }
  }

  // ---------------------------------------------------------------------
  // One step

  lemma StepExtends(job: Job, L: Ledger, snap: seq<Transaction>, u: UserId, now: int)
    ensures Extends(L.log, Step(job, L, snap, u, now).log)
  {
  }

  /** Every step either leaves the ledger alone or makes one credit. */
  lemma StepCases(job: Job, L: Ledger, snap: seq<Transaction>, u: UserId, now: int) returns (x: real, at: int)
    ensures var r := Step(job, L, snap, u, now);
      r == L || r == CreditAndStamp(L, snap, u, x, now, at)
    ensures job == EnsureToday ==> at == Midnight(now)
  {
    match job
    case EnsureToday =>
      x, at := RecordOf(L, u, now).currentBalance * DailyRate, Midnight(now);
    case CatchUp =>
      var last := LastAccrual(snap, L.log, u, now);
      var days := DaysElapsed(last, now);
      x, at := CatchUpTotal(RecordOf(L, u, now).currentBalance, days), last + days * DayMs;
  }

  /** A credit for `v` leaves every view of another user `u` as it was. */
  lemma CreditKeepsView(L: Ledger, snap: seq<Transaction>, v: UserId, x: real, now: int, at: int, u: UserId)
    requires Extends(snap, L.log) && u != v
    ensures var r := CreditAndStamp(L, snap, v, x, now, at);
      && UserQualifying(r.log, u) == UserQualifying(L.log, u)
      && EarningsTimes(r.log, u) == EarningsTimes(L.log, u)
      && RecordOf(r, u, now) == RecordOf(L, u, now)
  {
    var r := CreditAndStamp(L, snap, v, x, now, at);
    assert r.log[|L.log|].userId == v;
    forall i | 0 <= i < |L.log| && ((L.log[i].userId == u && Qualifies(L.log[i])) || (r.log[i].userId == u && Qualifies(r.log[i])))
      ensures L.log[i] == r.log[i]
    {
      assert SameButLastEarning(L.log[i], r.log[i]);
      if i < |snap| {
        assert SameButLastEarning(snap[i], L.log[i]);
      }
    }
    UserQualifyingFrame(L.log, r.log, u);
    EarningsTimesFrame(L.log, r.log, u);
  }

  /** A step for `v` leaves every view of another user `u` as it was. */
  lemma StepKeepsView(job: Job, L: Ledger, snap: seq<Transaction>, v: UserId, u: UserId, now: int)
    requires Extends(snap, L.log) && u != v
    ensures var r := Step(job, L, snap, v, now);
      && UserQualifying(r.log, u) == UserQualifying(L.log, u)
      && EarningsTimes(r.log, u) == EarningsTimes(L.log, u)
      && RecordOf(r, u, now) == RecordOf(L, u, now)
  {
    var x, at := StepCases(job, L, snap, v, now);
    CreditKeepsView(L, snap, v, x, now, at, u);
  }

  /** `u` owns a transaction the passes select. */
  predicate Owns(snap: seq<Transaction>, u: UserId) {
    exists i :: 0 <= i < |snap| && Qualifies(snap[i]) && snap[i].userId == u
  }

  /** After a credit for `u`, all of `u`'s qualifying transactions carry the new stamp. */
  lemma CreditStampsView(L: Ledger, snap: seq<Transaction>, u: UserId, x: real, now: int, at: int)
    requires Extends(snap, L.log) && Owns(snap, u)
    ensures EarliestLastEarning(UserQualifying(CreditAndStamp(L, snap, u, x, now, at).log, u)) == Some(at)
  {
    var r := CreditAndStamp(L, snap, u, x, now, at);
    var view := UserQualifying(r.log, u);
    forall k | 0 <= k < |view|
      ensures view[k].planDetails.lastEarningAt == Some(at)
    {
      var t := view[k];
      UserQualifyingMembers(r.log, u, t);
      var i :| 0 <= i < |r.log| && r.log[i] == t;
      CreditStampsEntry(L, snap, u, x, now, at, i);
    }
    CreditViewNonEmpty(L, snap, u, x, now, at);
    AllStampedEarliest(view, at);
  }

  /** `u` still has a qualifying transaction after a credit. */
  lemma CreditViewNonEmpty(L: Ledger, snap: seq<Transaction>, u: UserId, x: real, now: int, at: int)
    requires Extends(snap, L.log) && Owns(snap, u)
    ensures |UserQualifying(CreditAndStamp(L, snap, u, x, now, at).log, u)| > 0
  {
    var r := CreditAndStamp(L, snap, u, x, now, at);
    var i0 :| 0 <= i0 < |snap| && Qualifies(snap[i0]) && snap[i0].userId == u;
    assert SameButLastEarning(snap[i0], L.log[i0]);
    assert SameButLastEarning(L.log[i0], r.log[i0]);
    UserQualifyingContains(r.log, u, i0);
  }

  /** When every transaction carries the same stamp, that stamp is the earliest. */
  lemma AllStampedEarliest(txs: seq<Transaction>, at: int)
    requires |txs| > 0 && forall k :: 0 <= k < |txs| ==> txs[k].planDetails.lastEarningAt == Some(at)
    ensures EarliestLastEarning(txs) == Some(at)
  {
    assert txs[0].planDetails.lastEarningAt.Some?;
  }

  /** A qualifying transaction of `u` after a credit carries the new stamp. */
  lemma CreditStampsEntry(L: Ledger, snap: seq<Transaction>, u: UserId, x: real, now: int, at: int, i: nat)
    requires Extends(snap, L.log)
    requires var r := CreditAndStamp(L, snap, u, x, now, at);
      i < |r.log| && r.log[i].userId == u && Qualifies(r.log[i])
    ensures CreditAndStamp(L, snap, u, x, now, at).log[i].planDetails.lastEarningAt == Some(at)
  {
    var r := CreditAndStamp(L, snap, u, x, now, at);
    if i < |L.log| {
      assert SameButLastEarning(L.log[i], r.log[i]);
      if i < |snap| {
        assert SameButLastEarning(snap[i], L.log[i]);
      }
    }
  }

  lemma EnsureStepSettles(L: Ledger, snap: seq<Transaction>, u: UserId, now: int)
    ensures Settled(EnsureToday, EnsureStep(L, snap, u, now), u, now)
  {
    var r := EnsureStep(L, snap, u, now);
    if r != L {
      assert IsDailyPercentOn(r.log[|L.log|], u, now);
    }
  }

  /** Moving `last` forward by the whole days elapsed leaves less than a day. */
  lemma CatchUpLeavesLessThanADay(last: int, now: int)
    ensures DaysElapsed(last + DaysElapsed(last, now) * DayMs, now) == 0
  {
    DaysElapsedBounds(last, now);
  }

  lemma ProcessStepUnfold(L: Ledger, snap: seq<Transaction>, u: UserId, now: int, last: int)
    requires last == LastAccrual(snap, L.log, u, now)
    ensures var days := DaysElapsed(last, now);
      var total := CatchUpTotal(RecordOf(L, u, now).currentBalance, days);
      ProcessStep(L, snap, u, now)
        == if days <= 0 || total <= 0.0 then L else CreditAndStamp(L, snap, u, total, now, last + days * DayMs)
  {
  }

  lemma CaughtUpIsSettled(L: Ledger, u: UserId, now: int)
    requires DaysElapsed(LastAccrual(L.log, L.log, u, now), now) <= 0
    ensures Settled(CatchUp, L, u, now)
  {
  }

  lemma CreditedSettles(L: Ledger, snap: seq<Transaction>, u: UserId, now: int, last: int, total: real)
    requires Extends(snap, L.log) && Owns(snap, u)
    ensures Settled(CatchUp, CreditAndStamp(L, snap, u, total, now, last + DaysElapsed(last, now) * DayMs), u, now)
  {
    var next := last + DaysElapsed(last, now) * DayMs;
    var r := CreditAndStamp(L, snap, u, total, now, next);
    CreditStampsView(L, snap, u, total, now, next);
    CatchUpLeavesLessThanADay(last, now);
    StampedIsSettled(r, u, now, next);
  }

  /** When every qualifying transaction of `u` carries a stamp less than a day old, the catch-up has nothing to do. */
  lemma StampedIsSettled(L: Ledger, u: UserId, now: int, at: int)
    requires EarliestLastEarning(UserQualifying(L.log, u)) == Some(at) && DaysElapsed(at, now) == 0
    ensures Settled(CatchUp, L, u, now)
  {
    assert LastAccrual(L.log, L.log, u, now) == at;
    CaughtUpIsSettled(L, u, now);
  }

  lemma ProcessStepSettles(L: Ledger, snap: seq<Transaction>, u: UserId, now: int)
    requires Extends(snap, L.log) && Owns(snap, u)
    requires UserQualifying(L.log, u) == UserQualifying(snap, u)
    ensures Settled(CatchUp, ProcessStep(L, snap, u, now), u, now)
  {
    var last := LastAccrual(snap, L.log, u, now);
    assert last == LastAccrual(L.log, L.log, u, now);
    ProcessStepUnfold(L, snap, u, now, last);
    var days := DaysElapsed(last, now);
    var total := CatchUpTotal(RecordOf(L, u, now).currentBalance, days);
    if days > 0 && total > 0.0 {
      CreditedSettles(L, snap, u, now, last, total);
    }
  }

  /** The step for `u` settles `u`, given `u` owns a qualifying snapshot transaction that is unchanged. */
  lemma StepSettles(job: Job, L: Ledger, snap: seq<Transaction>, u: UserId, now: int)
    requires Extends(snap, L.log) && Owns(snap, u)
    requires UserQualifying(L.log, u) == UserQualifying(snap, u)
    ensures Settled(job, Step(job, L, snap, u, now), u, now)
  {
    match job
    case EnsureToday => EnsureStepSettles(L, snap, u, now);
    case CatchUp => ProcessStepSettles(L, snap, u, now);
  }

  /** A step for `v` keeps another user `u` settled. */
  lemma StepKeepsSettled(job: Job, L: Ledger, snap: seq<Transaction>, v: UserId, u: UserId, now: int)
    requires Extends(snap, L.log) && u != v
    requires Settled(job, L, u, now)
    ensures Settled(job, Step(job, L, snap, v, now), u, now)
  {
    var r := Step(job, L, snap, v, now);
    StepKeepsView(job, L, snap, v, u, now);
    StepExtends(job, L, snap, v, now);
    if job == EnsureToday && HasDailyPercentOn(L.log, u, now) {
      var i :| 0 <= i < |L.log| && IsDailyPercentOn(L.log[i], u, now);
      assert SameButLastEarning(L.log[i], r.log[i]);
      assert IsDailyPercentOn(r.log[i], u, now);
    }
  }

  /** A settled user's step, on a snapshot equal to the log, changes nothing. */
  lemma StepSettledIdentity(job: Job, L: Ledger, u: UserId, now: int)
    requires Settled(job, L, u, now)
    ensures Step(job, L, L.log, u, now) == L
  {
  }

  // ---------------------------------------------------------------------
  // Whole passes

  lemma {:induction false} PassExtends(job: Job, L: Ledger, snap: seq<Transaction>, users: seq<UserId>, now: int)
    ensures Extends(L.log, Pass(job, L, snap, users, now).log)
    decreases |users|
  {
    if |users| > 0 {
      var L1 := Step(job, L, snap, users[0], now);
      StepExtends(job, L, snap, users[0], now);
      PassExtends(job, L1, snap, users[1..], now);
      ExtendsTransitive(L.log, L1.log, Pass(job, L, snap, users, now).log);
    }
  }

  /** Every listed user ends settled; every other settled user stays settled. */
  lemma {:induction false} PassSettles(job: Job, L: Ledger, snap: seq<Transaction>, users: seq<UserId>, now: int)
    requires Extends(snap, L.log)
    requires forall i, j :: 0 <= i < j < |users| ==> users[i] != users[j]
    requires forall u :: u in users ==> UserQualifying(L.log, u) == UserQualifying(snap, u)
    requires forall u :: u in users ==> Owns(snap, u)
    ensures forall u :: u in users ==> Settled(job, Pass(job, L, snap, users, now), u, now)
    ensures forall u :: u !in users && Settled(job, L, u, now) ==> Settled(job, Pass(job, L, snap, users, now), u, now)
    decreases |users|
  {
    if |users| > 0 {
      var x := users[0];
      var rest := users[1..];
      var L1 := Step(job, L, snap, x, now);
      assert x in users;
      StepSettles(job, L, snap, x, now);
      StepExtends(job, L, snap, x, now);
      ExtendsTransitive(snap, L.log, L1.log);
      forall u | u in rest
        ensures UserQualifying(L1.log, u) == UserQualifying(snap, u) && Owns(snap, u)
      {
        assert u in users;
        StepKeepsView(job, L, snap, x, u, now);
      }
      forall u | u !in users && Settled(job, L, u, now)
        ensures Settled(job, L1, u, now)
      {
        StepKeepsSettled(job, L, snap, x, u, now);
      }
      PassSettles(job, L1, snap, rest, now);
      assert x !in rest;
    }
  }

  /** A pass over settled users changes nothing. */
  lemma {:induction false} PassOfSettledIsIdentity(job: Job, L: Ledger, users: seq<UserId>, now: int)
    requires forall u :: u in users ==> Settled(job, L, u, now)
    ensures Pass(job, L, L.log, users, now) == L
    decreases |users|
  {
    if |users| > 0 {
      StepSettledIdentity(job, L, users[0], now);
      PassOfSettledIsIdentity(job, L, users[1..], now);
    }
  }

  lemma QualifyingUsersOfExtension(a: seq<Transaction>, b: seq<Transaction>)
    requires Extends(a, b)
    ensures forall u :: u in QualifyingUsers(b) ==> u in QualifyingUsers(a)
  {
    forall u | u in QualifyingUsers(b)
      ensures u in QualifyingUsers(a)
    {
      var i :| 0 <= i < |b| && Qualifies(b[i]) && b[i].userId == u;
      assert SameButLastEarning(a[i], b[i]);
    }
  }

  /** After a pass from a fresh snapshot, every qualifying user is settled. */
  lemma RunSettlesAll(job: Job, L: Ledger, now: int)
    ensures var r := Pass(job, L, L.log, QualifyingUsers(L.log), now);
      && Extends(L.log, r.log)
      && forall u :: u in QualifyingUsers(r.log) ==> Settled(job, r, u, now)
  {
    var users := QualifyingUsers(L.log);
    var r := Pass(job, L, L.log, users, now);
    PassSettles(job, L, L.log, users, now);
    PassExtends(job, L, L.log, users, now);
    QualifyingUsersOfExtension(L.log, r.log);
  }

  // ---------------------------------------------------------------------
  // The passes as the scheduler runs them

  /**
   * After `ensureDailyRewardsForToday`, every user owning a qualifying
   * transaction holds a daily-percent credit dated today, or has a balance
   * whose 6% is not positive.
   */
  lemma EnsureDailyCreditsEveryone(L: Ledger, now: int, u: UserId)
    requires u in QualifyingUsers(L.log)
    ensures var r := EnsureDailyRewardsForToday(L, now);
      HasDailyPercentOn(r.log, u, now) || RecordOf(r, u, now).currentBalance * DailyRate <= 0.0
  {
    RunSettlesAll(EnsureToday, L, now);
    PassSettles(EnsureToday, L, L.log, QualifyingUsers(L.log), now);
  }

  /** Running the daily pass again on the same day changes nothing. */
  lemma EnsureDailyIdempotent(L: Ledger, t1: int, t2: int)
    requires Midnight(t1) == Midnight(t2)
    ensures var r := EnsureDailyRewardsForToday(L, t1);
      EnsureDailyRewardsForToday(r, t2) == r
  {
    var r := EnsureDailyRewardsForToday(L, t1);
    RunSettlesAll(EnsureToday, L, t1);
    forall u | u in QualifyingUsers(r.log)
      ensures Settled(EnsureToday, r, u, t2)
    {
      if HasDailyPercentOn(r.log, u, t1) {
        var i :| 0 <= i < |r.log| && IsDailyPercentOn(r.log[i], u, t1);
        assert IsDailyPercentOn(r.log[i], u, t2);
      }
    }
    PassOfSettledIsIdentity(EnsureToday, r, QualifyingUsers(r.log), t2);
  }

  /**
   * After `processDailyEarnings` at `now`, no qualifying user is a whole day
   * behind with something positive to credit.
   */
  lemma ProcessDailyLeavesLessThanADay(L: Ledger, now: int, u: UserId)
    requires u in QualifyingUsers(L.log)
    ensures var r := ProcessDailyEarnings(L, now);
      var days := DaysElapsed(LastAccrual(r.log, r.log, u, now), now);
      days <= 0 || CatchUpTotal(RecordOf(r, u, now).currentBalance, days) <= 0.0
  {
    RunSettlesAll(CatchUp, L, now);
    PassSettles(CatchUp, L, L.log, QualifyingUsers(L.log), now);
  }

  /** Running the catch-up pass again at the same instant changes nothing. */
  lemma ProcessDailyIdempotent(L: Ledger, now: int)
    ensures var r := ProcessDailyEarnings(L, now);
      ProcessDailyEarnings(r, now) == r
  {
    var r := ProcessDailyEarnings(L, now);
    RunSettlesAll(CatchUp, L, now);
    PassOfSettledIsIdentity(CatchUp, r, QualifyingUsers(r.log), now);
  }

  // ---------------------------------------------------------------------
  // Reconciliation

  lemma CreditKeepsReconciled(L: Ledger, snap: seq<Transaction>, u: UserId, x: real, now: int, at: int, v: UserId)
    requires Reconciled(L, v)
    ensures Reconciled(CreditAndStamp(L, snap, u, x, now, at), v)
  {
    var r := CreditAndStamp(L, snap, u, x, now, at);
    var L1 := AddEarnings(L, u, x, DailyPercentPlan, None, now);
    AddEarningsKeepsReconciled(L, u, v, x, DailyPercentPlan, None, now);
    assert r.log == StampUser(L1.log, snap, u, at);
    SumStamped(L1.log, r.log, v, Deposit);
    SumStamped(L1.log, r.log, v, Plan);
    SumStamped(L1.log, r.log, v, Withdrawal);
    SumStamped(L1.log, r.log, v, Earnings);
  }

  lemma StepKeepsReconciled(job: Job, L: Ledger, snap: seq<Transaction>, u: UserId, v: UserId, now: int)
    requires Reconciled(L, v)
    ensures Reconciled(Step(job, L, snap, u, now), v)
  {
    var x, at := StepCases(job, L, snap, u, now);
    CreditKeepsReconciled(L, snap, u, x, now, at, v);
  }

  lemma {:induction false} PassKeepsReconciled(job: Job, L: Ledger, snap: seq<Transaction>, users: seq<UserId>,
                                               now: int, v: UserId)
    requires Reconciled(L, v)
    ensures Reconciled(Pass(job, L, snap, users, now), v)
    decreases |users|
  {
    if |users| > 0 {
      StepKeepsReconciled(job, L, snap, users[0], v, now);
      PassKeepsReconciled(job, Step(job, L, snap, users[0], now), snap, users[1..], now, v);
    }
  }

  /** Both passes write every credit to the record and to the log: reconciled records stay reconciled. */
  lemma AccrualKeepsReconciled(L: Ledger, now: int, v: UserId)
    requires Reconciled(L, v)
    ensures Reconciled(EnsureDailyRewardsForToday(L, now), v)
    ensures Reconciled(ProcessDailyEarnings(L, now), v)
  {
    PassKeepsReconciled(EnsureToday, L, L.log, QualifyingUsers(L.log), now, v);
    PassKeepsReconciled(CatchUp, L, L.log, QualifyingUsers(L.log), now, v);
  }
}

=== FILE: affiliate.dfy ===
/** The referral tiers of `js/affiliate.js`: a stage and the reward per referral. */
module Affiliate {

  datatype Stage = Bronze | Silver | Gold | Platinum

  datatype Tier = Tier(stage: Stage, reward: int)

  /** `stageForCount`: Gold is reached at exactly 25 referrals; more than 25 is Platinum. */
  function StageForCount(count: int): (t: Tier)
    ensures t.reward in {2, 5, 8, 10}
    ensures t.stage == Platinum <==> count > 25
    ensures t.stage == Gold <==> count == 25
    ensures t.stage == Silver <==> 10 <= count < 25
    ensures t.stage == Bronze <==> count < 10
    ensures t.reward == RewardOf(t.stage)
  {
    if count > 25 then Tier(Platinum, 10)
    else if count == 25 then Tier(Gold, 8)
    else if count >= 10 then Tier(Silver, 5)
    else Tier(Bronze, 2)
  }

  /** The reward each stage pays. */
  function RewardOf(s: Stage): int {
    match s
    case Bronze => 2
    case Silver => 5
    case Gold => 8
    case Platinum => 10
  }

  /** More referrals never pay a smaller reward. */
  lemma RewardMonotone(c1: int, c2: int)
    requires c1 <= c2
    ensures StageForCount(c1).reward <= StageForCount(c2).reward
  {
  }
}

=== FILE: auth_shared.dfy ===
/**
 * The pure helpers of `js/auth-shared.js`: the five-rule password strength
 * meter and the US phone-number mask applied as the user types.
 */
module AuthShared {
  import opened Text

  // ---------------------------------------------------------------------
  // evaluatePasswordStrength

  /** `s.length`: JavaScript counts UTF-16 code units, so characters beyond the BMP count twice. */
  function Utf16Length(s: string): (n: nat)
    ensures |s| <= n <= 2 * |s|
  {
    if |s| == 0 then 0 else Utf16Length(s[..|s| - 1]) + (if s[|s| - 1] as int > 0xFFFF then 2 else 1)
  }

  /** Without characters beyond the BMP the UTF-16 length is the character count. */
  lemma {:induction false} Utf16LengthOfBmp(s: string)
    requires forall i :: 0 <= i < |s| ==> s[i] as int <= 0xFFFF
    ensures Utf16Length(s) == |s|
    decreases |s|
  {
    if |s| > 0 {
      Utf16LengthOfBmp(s[..|s| - 1]);
    }
  }

  predicate IsUpperAscii(c: char) {
    'A' <= c <= 'Z'
  }

  predicate IsLowerAscii(c: char) {
    'a' <= c <= 'z'
  }

  /** The class `[!@#$%^&*()_+\-=[\]{};':"\\|,.<>/?]`. */
  predicate IsSpecial(c: char) {
    || c == '!' || c == '@' || c == '#' || c == '$' || c == '%' || c == '^' || c == '&' || c == '*'
    || c == '(' || c == ')' || c == '_' || c == '+' || c == '-' || c == '=' || c == '[' || c == ']'
    || c == '{' || c == '}' || c == ';' || c == '\'' || c == ':' || c == '"' || c == '\\' || c == '|'
    || c == ',' || c == '.' || c == '<' || c == '>' || c == '/' || c == '?'
  }

  predicate Contains(pw: string, p: char -> bool) {
    exists i :: 0 <= i < |pw| && p(pw[i])
  }

  datatype Rules = Rules(length: bool, upper: bool, lower: bool, number: bool, special: bool)

  datatype Strength = Strength(rules: Rules, score: int)

  /** How many of the five rules hold. */
  function Passed(r: Rules): (n: nat)
    ensures n <= 5
    ensures n == 5 <==> r == Rules(true, true, true, true, true)
    ensures n == 0 <==> r == Rules(false, false, false, false, false)
  {
    (if r.length then 1 else 0) + (if r.upper then 1 else 0) + (if r.lower then 1 else 0)
    + (if r.number then 1 else 0) + (if r.special then 1 else 0)
  }

  /**
   * `evaluatePasswordStrength`: each rule counts equally, and the score is
   * the passed fraction as a percentage (`Math.round(passed / 5 * 100)`,
   * which is exactly a multiple of 20).
   */
  function EvaluatePasswordStrength(pw: string): (r: Strength)
    ensures r.rules.length <==> Utf16Length(pw) >= 8
    ensures r.rules.upper <==> Contains(pw, IsUpperAscii)
    ensures r.rules.lower <==> Contains(pw, IsLowerAscii)
    ensures r.rules.number <==> Contains(pw, IsDigit)
    ensures r.rules.special <==> Contains(pw, IsSpecial)
    ensures r.score == 20 * Passed(r.rules)
    ensures r.score == 100 <==> r.rules == Rules(true, true, true, true, true)
    ensures r.score == 0 <==> r.rules == Rules(false, false, false, false, false)
  {
    var rules := Rules(Utf16Length(pw) >= 8, Contains(pw, IsUpperAscii), Contains(pw, IsLowerAscii),
                       Contains(pw, IsDigit), Contains(pw, IsSpecial));
    Strength(rules, Passed(rules) * 20)
  }

  /** Adding a character never lowers the score. */
  lemma {:induction false} ScoreMonotone(pw: string, c: char)
    ensures EvaluatePasswordStrength(pw).score <= EvaluatePasswordStrength(pw + [c]).score
  {
    var longer := pw + [c];
    assert longer[..|longer| - 1] == pw;
    forall p: char -> bool | Contains(pw, p) ensures Contains(longer, p) {
      var i :| 0 <= i < |pw| && p(pw[i]);
      assert longer[i] == pw[i];
    }
  }

  /** The empty password fails every rule and scores 0. */
  lemma EmptyPasswordScoresZero()
    ensures EvaluatePasswordStrength("") == Strength(Rules(false, false, false, false, false), 0)
  {
  }

  /** `Abcdef1!` passes every rule and scores 100. */
  lemma MixedPasswordScoresFull()
    ensures EvaluatePasswordStrength("Abcdef1!") == Strength(Rules(true, true, true, true, true), 100)
  {
    var pw := "Abcdef1!";
    assert IsUpperAscii(pw[0]) && IsLowerAscii(pw[1]) && IsDigit(pw[6]) && IsSpecial(pw[7]);
    Utf16LengthOfBmp(pw);
  }

  /** `Abcdef12` fails only the special-character rule and scores 80. */
  lemma NoSpecialScoresEighty()
    ensures EvaluatePasswordStrength("Abcdef12") == Strength(Rules(true, true, true, true, false), 80)
  {
    var pw := "Abcdef12";
    assert IsUpperAscii(pw[0]) && IsLowerAscii(pw[1]) && IsDigit(pw[6]);
    assert !Contains(pw, IsSpecial) by {
      forall i | 0 <= i < |pw| ensures !IsSpecial(pw[i]) {
      }
    }
    Utf16LengthOfBmp(pw);
  }

  // ---------------------------------------------------------------------
  // formatPhoneNumber

  /** `s.replace(/\D/g, '')`: the decimal digits of `s`, in order. */
  function DigitsOf(s: string): (d: string)
    ensures |d| <= |s| && AllDigits(d)
  {
    if |s| == 0 then ""
    else if IsDigit(s[|s| - 1]) then DigitsOf(s[..|s| - 1]) + [s[|s| - 1]]
    else DigitsOf(s[..|s| - 1])
  }

  lemma {:induction false} DigitsOfAppend(a: string, b: string)
    ensures DigitsOf(a + b) == DigitsOf(a) + DigitsOf(b)
    decreases |b|
  {
    if |b| == 0 {
      assert a + b == a;
    } else {
      assert (a + b)[..|a + b| - 1] == a + b[..|b| - 1];
      DigitsOfAppend(a, b[..|b| - 1]);
    }
  }

  lemma {:induction false} DigitsOfDigits(s: string)
    requires AllDigits(s)
    ensures DigitsOf(s) == s
    decreases |s|
  {
    if |s| > 0 {
      DigitsOfDigits(s[..|s| - 1]);
    }
  }

  /** The phone mask: `(ddd) ddd-rest`, `(ddd) rest` or `(digits` by how many digits there are. */
  function FormatPhoneNumber(input: string): (out: string)
    ensures var v := DigitsOf(input); var d := if |v| > 10 then v[..10] else v;
      && (|d| >= 6 ==> out == "(" + d[..3] + ") " + d[3..6] + "-" + d[6..])
      && (3 <= |d| < 6 ==> out == "(" + d[..3] + ") " + d[3..])
      && (1 <= |d| < 3 ==> out == "(" + d)
      && (|d| == 0 ==> out == "")
  {
    var v := DigitsOf(input);
    var d := if |v| > 10 then v[..10] else v;
    if |d| >= 6 then "(" + d[..3] + ") " + d[3..6] + "-" + d[6..]
    else if |d| >= 3 then "(" + d[..3] + ") " + d[3..]
    else if |d| > 0 then "(" + d
    else ""
  }

  /** The first ten digits of the input: what the mask keeps. */
  function KeptDigits(input: string): (d: string)
    ensures |d| <= 10 && AllDigits(d)
  {
    var v := DigitsOf(input);
    if |v| > 10 then v[..10] else v
  }

  /** Digits framed by punctuation keep only the digits. */
  lemma DigitsOfFramed(p: string, d: string)
    requires AllDigits(d) && DigitsOf(p) == ""
    ensures DigitsOf(p + d) == d
  {
    DigitsOfAppend(p, d);
    DigitsOfDigits(d);
  }

  lemma PunctuationHasNoDigits()
    ensures DigitsOf("(") == "" && DigitsOf(") ") == "" && DigitsOf("-") == ""
  {
    assert ") "[..1] == ")";
  }

  lemma DigitsOfLongMask(d: string)
    requires AllDigits(d) && |d| >= 6
    ensures DigitsOf("(" + d[..3] + ") " + d[3..6] + "-" + d[6..]) == d
  {
    PunctuationHasNoDigits();
    DigitsOfFramed("(", d[..3]);
    DigitsOfAppend("(" + d[..3], ") ");
    DigitsOfAppend("(" + d[..3] + ") ", d[3..6]);
    DigitsOfDigits(d[3..6]);
    DigitsOfAppend("(" + d[..3] + ") " + d[3..6], "-");
    DigitsOfAppend("(" + d[..3] + ") " + d[3..6] + "-", d[6..]);
    DigitsOfDigits(d[6..]);
    assert d[..3] + d[3..6] + d[6..] == d;
  }

  lemma DigitsOfShortMask(d: string)
    requires AllDigits(d) && |d| >= 3
    ensures DigitsOf("(" + d[..3] + ") " + d[3..]) == d
  {
    PunctuationHasNoDigits();
    DigitsOfFramed("(", d[..3]);
    DigitsOfAppend("(" + d[..3], ") ");
    DigitsOfAppend("(" + d[..3] + ") ", d[3..]);
    DigitsOfDigits(d[3..]);
    assert d[..3] + d[3..] == d;
  }

  /** The mask only adds punctuation: its digits are exactly the first ten digits typed. */
  lemma FormatPhoneKeepsDigits(input: string)
    ensures DigitsOf(FormatPhoneNumber(input)) == KeptDigits(input)
  {
    var d := KeptDigits(input);
    if |d| >= 6 {
      DigitsOfLongMask(d);
    } else if |d| >= 3 {
      DigitsOfShortMask(d);
    } else if |d| > 0 {
      PunctuationHasNoDigits();
      DigitsOfFramed("(", d);
    }
  }

  /** Masking an already masked number changes nothing. */
  lemma FormatPhoneIdempotent(input: string)
    ensures FormatPhoneNumber(FormatPhoneNumber(input)) == FormatPhoneNumber(input)
  {
    FormatPhoneKeepsDigits(input);
  }
}

=== FILE: chart.dfy ===
/**
 * The client-side daily balance chart of `js/balance-chart.js`: history
 * entries are keyed by calendar date (`YYYY-MM-DD`), the latest numeric
 * balance of a date wins, and the last `days` dates carry the last known
 * balance forward from zero.
 */
module BalanceChart {
  import opened Wrappers
  import opened Text
  import opened Clock
  import History

  /** A calendar date of the proleptic Gregorian calendar. */
  datatype Date = Date(year: int, month: int, day: int)

  /**
   * The calendar date of day number `z` (days since 1970-01-01), by the
   * era/day-of-era decomposition: 400-year eras of 146097 days, years that
   * start in March so the leap day falls last.
   */
  function CivilFromDays(z: int): (d: Date)
    ensures 1 <= d.month <= 12 && 1 <= d.day <= 31
  {
    var shifted := z + 719468;
    var era := shifted / 146097;
    var doe := shifted - era * 146097;
    var yoe := (doe - doe / 1460 + doe / 36524 - doe / 146096) / 365;
    var doy := doe - (365 * yoe + yoe / 4 - yoe / 100);
    DateOfParts(era, yoe, doy, (5 * doy + 2) / 153)
  }

  /** The date of day `doy` of month index `mp` (0 is March) in year `yoe` of era `era`. */
  function DateOfParts(era: int, yoe: int, doy: int, mp: int): Date {
    var month := if mp < 10 then mp + 3 else mp - 9;
    var year := yoe + era * 400;
    Date(if month <= 2 then year + 1 else year, month, doy - (153 * mp + 2) / 5 + 1)
  }

  /**
   * The day number of a calendar date, the inverse decomposition: shift the
   * year to start in March, split it into era and year of era, and count the
   * days before it.
   */
  function DaysFromCivil(d: Date): int {
    var y := if d.month <= 2 then d.year - 1 else d.year;
    var era := y / 400;
    var yoe := y - era * 400;
    var mp := if d.month > 2 then d.month - 3 else d.month + 9;
    var doy := (153 * mp + 2) / 5 + d.day - 1;
    var doe := yoe * 365 + yoe / 4 - yoe / 100 + doy;
    era * 146097 + doe - 719468
  }

  /**
   * The year of era the forward decomposition picks is the one holding day
   * `doe`: its day of year lies in `[0, 365]`. The era splits into centuries
   * of 36524 days, four-year cycles of 1461 days and years of 365 days, the
   * leap day closing each cycle.
   */
  lemma YearOfEraSplit(doe: int)
    requires 0 <= doe < 146097
    ensures var yoe := (doe - doe / 1460 + doe / 36524 - doe / 146096) / 365;
      0 <= yoe < 400 && 0 <= doe - (365 * yoe + yoe / 4 - yoe / 100) <= 365
  {
    if doe < 146096 {
      var centuries, cycles, g := EraDayParts(doe);
      NormalizedYears(centuries, cycles, g);
      DayOfYearOf(centuries, cycles, g);
    }
  }

  /** A day of an era, before its closing leap day, as whole centuries, whole four-year cycles and a day of the cycle. */
  lemma EraDayParts(doe: int) returns (centuries: int, cycles: int, g: int)
    requires 0 <= doe < 146096
    ensures doe == 36524 * centuries + 1461 * cycles + g
    ensures 0 <= centuries <= 3 && 0 <= cycles <= 24 && 0 <= g <= 1460 && 1461 * cycles + g < 36524
  {
    centuries := doe / 36524;
    var e := doe - 36524 * centuries;
    cycles := e / 1461;
    g := e - 1461 * cycles;
  }

  /** The whole years before day `g` of a four-year cycle; the cycle's leap day closes its fourth year. */
  function YearsIn(g: int): int {
    if g == 1460 then 3 else g / 365
  }

  /** The forward decomposition's year of era is the sum of the whole centuries, cycles and years before the day. */
  lemma NormalizedYears(centuries: int, cycles: int, g: int)
    requires 0 <= centuries <= 3 && 0 <= cycles <= 24 && 0 <= g <= 1460 && 1461 * cycles + g < 36524
    ensures var doe := 36524 * centuries + 1461 * cycles + g;
      (doe - doe / 1460 + doe / 36524 - doe / 146096) / 365 == 100 * centuries + 4 * cycles + YearsIn(g)
  {
    var doe := 36524 * centuries + 1461 * cycles + g;
    var spill := 24 * centuries + cycles + g;
    assert doe / 146096 == 0;
    assert doe / 36524 == centuries;
    if spill < 1460 {
      assert doe / 1460 == 25 * centuries + cycles;
      SpillFree(centuries, cycles, g);
    } else {
      assert doe / 1460 == 25 * centuries + cycles + 1;
      Spilled(centuries, cycles, g);
    }
  }

  lemma SpillFree(centuries: int, cycles: int, g: int)
    requires 0 <= centuries <= 3 && 0 <= cycles <= 24 && 0 <= g < 1460
    ensures (36500 * centuries + 1460 * cycles + g) / 365 == 100 * centuries + 4 * cycles + YearsIn(g)
  {
    assert 0 <= g / 365 <= 3;
  }

  lemma Spilled(centuries: int, cycles: int, g: int)
    requires 0 <= centuries <= 3 && 0 <= cycles <= 24 && 0 <= g <= 1460 && 24 * centuries + cycles + g >= 1460
    ensures (36500 * centuries + 1460 * cycles + g - 1) / 365 == 100 * centuries + 4 * cycles + YearsIn(g)
  {
    assert g >= 1364;
    assert (g - 1) / 365 == 3;
  }

  /** The day of year the forward decomposition leaves is the day within the chosen year. */
  lemma DayOfYearOf(centuries: int, cycles: int, g: int)
    requires 0 <= centuries <= 3 && 0 <= cycles <= 24 && 0 <= g <= 1460
    ensures var yoe := 100 * centuries + 4 * cycles + YearsIn(g);
      && 0 <= yoe < 400
      && (36524 * centuries + 1461 * cycles + g) - (365 * yoe + yoe / 4 - yoe / 100) == g - 365 * YearsIn(g)
      && 0 <= g - 365 * YearsIn(g) <= 365
  {
    var years := YearsIn(g);
    assert 0 <= years <= 3;
    var yoe := 100 * centuries + 4 * cycles + years;
    assert yoe / 4 == 25 * centuries + cycles;
    assert yoe / 100 == centuries;
  }

  /** Every day number is recovered from its calendar date, so distinct days have distinct dates. */
  lemma CivilRoundTrip(z: int)
    ensures DaysFromCivil(CivilFromDays(z)) == z
  {
    var era, yoe, doy, mp := CivilParts(z);
    RecomposeDate(era, yoe, doy, mp);
  }

  /** The era, year of era, day of year and March-based month index the forward decomposition computes for day `z`. */
  lemma CivilParts(z: int) returns (era: int, yoe: int, doy: int, mp: int)
    ensures 0 <= yoe < 400 && 0 <= mp < 12
    ensures era * 146097 + (365 * yoe + yoe / 4 - yoe / 100 + doy) == z + 719468
    ensures CivilFromDays(z) == DateOfParts(era, yoe, doy, mp)
  {
    var shifted := z + 719468;
    era := shifted / 146097;
    var doe := shifted - era * 146097;
    yoe := (doe - doe / 1460 + doe / 36524 - doe / 146096) / 365;
    doy := doe - (365 * yoe + yoe / 4 - yoe / 100);
    mp := (5 * doy + 2) / 153;
    CivilUnfold(z);
    EraRemainder(shifted);
    YearOfEraSplit(doe);
    MonthIndexBound(doy);
  }

  /** `CivilFromDays` assembles its date from the era, the year of era, the day of year and the month index. */
  lemma CivilUnfold(z: int)
    ensures var shifted := z + 719468;
      var era := shifted / 146097;
      var doe := shifted - era * 146097;
      var yoe := (doe - doe / 1460 + doe / 36524 - doe / 146096) / 365;
      var doy := doe - (365 * yoe + yoe / 4 - yoe / 100);
      CivilFromDays(z) == DateOfParts(era, yoe, doy, (5 * doy + 2) / 153)
  {
  }

  /** What is left of a day count after its whole eras is a day of an era. */
  lemma EraRemainder(shifted: int)
    ensures 0 <= shifted - shifted / 146097 * 146097 < 146097
  {
  }

  /** A day of a March-based year falls in one of its twelve months. */
  lemma MonthIndexBound(doy: int)
    requires 0 <= doy <= 365
    ensures 0 <= (5 * doy + 2) / 153 < 12
  {
  }

  /** The inverse decomposition undoes each step of the forward one. */
  lemma RecomposeDate(era: int, yoe: int, doy: int, mp: int)
    requires 0 <= yoe < 400 && 0 <= mp < 12
    ensures var month := if mp < 10 then mp + 3 else mp - 9;
      var year := yoe + era * 400;
      var date := Date(if month <= 2 then year + 1 else year, month, doy - (153 * mp + 2) / 5 + 1);
      DaysFromCivil(date) == era * 146097 + (365 * yoe + yoe / 4 - yoe / 100 + doy) - 719468
  {
    var y := yoe + era * 400;
    assert y / 400 == era;
  }

  /** Distinct day numbers have distinct calendar dates. */
  lemma CivilFromDaysInjective(z1: int, z2: int)
    requires CivilFromDays(z1) == CivilFromDays(z2)
    ensures z1 == z2
  {
    CivilRoundTrip(z1);
    CivilRoundTrip(z2);
  }

  /** Day 0 is the epoch, 1970-01-01, and day -1 the last day of 1969. */
  lemma EpochDates()
    ensures CivilFromDays(0) == Date(1970, 1, 1)
    ensures CivilFromDays(-1) == Date(1969, 12, 31)
  {
    assert 719468 / 146097 == 4;
    assert 135080 / 1460 == 92 && 135080 / 36524 == 3 && 135080 / 146096 == 0;
    assert 134991 / 365 == 369;
    assert 369 / 4 == 92 && 369 / 100 == 3;
    assert 1532 / 153 == 10;
    assert 1532 / 5 == 306;
    assert 719467 / 146097 == 4;
    assert 135079 / 1460 == 92 && 135079 / 36524 == 3 && 135079 / 146096 == 0;
    assert 134990 / 365 == 369;
    assert 369 / 4 == 92 && 369 / 100 == 3;
    assert 1527 / 153 == 9;
    assert 1379 / 5 == 275;
  }

  /** Days 11016 and 19782 are the leap days of 2000 and 2024. */
  lemma LeapDayDates()
    ensures CivilFromDays(11016) == Date(2000, 2, 29)
    ensures CivilFromDays(19782) == Date(2024, 2, 29)
  {
    assert 730484 / 146097 == 4;
    assert 146096 / 1460 == 100 && 146096 / 36524 == 4 && 146096 / 146096 == 1;
    assert 145999 / 365 == 399;
    assert 399 / 4 == 99 && 399 / 100 == 3;
    assert 1827 / 153 == 11;
    assert 1685 / 5 == 337;
    assert 739250 / 146097 == 5;
    assert 8765 / 1460 == 6 && 8765 / 36524 == 0 && 8765 / 146096 == 0;
    assert 8759 / 365 == 23;
    assert 23 / 4 == 5 && 23 / 100 == 0;
    assert 1827 / 153 == 11;
    assert 1685 / 5 == 337;
  }

  /** `String(n).padStart(2, '0')`. */
  function PadTwo(n: nat): (s: string)
    ensures |s| >= 2 && AllDigits(s)
    ensures n < 100 ==> |s| == 2
  {
    var digits := NatToString(n);
    if |digits| < 2 then "0" + digits
    else
      assert n < 100 ==> |digits| == 2 by {
        if 10 <= n < 100 {
          NatToStringLength(n, 1);
        }
      }
      digits
  }

  /** `formatDateKey`: the year unpadded, month and day padded to two digits. */
  function FormatDateKey(d: Date): string
    requires 1 <= d.month <= 12 && 1 <= d.day <= 31
  {
    IntToString(d.year) + "-" + PadTwo(d.month) + "-" + PadTwo(d.day)
  }

  /** The test `/^\d{4}-\d{2}-\d{2}$/`. */
  predicate IsDateKeyShape(s: string) {
    && |s| == 10 && s[4] == '-' && s[7] == '-'
    && AllDigits(s[..4]) && AllDigits(s[5..7]) && AllDigits(s[8..])
  }

  /** The date a `YYYY-MM-DD` key denotes. */
  function ParseDateKey(s: string): Date
    requires IsDateKeyShape(s)
  {
    Date(DecimalValue(s[..4]), DecimalValue(s[5..7]), DecimalValue(s[8..]))
  }

  lemma PadTwoValue(n: nat)
    requires n < 100
    ensures DecimalValue(PadTwo(n)) == n
  {
    DecimalValueOfNatToString(n);
    var digits := NatToString(n);
    if |digits| < 2 {
      var s := "0" + digits;
      assert s[..1] == "0";
      assert DecimalValue(s[..1]) == 0 by {
        assert s[..1][..0] == "";
      }
    }
  }

  /** Four-digit years give keys of the `YYYY-MM-DD` shape, and those keys read back as the date. */
  lemma FormatDateKeyRoundTrip(d: Date)
    requires 1000 <= d.year <= 9999 && 1 <= d.month <= 12 && 1 <= d.day <= 31
    ensures IsDateKeyShape(FormatDateKey(d))
    ensures ParseDateKey(FormatDateKey(d)) == d
  {
    NatToStringLength(d.year, 3);
    DecimalValueOfNatToString(d.year);
    PadTwoValue(d.month);
    PadTwoValue(d.day);
    var y := NatToString(d.year);
    var s := FormatDateKey(d);
    assert s == y + "-" + PadTwo(d.month) + "-" + PadTwo(d.day);
    assert s[..4] == y;
    assert s[5..7] == PadTwo(d.month);
    assert s[8..] == PadTwo(d.day);
  }

  // ---------------------------------------------------------------------
  // buildDailySeries

  /** A numeric attribute as the script sees it: absent (`null`/`undefined`), not a number, or a number. */
  datatype NumField = Absent | NotANumber | Num(value: real)

  /**
   * A history entry: its `date` when it is a string, the instant that
   * `new Date(entry.date || entry.createdAt || entry.approvedAt)` yields
   * (`None` for an invalid date), and its balance and amount.
   */
  datatype ChartEntry = ChartEntry(dateText: Option<string>, instant: Option<int>, balance: NumField, amount: NumField)

  /** The local calendar date of an instant, on the fixed-offset clock. */
  function DateKeyOf(t: int): string {
    FormatDateKey(CivilFromDays(DayIndex(t)))
  }

  /** The date key of an entry; `None` for an entry the script skips. */
  function EntryKey(e: ChartEntry): Option<string> {
    if e.dateText.Some? && IsDateKeyShape(e.dateText.value) then Some(e.dateText.value)
    else if e.instant.Some? then Some(DateKeyOf(e.instant.value))
    else None
  }

  /** The value an entry contributes: its balance, else its amount, when present and numeric. */
  function EntryValue(e: ChartEntry): NumField {
    if !e.balance.Absent? then e.balance else e.amount
  }

  /** What `balanceHistory.forEach` reads of each entry: its date key and its value. */
  function Keyed(entries: seq<ChartEntry>): (r: seq<(Option<string>, NumField)>)
    ensures |r| == |entries|
    ensures forall i :: 0 <= i < |entries| ==> r[i] == (EntryKey(entries[i]), EntryValue(entries[i]))
  {
    seq(|entries|, i requires 0 <= i < |entries| => (EntryKey(entries[i]), EntryValue(entries[i])))
  }

  /** One iteration of `balanceHistory.forEach`. */
  function AddEntry(m: map<string, real>, e: (Option<string>, NumField)): (r: map<string, real>)
    ensures e.0.None? ==> r == m
    ensures e.0.Some? ==> r.Keys == m.Keys + {e.0.value}
    ensures e.0.Some? && e.1.Num? ==> r == m[e.0.value := e.1.value]
    ensures e.0.Some? && !e.1.Num? ==> r == if e.0.value in m then m else m[e.0.value := 0.0]
  {
    match e.0
    case None => m
    case Some(key) =>
      var raw := if !e.1.Absent? then e.1 else if key in m then Num(m[key]) else Absent;
      if raw.Num? then m[key := raw.value]
      else if key !in m then m[key := 0.0]
      else m
  }

  /** The map from date key to the date's balance, built entry by entry. */
  function DateMap(entries: seq<(Option<string>, NumField)>): map<string, real>
    decreases |entries|
  {
    if |entries| == 0 then map[] else AddEntry(DateMap(entries[..|entries| - 1]), entries[|entries| - 1])
  }

  /** The keys of the last `days` days, oldest first, ending with today's. */
  function ChartKeys(days: int, now: int): (keys: seq<string>)
    ensures |keys| == if days > 0 then days else 0
  {
    if days <= 0 then []
    else seq(days, i requires 0 <= i < days => DateKeyOf(now - (days - 1 - i) * DayMs))
  }

  /** `buildDailySeries(balanceHistory, days).values`. */
  function BuildDailySeries(entries: seq<ChartEntry>, days: int, now: int): (values: seq<real>)
    ensures |values| == if days > 0 then days else 0
  {
    History.CarryForward(ChartKeys(days, now), DateMap(Keyed(entries)), 0.0)
  }

  // ---------------------------------------------------------------------
  // Properties

  /** Some entry has the date key `key`. */
  predicate Dated(entries: seq<(Option<string>, NumField)>, key: string) {
    exists i :: 0 <= i < |entries| && entries[i].0 == Some(key)
  }

  lemma DatedSnoc(entries: seq<(Option<string>, NumField)>, key: string)
    requires |entries| > 0
    ensures Dated(entries, key) <==> Dated(entries[..|entries| - 1], key) || entries[|entries| - 1].0 == Some(key)
  {
    var n := |entries| - 1;
    if Dated(entries[..n], key) {
      var i :| 0 <= i < n && entries[..n][i].0 == Some(key);
      assert entries[i] == entries[..n][i];
    }
    if Dated(entries, key) {
      var i :| 0 <= i < |entries| && entries[i].0 == Some(key);
      if i < n {
        assert entries[..n][i] == entries[i];
      }
    }
  }

  /** A date is charted exactly when some entry has its key. */
  lemma {:induction false} DateMapKeys(entries: seq<(Option<string>, NumField)>, key: string)
    ensures key in DateMap(entries) <==> Dated(entries, key)
    decreases |entries|
  {
    if |entries| > 0 {
      DateMapKeys(entries[..|entries| - 1], key);
      DatedSnoc(entries, key);
    }
  }

  /** Entry `i` is the last one with the date key `key` that carries a numeric value. */
  predicate LastNumericForKey(entries: seq<(Option<string>, NumField)>, i: int, key: string)
    requires 0 <= i < |entries|
  {
    && entries[i].0 == Some(key) && entries[i].1.Num?
    && forall j :: i < j < |entries| && entries[j].0 == Some(key) ==> !entries[j].1.Num?
  }

  /**
   * The latest entry of a date with a numeric balance (or, lacking one,
   * amount) sets the date's value; later non-numeric entries of that date
   * leave it alone.
   */
  lemma {:induction false} DateMapLatestWins(entries: seq<(Option<string>, NumField)>, i: nat, key: string)
    requires i < |entries| && LastNumericForKey(entries, i, key)
    ensures key in DateMap(entries) && DateMap(entries)[key] == entries[i].1.value
    decreases |entries|
  {
    var n := |entries| - 1;
    if i < n {
      assert LastNumericForKey(entries[..n], i, key) by {
        forall j | i < j < n && entries[..n][j].0 == Some(key) ensures !entries[..n][j].1.Num? {
          assert entries[..n][j] == entries[j];
        }
      }
      DateMapLatestWins(entries[..n], i, key);
    }
  }

  /** A date whose entries carry no numeric value charts as zero. */
  lemma {:induction false} DateMapNonNumeric(entries: seq<(Option<string>, NumField)>, key: string)
    requires forall i :: 0 <= i < |entries| && entries[i].0 == Some(key) ==> !entries[i].1.Num?
    ensures key in DateMap(entries) ==> DateMap(entries)[key] == 0.0
    decreases |entries|
  {
    if |entries| > 0 {
      var n := |entries| - 1;
      forall i | 0 <= i < n && entries[..n][i].0 == Some(key)
        ensures !entries[..n][i].1.Num?
      {
        assert entries[..n][i] == entries[i];
      }
      DateMapNonNumeric(entries[..n], key);
    }
  }

  /** Each day of the chart shows the balance of the latest charted day up to it, zero before any. */
  lemma BuildDailySeriesCarries(entries: seq<ChartEntry>, days: int, now: int, i: nat)
    requires i < days
    ensures BuildDailySeries(entries, days, now)[i] == History.LastKnown(ChartKeys(days, now), DateMap(Keyed(entries)), 0.0, i)
  {
    History.CarryForwardIsLastKnown(ChartKeys(days, now), DateMap(Keyed(entries)), 0.0, i);
  }
}

=== FILE: clock.dfy ===
/**
 * Abstract time. Instants are integer milliseconds since the epoch; the
 * server's local day boundary (`setHours(0,0,0,0)`) is `Midnight`, taken on a
 * clock with a fixed offset so that every day lasts exactly `DayMs`.
 */
module Clock {

  const DayMs: int := 24 * 60 * 60 * 1000
  const HourMs: int := 60 * 60 * 1000

  /** The start of the calendar day that contains `t`. */
  function Midnight(t: int): (m: int)
    ensures m <= t < m + DayMs
    ensures m % DayMs == 0
  {
    t - t % DayMs
  }

  /** `t` lies in `[todayStart, tomorrowStart)` for the day of `now`. */
  predicate OnDayOf(t: int, now: int) {
    Midnight(now) <= t < Midnight(now) + DayMs
  }

  /** Sequential number of the calendar day of `t` (the `YYYY-MM-DD` key). */
  function DayIndex(t: int): int {
    t / DayMs
  }

  /** Sequential number of the hour of `t` (the `YYYY-MM-DDTHH` key). */
  function HourIndex(t: int): int {
    t / HourMs
  }

  /** Two instants on the same day have the same midnight, and conversely. */
  lemma OnDayOfIffSameMidnight(t: int, now: int)
    ensures OnDayOf(t, now) <==> Midnight(t) == Midnight(now)
  {
    var m := Midnight(now);
    assert m % DayMs == 0;
    if OnDayOf(t, now) {
      assert t - m < DayMs;
      assert (t - m) % DayMs == t - m;
      assert t % DayMs == t - m by {
        assert t == m + (t - m);
      }
    }
  }
}

=== FILE: dashboard.dfy ===
/**
 * The estimated daily profit card of `js/dashboard.js`: each approved
 * deposit gets an ROI tier, the tiers are averaged weighted by amount, and
 * the average is applied to the current balance.
 */
module Dashboard {
  import opened Wrappers
  import opened Text
  import opened JsNumbers
  import opened LedgerModel
  import LedgerOps

  /**
   * A stored `amount` as the card sees it: a falsy value (missing, `null`,
   * `""`, `0`, `NaN`), or a truthy one together with `Number(amount)`.
   */
  datatype RawAmount = Falsy | Truthy(number: JsNumber)

  /** `Number(amount || 0)`: a falsy amount reads as 0. */
  function OrZeroNumber(a: RawAmount): (n: JsNumber)
    ensures a.Falsy? ==> n == Finite(0.0)
    ensures a.Truthy? ==> n == a.number
  {
    match a
    case Falsy => Finite(0.0)
    case Truthy(n) => n
  }

  /** The fields of a deposit document the card reads. */
  datatype DepositDoc = DepositDoc(planType: Option<string>, amount: RawAmount, approvalStatus: Option<string>, status: Option<string>)

  /** `getDepositROI`: the plan tier, or the amount brackets for other plan types (a `NaN` amount lands in the top bracket). */
  function GetDepositRoi(d: DepositDoc): (roi: int)
    ensures roi in {4, 6, 8}
  {
    var pt := LowerAscii(d.planType.GetOr(""));
    var amount := OrZeroNumber(d.amount);
    if pt == "basic" then 4
    else if pt == "standard" then 6
    else if pt == "premium" then 8
    else if Below(amount, 99.0) then 4
    else if Below(amount, 499.0) then 6
    else 8
  }

  /** The card and the approval step assign the same tier to a deposit with a finite amount. */
  lemma DepositRoiIsApprovalRoi(d: DepositDoc, details: Details)
    requires OrZeroNumber(d.amount).Finite? && details.planType == d.planType
    ensures GetDepositRoi(d) == LedgerOps.ApprovalRoi(details, OrZeroNumber(d.amount).value)
  {
  }

  predicate IsApproved(d: DepositDoc) {
    d.approvalStatus == Some("approved") || d.status == Some("approved")
  }

  /**
   * An approved deposit as the averages see it: `amount` is
   * `Number(d.amount) || 0` (what the total adds), `numeric` says that
   * `Number(d.amount || 0)` (what the weighted sum multiplies) is not `NaN`,
   * in which case the two agree, and `roi` is its tier.
   */
  datatype Weighted = Weighted(amount: real, numeric: bool, roi: int)

  /** The averaged form of one deposit whose amount is finite or `NaN`. */
  function WeightOf(d: DepositDoc): (w: Weighted)
    requires !OrZeroNumber(d.amount).NegInfinity? && !OrZeroNumber(d.amount).PosInfinity?
    ensures w.numeric <==> OrZeroNumber(d.amount).Finite?
    ensures w.numeric ==> w.amount == OrZeroNumber(d.amount).value
    ensures !w.numeric ==> w.amount == 0.0
    ensures w.roi == GetDepositRoi(d)
  {
    match OrZeroNumber(d.amount)
    case Finite(v) => Weighted(v, true, GetDepositRoi(d))
    case _ => Weighted(0.0, false, GetDepositRoi(d))
  }

  /**
   * `deps.filter(approved)` in order, each in its averaged form; an amount
   * that reads as an infinity is outside the model.
   */
  function ApprovedDeposits(deps: seq<DepositDoc>): (r: seq<Weighted>)
    ensures |r| <= |deps|
    ensures forall i :: 0 <= i < |r| ==> r[i].roi in {4, 6, 8}
  {
    if |deps| == 0 then []
    else
      var rest := ApprovedDeposits(deps[1..]);
      var d := deps[0];
      var n := OrZeroNumber(d.amount);
      if IsApproved(d) && (n.Finite? || n.NaN?) then [WeightOf(d)] + rest else rest
  }

  /** Every approved deposit with a finite or `NaN` amount is averaged, non-numeric ones included. */
  lemma {:induction false} ApprovedDepositsKeepsApproved(deps: seq<DepositDoc>)
    requires forall i :: 0 <= i < |deps| ==> IsApproved(deps[i]) && !OrZeroNumber(deps[i].amount).NegInfinity? && !OrZeroNumber(deps[i].amount).PosInfinity?
    ensures |ApprovedDeposits(deps)| == |deps|
    ensures forall i :: 0 <= i < |deps| ==> ApprovedDeposits(deps)[i] == WeightOf(deps[i])
    decreases |deps|
  {
    if |deps| > 0 {
      ApprovedDepositsKeepsApproved(deps[1..]);
    }
  }

  /** Averaging a concatenation averages each part in turn. */
  lemma {:induction false} ApprovedDepositsAppend(a: seq<DepositDoc>, b: seq<DepositDoc>)
    ensures ApprovedDeposits(a + b) == ApprovedDeposits(a) + ApprovedDeposits(b)
    decreases |a|
  {
    if |a| > 0 {
      assert (a + b)[1..] == a[1..] + b;
      ApprovedDepositsAppend(a[1..], b);
    } else {
      assert a + b == b;
    }
  }

  /** One deposit is averaged exactly when it is approved and its amount is finite or `NaN`. */
  lemma ApprovedDepositsSingle(d: DepositDoc)
    ensures !IsApproved(d) ==> ApprovedDeposits([d]) == []
    ensures IsApproved(d) && !OrZeroNumber(d.amount).NegInfinity? && !OrZeroNumber(d.amount).PosInfinity? ==>
      ApprovedDeposits([d]) == [WeightOf(d)]
  {
    assert [d][1..] == [];
  }

  /** Deposits that are not approved contribute nothing, wherever they stand. */
  lemma {:induction false} ApprovedDepositsDropsUnapproved(deps: seq<DepositDoc>)
    requires forall i :: 0 <= i < |deps| ==> !IsApproved(deps[i])
    ensures ApprovedDeposits(deps) == []
    decreases |deps|
  {
    if |deps| > 0 {
      ApprovedDepositsDropsUnapproved(deps[1..]);
    }
  }

  function TotalAmount(ds: seq<Weighted>): real {
    if |ds| == 0 then 0.0 else ds[0].amount + TotalAmount(ds[1..])
  }

  function WeightedSum(ds: seq<Weighted>): real {
    if |ds| == 0 then 0.0 else ds[0].amount * ds[0].roi as real + WeightedSum(ds[1..])
  }

  function RoiSum(ds: seq<Weighted>): real {
    if |ds| == 0 then 0.0 else ds[0].roi as real + RoiSum(ds[1..])
  }

  /** No averaged amount is `NaN` in the weighted sum. */
  predicate AllNumeric(ds: seq<Weighted>) {
    forall i :: 0 <= i < |ds| ==> ds[i].numeric
  }

  /**
   * The weighted-average ROI: weighted by amount when the approved total is
   * positive (`None` when a non-numeric amount makes that sum `NaN`), the
   * plain mean when there are approved deposits but no positive total, and 0
   * without approved deposits.
   */
  function AverageRoi(ds: seq<Weighted>): Option<real> {
    if TotalAmount(ds) > 0.0 then
      if AllNumeric(ds) then Some(WeightedSum(ds) / TotalAmount(ds)) else None
    else if |ds| > 0 then Some(RoiSum(ds) / |ds| as real)
    else Some(0.0)
  }

  /**
   * `Number(actualBalance || 0) * (weightedAvgROI / 100)`, with `None`
   * standing for `NaN` (which the card then shows as 0).
   */
  function EstimatedDailyProfit(balance: real, deps: seq<DepositDoc>): (profit: Option<real>)
    ensures ApprovedDeposits(deps) == [] ==> profit == Some(0.0)
    ensures profit.None? <==> TotalAmount(ApprovedDeposits(deps)) > 0.0 && !AllNumeric(ApprovedDeposits(deps))
    ensures profit.Some? && balance >= 0.0 && Nonnegative(ApprovedDeposits(deps)) ==> 0.0 <= profit.value <= balance * 0.08
  {
    var ds := ApprovedDeposits(deps);
    ProfitWithinTiers(balance, ds);
    PercentOf(balance, AverageRoi(ds))
  }

  /** `balance * (avg / 100)`, `NaN` in gives `NaN` out. */
  function PercentOf(balance: real, avg: Option<real>): Option<real> {
    if avg.Some? then Some(balance * (avg.value / 100.0)) else None
  }

  lemma ProfitWithinTiers(balance: real, ds: seq<Weighted>)
    requires forall i :: 0 <= i < |ds| ==> ds[i].roi in {4, 6, 8}
    ensures AverageRoi(ds).Some? && balance >= 0.0 && Nonnegative(ds) ==> 0.0 <= PercentOf(balance, AverageRoi(ds)).value <= balance * 0.08
  {
    if AverageRoi(ds).Some? && balance >= 0.0 && Nonnegative(ds) {
      var avg := AverageRoi(ds).value;
      if ds == [] {
        assert avg == 0.0;
      } else {
        assert TiersWithin(ds, 4, 8);
        AverageWithinTiers(ds, 4, 8);
      }
      PercentBetween(balance, AverageRoi(ds), 0.0, 0.08);
    }
  }

  /** A non-negative balance times a rate between `lo` and `hi` (as a fraction of one) lies between `balance * lo` and `balance * hi`. */
  lemma PercentBetween(balance: real, rate: Option<real>, lo: real, hi: real)
    requires balance >= 0.0 && rate.Some? && lo <= rate.value / 100.0 <= hi
    ensures PercentOf(balance, rate).Some?
    ensures balance * lo <= PercentOf(balance, rate).value <= balance * hi
  {
    ScaleBetween(balance, rate.value / 100.0, lo, hi);
  }

  /**
   * When the approved deposits have no positive total, whatever their
   * amounts, the profit is the balance times the plain mean of their tiers,
   * so it lies between 4% and 8% of a non-negative balance.
   */
  lemma PlainMeanProfit(balance: real, deps: seq<DepositDoc>)
    requires ApprovedDeposits(deps) != [] && TotalAmount(ApprovedDeposits(deps)) <= 0.0 && balance >= 0.0
    ensures EstimatedDailyProfit(balance, deps).Some?
    ensures balance * 0.04 <= EstimatedDailyProfit(balance, deps).value <= balance * 0.08
  {
    var ds := ApprovedDeposits(deps);
    assert EstimatedDailyProfit(balance, deps) == PercentOf(balance, AverageRoi(ds));
    PlainMeanWithinTiers(balance, ds);
  }

  lemma PlainMeanWithinTiers(balance: real, ds: seq<Weighted>)
    requires ds != [] && TotalAmount(ds) <= 0.0 && balance >= 0.0
    requires forall i :: 0 <= i < |ds| ==> ds[i].roi in {4, 6, 8}
    ensures PercentOf(balance, AverageRoi(ds)).Some?
    ensures balance * 0.04 <= PercentOf(balance, AverageRoi(ds)).value <= balance * 0.08
  {
    assert TiersWithin(ds, 4, 8);
    RoiSumBounds(ds, 4, 8);
    QuotientBounds(RoiSum(ds), |ds| as real, 4.0, 8.0);
    assert AverageRoi(ds).value == RoiSum(ds) / |ds| as real;
    PercentBetween(balance, AverageRoi(ds), 0.04, 0.08);
  }

  lemma ScaleBetween(b: real, x: real, lo: real, hi: real)
    requires b >= 0.0 && lo <= x <= hi
    ensures b * lo <= b * x <= b * hi
  {
    assert b * (x - lo) >= 0.0;
    assert b * (hi - x) >= 0.0;
  }

  /** A single approved basic deposit whose amount is not a number still earns the basic tier: 4% of the balance. */
  lemma NonNumericBasicDeposit(balance: real)
    ensures EstimatedDailyProfit(balance, [DepositDoc(Some("basic"), Truthy(NaN), Some("approved"), None)]) == Some(balance * 0.04)
  {
    var d := DepositDoc(Some("basic"), Truthy(NaN), Some("approved"), None);
    assert LowerAscii("basic") == "basic";
    var ds := [Weighted(0.0, false, 4)];
    assert ApprovedDeposits([d]) == ds;
    assert TotalAmount(ds) == 0.0;
    assert RoiSum(ds) == 4.0;
    assert AverageRoi(ds) == Some(4.0);
  }

  /** A pending deposit earns nothing on the card, whatever its plan and amount. */
  lemma PendingDepositIgnored(balance: real)
    ensures EstimatedDailyProfit(balance, [DepositDoc(Some("basic"), Truthy(Finite(100.0)), Some("pending"), Some("pending"))]) == Some(0.0)
  {
    ApprovedDepositsSingle(DepositDoc(Some("basic"), Truthy(Finite(100.0)), Some("pending"), Some("pending")));
  }

  predicate Nonnegative(ds: seq<Weighted>) {
    forall i :: 0 <= i < |ds| ==> ds[i].amount >= 0.0
  }

  /** Every tier of `ds` lies in `[lo, hi]`. */
  predicate TiersWithin(ds: seq<Weighted>, lo: int, hi: int) {
    forall i :: 0 <= i < |ds| ==> lo <= ds[i].roi <= hi
  }

  lemma {:induction false} WeightedSumBounds(ds: seq<Weighted>, lo: int, hi: int)
    requires Nonnegative(ds) && TiersWithin(ds, lo, hi)
    ensures lo as real * TotalAmount(ds) <= WeightedSum(ds) <= hi as real * TotalAmount(ds)
    ensures TotalAmount(ds) >= 0.0
    decreases |ds|
  {
    if |ds| > 0 {
      var a := ds[0].amount;
      var roi := ds[0].roi as real;
      assert a * lo as real <= a * roi <= a * hi as real by {
        assert a * (roi - lo as real) >= 0.0;
        assert a * (hi as real - roi) >= 0.0;
      }
      WeightedSumBounds(ds[1..], lo, hi);
    }
  }

  lemma {:induction false} RoiSumBounds(ds: seq<Weighted>, lo: int, hi: int)
    requires TiersWithin(ds, lo, hi)
    ensures lo as real * |ds| as real <= RoiSum(ds) <= hi as real * |ds| as real
    decreases |ds|
  {
    if |ds| > 0 {
      RoiSumBounds(ds[1..], lo, hi);
    }
  }

  lemma QuotientBounds(w: real, t: real, lo: real, hi: real)
    requires t > 0.0 && lo * t <= w <= hi * t
    ensures lo <= w / t <= hi
  {
    var q := w / t;
    assert q * t == w;
    assert (q - lo) * t >= 0.0;
    assert (hi - q) * t >= 0.0;
  }

  /** With non-negative amounts the average ROI lies between the lowest and the highest tier averaged. */
  lemma AverageWithinTiers(ds: seq<Weighted>, lo: int, hi: int)
    requires |ds| > 0 && Nonnegative(ds) && TiersWithin(ds, lo, hi)
    ensures AverageRoi(ds).Some? ==> lo as real <= AverageRoi(ds).value <= hi as real
  {
    WeightedSumBounds(ds, lo, hi);
    if TotalAmount(ds) > 0.0 {
      if !AllNumeric(ds) {
        return;
      }
      QuotientBounds(WeightedSum(ds), TotalAmount(ds), lo as real, hi as real);
    } else {
      RoiSumBounds(ds, lo, hi);
      QuotientBounds(RoiSum(ds), |ds| as real, lo as real, hi as real);
    }
  }
}

=== FILE: history.dfy ===
/**
 * Balance history as the charts read it: the stored history filtered to a
 * window, indexed by day (or hour) with the last entry of a bucket winning,
 * and a gap-free series that carries the last known balance forward.
 */
module History {
  import opened Wrappers
  import opened Text
  import opened Clock
  import opened LedgerModel
  import opened LedgerOps

  // ---------------------------------------------------------------------
  // Generic bucket index and carry-forward

  /** Entry `i` is the last one with its key. */
  predicate LastWithKey<K(==)>(entries: seq<(K, real)>, i: int)
    requires 0 <= i < |entries|
  {
    forall j :: i < j < |entries| ==> entries[j].0 != entries[i].0
  }

  /** `for (const r of raw) byDate[r.date] = r.balance`: a later entry overwrites an earlier one. */
  function LastWins<K(==)>(entries: seq<(K, real)>): (m: map<K, real>)
    ensures forall i :: 0 <= i < |entries| ==> entries[i].0 in m
    ensures forall k :: k in m ==> exists i :: 0 <= i < |entries| && entries[i].0 == k
    ensures forall i :: 0 <= i < |entries| && LastWithKey(entries, i) ==> m[entries[i].0] == entries[i].1
    decreases |entries|
  {
    if |entries| == 0 then map[]
    else
      var n := |entries| - 1;
      var m := LastWins(entries[..n]);
      LastWinsStep(entries, m);
      m[entries[n].0 := entries[n].1]
  }

  /** Writing the last entry over the index of the others indexes them all, the last write winning. */
  lemma LastWinsStep<K>(entries: seq<(K, real)>, m: map<K, real>)
    requires |entries| > 0
    requires forall i :: 0 <= i < |entries| - 1 ==> entries[i].0 in m
    requires forall k :: k in m ==> exists i :: 0 <= i < |entries| - 1 && entries[i].0 == k
    requires forall i :: 0 <= i < |entries| - 1 && LastWithKey(entries[..|entries| - 1], i) ==> m[entries[i].0] == entries[i].1
    ensures var m' := m[entries[|entries| - 1].0 := entries[|entries| - 1].1];
      && (forall i :: 0 <= i < |entries| ==> entries[i].0 in m')
      && (forall k :: k in m' ==> exists i :: 0 <= i < |entries| && entries[i].0 == k)
      && (forall i :: 0 <= i < |entries| && LastWithKey(entries, i) ==> m'[entries[i].0] == entries[i].1)
  {
    var n := |entries| - 1;
    var prefix := entries[..n];
    var m' := m[entries[n].0 := entries[n].1];
    forall k | k in m' ensures exists i :: 0 <= i < |entries| && entries[i].0 == k {
      if k != entries[n].0 {
        var i :| 0 <= i < n && entries[i].0 == k;
      }
    }
    forall i | 0 <= i < n && LastWithKey(entries, i) ensures m'[entries[i].0] == entries[i].1 {
      assert entries[n].0 != entries[i].0;
      forall j | i < j < n ensures prefix[j].0 != prefix[i].0 {
        assert prefix[j] == entries[j] && prefix[i] == entries[i];
      }
      assert LastWithKey(prefix, i);
    }
  }

  /**
   * The gap-filling loop: a bucket with a recorded balance shows it and
   * becomes the carried value; an empty bucket shows the carried value.
   */
  function CarryForward<K(==)>(keys: seq<K>, table: map<K, real>, carry: real): (r: seq<real>)
    ensures |r| == |keys|
    ensures forall i :: 0 <= i < |keys| && keys[i] in table ==> r[i] == table[keys[i]]
    ensures forall i :: 0 <= i < |keys| && keys[i] !in table ==> r[i] == (if i == 0 then carry else r[i - 1])
    decreases |keys|
  {
    if |keys| == 0 then []
    else
      var v := if keys[0] in table then table[keys[0]] else carry;
      var rest := CarryForward(keys[1..], table, v);
      assert forall i :: 1 <= i < |keys| ==> keys[i] == keys[1..][i - 1];
      [v] + rest
  }

  /** The balance recorded in the latest bucket at or before position `i`, else `carry`. */
  function LastKnown<K(==)>(keys: seq<K>, table: map<K, real>, carry: real, i: int): real
    requires i < |keys|
    decreases i
  {
    if i < 0 then carry
    else if keys[i] in table then table[keys[i]]
    else LastKnown(keys, table, carry, i - 1)
  }

  /** Every point of the carried series is the latest recorded balance up to it. */
  lemma {:induction false} CarryForwardIsLastKnown<K>(keys: seq<K>, table: map<K, real>, carry: real, i: nat)
    requires i < |keys|
    ensures CarryForward(keys, table, carry)[i] == LastKnown(keys, table, carry, i)
    decreases i
  {
    if i > 0 && keys[i] !in table {
      CarryForwardIsLastKnown(keys, table, carry, i - 1);
    }
  }

  // ---------------------------------------------------------------------
  // getBalanceHistory and the balance-history route

  /** One raw point: the day of the entry and the balance after it. */
  datatype DayPoint = DayPoint(day: int, action: string, amount: real, balance: real)

  /** `getBalanceHistory(userId, days)`: the history since `now - days` days, keyed by day. */
  function GetBalanceHistory(L: Ledger, u: UserId, days: int, now: int): (raw: seq<DayPoint>)
    ensures u !in L.balances ==> raw == []
  {
    if u !in L.balances then []
    else Window(L.balances[u].history, now - days * DayMs)
  }

  /** A history entry as a raw point of the route: its day and the balance after it. */
  function PointOf(h: HistoryEntry): DayPoint {
    DayPoint(DayIndex(h.date), h.action, h.amount, h.balance)
  }

  /** The entries at or after `cutoff`, in order, each keyed by its day. */
  function Window(history: seq<HistoryEntry>, cutoff: int): (raw: seq<DayPoint>)
    ensures |raw| <= |history|
    ensures forall k :: 0 <= k < |raw| ==> raw[k].day >= DayIndex(cutoff)
    decreases |history|
  {
    if |history| == 0 then []
    else
      var rest := Window(history[1..], cutoff);
      if history[0].date >= cutoff then [PointOf(history[0])] + rest else rest
  }

  /** Every raw point comes from an entry of the history inside the window, in history order. */
  lemma {:induction false} WindowSource(history: seq<HistoryEntry>, cutoff: int, k: nat) returns (j: nat)
    requires k < |Window(history, cutoff)|
    ensures j < |history| && k <= j && history[j].date >= cutoff && Window(history, cutoff)[k] == PointOf(history[j])
    decreases |history|
  {
    var rest := Window(history[1..], cutoff);
    if history[0].date >= cutoff {
      if k == 0 {
        j := 0;
      } else {
        var j' := WindowSource(history[1..], cutoff, k - 1);
        j := j' + 1;
      }
    } else {
      var j' := WindowSource(history[1..], cutoff, k);
      j := j' + 1;
    }
  }

  /** Appending an entry to the history appends its point when it is inside the window, so points keep history order. */
  lemma {:induction false} WindowSnoc(history: seq<HistoryEntry>, e: HistoryEntry, cutoff: int)
    ensures Window(history + [e], cutoff) == Window(history, cutoff) + (if e.date >= cutoff then [PointOf(e)] else [])
    decreases |history|
  {
    if |history| == 0 {
      assert history + [e] == [e];
      assert [e][1..] == [];
    } else {
      assert (history + [e])[1..] == history[1..] + [e];
      WindowSnoc(history[1..], e, cutoff);
    }
  }

  /** Every entry inside the window shows up as a raw point. */
  lemma {:induction false} WindowComplete(history: seq<HistoryEntry>, cutoff: int, j: nat)
    requires j < |history| && history[j].date >= cutoff
    ensures PointOf(history[j]) in Window(history, cutoff)
    decreases |history|
  {
    if j > 0 {
      WindowComplete(history[1..], cutoff, j - 1);
    }
  }

  /** `req.query.range` (`"<n>d"`) and `req.query.days`, later wins; 30 when neither parses. */
  function ParseDays(range: Option<string>, days: Option<string>): (n: int)
    ensures range.None? && days.None? ==> n == 30
    ensures days.Some? && ParseInt(days.value).Some? ==> n == ParseInt(days.value).value
    ensures days.None? || ParseInt(days.value).None? ==>
      forall s :: range == Some(s + "d") && ParseInt(s).Some? ==> n == ParseInt(s).value
    ensures (days.None? || ParseInt(days.value).None?) && (forall s :: range == Some(s + "d") ==> ParseInt(s).None?) ==> n == 30
  {
    var fromRange :=
      if range.Some? && |range.value| > 0 && range.value[|range.value| - 1] == 'd'
         && ParseInt(range.value[..|range.value| - 1]).Some?
      then ParseInt(range.value[..|range.value| - 1]).value
      else 30;
    assert range.Some? && |range.value| > 0 && range.value[|range.value| - 1] == 'd' ==>
      range.value == range.value[..|range.value| - 1] + "d";
    if days.Some? && days.value != "" && ParseInt(days.value).Some? then ParseInt(days.value).value
    else fromRange
  }

  /** The `days` day numbers ending today: `start + i` with `start = today - (days - 1)`. */
  function DayKeys(days: int, now: int): (keys: seq<int>)
    ensures |keys| == if days > 0 then days else 0
    ensures forall i :: 0 <= i < |keys| ==> keys[i] == DayIndex(Midnight(now) - (days - 1) * DayMs + i * DayMs)
  {
    if days <= 0 then []
    else seq(days, i requires 0 <= i < days => DayIndex(Midnight(now) - (days - 1) * DayMs + i * DayMs))
  }

  /** The route's keys are consecutive days ending with today's. */
  lemma DayKeysConsecutive(days: int, now: int, i: nat)
    requires i < days
    ensures DayKeys(days, now)[i] == DayIndex(now) - (days - 1) + i
  {
    var m := Midnight(now);
    assert m == DayIndex(now) * DayMs;
    assert m - (days - 1) * DayMs + i * DayMs == (DayIndex(now) - (days - 1) + i) * DayMs;
  }

  datatype SeriesPoint = SeriesPoint(day: int, balance: real)

  /** `byDate`: each day of the raw points mapped to the balance of its last point. */
  function DayTable(raw: seq<DayPoint>): map<int, real> {
    LastWins(seq(|raw|, k requires 0 <= k < |raw| => (raw[k].day, raw[k].balance)))
  }

  /** The route's first carried value: the last raw balance, else the current balance. */
  function StartBalance(L: Ledger, u: UserId, raw: seq<DayPoint>, now: int): real {
    if |raw| > 0 then raw[|raw| - 1].balance else RecordOf(L, u, now).currentBalance
  }

  datatype HistoryResponse = HistoryResponse(currentBalance: real, chartData: seq<SeriesPoint>, lastUpdated: int)

  /**
   * `GET /api/user/balance-history`: one point per day of the window,
   * starting from the balance of the last raw entry (or the current balance
   * when the window holds none) and carrying it across empty days.
   */
  function BalanceHistoryRoute(L: Ledger, u: UserId, range: Option<string>, daysParam: Option<string>, now: int)
    : (r: (Ledger, HistoryResponse))
    ensures var days := ParseDays(range, daysParam);
      && |r.1.chartData| == (if days > 0 then days else 0)
      && forall i :: 0 <= i < |r.1.chartData| ==> r.1.chartData[i].day == DayIndex(now) - (days - 1) + i
    ensures r.0.log == L.log && u in r.0.balances && r.0.balances - {u} == L.balances - {u}
    ensures r.0.balances[u] == RecordOf(L, u, now)
    ensures r.1.currentBalance == r.0.balances[u].currentBalance
  {
    var days := ParseDays(range, daysParam);
    var raw := GetBalanceHistory(L, u, days, now);
    var byDate := DayTable(raw);
    var start := if |raw| > 0 then (raw[|raw| - 1].balance, L) else
                   var s := GetBalanceSummary(L, u, now); (s.1.currentBalance, s.0);
    assert start.0 == StartBalance(L, u, raw, now);
    var keys := DayKeys(days, now);
    forall i | 0 <= i < |keys| ensures keys[i] == DayIndex(now) - (days - 1) + i {
      DayKeysConsecutive(days, now, i);
    }
    var values := CarryForward(keys, byDate, start.0);
    var summary := GetBalanceSummary(start.1, u, now);
    (summary.0, HistoryResponse(summary.1.currentBalance,
                                seq(|keys|, i requires 0 <= i < |keys| => SeriesPoint(keys[i], values[i])),
                                summary.1.lastUpdated))
  }

  /**
   * Each point of the route's series shows the balance of the latest day
   * at or before it that has a raw point, and before any such day the
   * starting value.
   */
  lemma BalanceHistoryRouteCarries(L: Ledger, u: UserId, range: Option<string>, daysParam: Option<string>,
                                   now: int, i: nat)
    requires i < |BalanceHistoryRoute(L, u, range, daysParam, now).1.chartData|
    ensures var days := ParseDays(range, daysParam); var raw := GetBalanceHistory(L, u, days, now);
      BalanceHistoryRoute(L, u, range, daysParam, now).1.chartData[i].balance
        == LastKnown(DayKeys(days, now), DayTable(raw), StartBalance(L, u, raw, now), i)
  {
    var days := ParseDays(range, daysParam);
    var raw := GetBalanceHistory(L, u, days, now);
    CarryForwardIsLastKnown(DayKeys(days, now), DayTable(raw), StartBalance(L, u, raw, now), i);
  }

  /** A day with a raw point shows the balance of its last raw point. */
  lemma DayTableLatestWins(raw: seq<DayPoint>, k: nat)
    requires k < |raw| && forall j :: k < j < |raw| ==> raw[j].day != raw[k].day
    ensures raw[k].day in DayTable(raw) && DayTable(raw)[raw[k].day] == raw[k].balance
  {
    var entries := seq(|raw|, j requires 0 <= j < |raw| => (raw[j].day, raw[j].balance));
    assert LastWithKey(entries, k);
  }

  /** `parseInt` reads back a rendered count, from either query parameter. */
  lemma ParseDaysOfRendered(n: int, range: Option<string>)
    ensures ParseDays(Some(IntToString(n) + "d"), None) == n
    ensures ParseDays(range, Some(IntToString(n))) == n
  {
    var t := IntToString(n);
    ParseIntOfIntToString(n);
    assert t != "";
    var s := t + "d";
    assert s[|s| - 1] == 'd' && s[..|s| - 1] == t;
  }

  // ---------------------------------------------------------------------
  // getBalanceHistoryHours

  datatype HourPoint = HourPoint(hour: int, balance: real)

  /** The `hours` hour numbers ending with the current hour. */
  function HourKeys(hours: int, now: int): (keys: seq<int>)
    ensures |keys| == if hours > 0 then hours else 0
    ensures forall i :: 0 <= i < |keys| ==> keys[i] == HourIndex(now - (hours - 1) * HourMs + i * HourMs)
  {
    if hours <= 0 then []
    else seq(hours, i requires 0 <= i < hours => HourIndex(now - (hours - 1) * HourMs + i * HourMs))
  }

  lemma HourKeysConsecutive(hours: int, now: int, i: nat)
    requires i < hours
    ensures HourKeys(hours, now)[i] == HourIndex(now) - (hours - 1) + i
  {
    var t := now - (hours - 1) * HourMs + i * HourMs;
    assert t == now + (i - (hours - 1)) * HourMs;
  }

  /** The history since `cutoff`, each entry keyed by its hour. */
  function HourEntries(history: seq<HistoryEntry>, cutoff: int): (e: seq<(int, real)>)
    ensures |e| <= |history|
    decreases |history|
  {
    if |history| == 0 then []
    else Bucket(history[0], cutoff) + HourEntries(history[1..], cutoff)
  }

  /** One history entry keyed by its hour, or nothing when it is before `cutoff`. */
  function Bucket(h: HistoryEntry, cutoff: int): seq<(int, real)> {
    if h.date >= cutoff then [(HourIndex(h.date), h.balance)] else []
  }

  /** Appending an entry appends its hour bucket when it is inside the window, so buckets keep history order. */
  lemma {:induction false} HourEntriesSnoc(history: seq<HistoryEntry>, e: HistoryEntry, cutoff: int)
    ensures HourEntries(history + [e], cutoff) == HourEntries(history, cutoff) + Bucket(e, cutoff)
    ensures Bucket(e, cutoff) == if e.date >= cutoff then [(HourIndex(e.date), e.balance)] else []
    decreases |history|
  {
    if |history| == 0 {
      assert history + [e] == [e];
      assert [e][1..] == [];
    } else {
      var b := Bucket(history[0], cutoff);
      assert (history + [e])[1..] == history[1..] + [e];
      HourEntriesSnoc(history[1..], e, cutoff);
      assert HourEntries(history + [e], cutoff) == b + (HourEntries(history[1..], cutoff) + Bucket(e, cutoff));
    }
  }

  /** The parameters the route reads: `range=7d` with an unparseable `days` charts seven days. */
  lemma ParseDaysIgnoresUnparseable()
    ensures ParseDays(Some("7d"), Some("abc")) == 7
  {
    ParseIntOfLetters();
    ParseIntOfSeven();
    assert "7d" == "7" + "d";
  }

  lemma ParseIntOfLetters()
    ensures ParseInt("abc").None?
  {
    TrimStartOfNonSpace("abc");
    assert DigitPrefix("abc") == "";
  }

  lemma ParseIntOfSeven()
    ensures ParseInt("7") == Some(7)
  {
    TrimStartOfNonSpace("7");
    DigitPrefixOfDigits("7");
  }

  /**
   * `getBalanceHistoryHours(userId, hours)`: no record gives no points;
   * otherwise one point per hour, carrying the last recorded balance from 0.
   */
  function GetBalanceHistoryHours(L: Ledger, u: UserId, hours: int, now: int): (r: seq<HourPoint>)
    ensures u !in L.balances ==> r == []
    ensures u in L.balances ==> |r| == (if hours > 0 then hours else 0)
    ensures u in L.balances ==> forall i :: 0 <= i < |r| ==> r[i].hour == HourIndex(now) - (hours - 1) + i
  {
    if u !in L.balances then []
    else
      var byKey := HourTable(L.balances[u].history, hours, now);
      var keys := HourKeys(hours, now);
      var values := CarryForward(keys, byKey, 0.0);
      forall i | 0 <= i < |keys| ensures keys[i] == HourIndex(now) - (hours - 1) + i {
        HourKeysConsecutive(hours, now, i);
      }
      seq(|keys|, i requires 0 <= i < |keys| => HourPoint(keys[i], values[i]))
  }

  /** The hour buckets of `getBalanceHistoryHours`, the last entry of an hour winning. */
  function HourTable(history: seq<HistoryEntry>, hours: int, now: int): map<int, real> {
    LastWins(HourEntries(history, now - hours * HourMs))
  }

  /** Each hour shows the balance of the latest bucket at or before it, else 0. */
  lemma GetBalanceHistoryHoursCarries(L: Ledger, u: UserId, hours: int, now: int, i: nat)
    requires u in L.balances && i < |GetBalanceHistoryHours(L, u, hours, now)|
    ensures GetBalanceHistoryHours(L, u, hours, now)[i].balance
         == LastKnown(HourKeys(hours, now), HourTable(L.balances[u].history, hours, now), 0.0, i)
  {
    CarryForwardIsLastKnown(HourKeys(hours, now), HourTable(L.balances[u].history, hours, now), 0.0, i);
  }
}

=== FILE: js_number.dfy ===
/**
 * The values a JavaScript number can take once parsed (`parseFloat`,
 * `Number(...)`): not-a-number, the two infinities, or a finite value. The
 * finite values are modelled as exact reals; rounding is not modelled.
 */
module JsNumbers {

  datatype JsNumber = NaN | NegInfinity | Finite(value: real) | PosInfinity

  /** `n < x` for a finite `x`; every comparison with `NaN` is false. */
  predicate Below(n: JsNumber, x: real) {
    n.NegInfinity? || (n.Finite? && n.value < x)
  }

  /** `n > x` for a finite `x`; every comparison with `NaN` is false. */
  predicate Above(n: JsNumber, x: real) {
    n.PosInfinity? || (n.Finite? && n.value > x)
  }

  /** A number compares either below, above or equal to a finite value, unless it is `NaN`. */
  lemma Trichotomy(n: JsNumber, x: real)
    ensures n.NaN? <==> !Below(n, x) && !Above(n, x) && n != Finite(x)
    ensures !(Below(n, x) && Above(n, x))
  {
  }
}

=== FILE: ledger_model.dfy ===
/**
 * The data of the balance ledger: the append-only transaction log and the
 * cached per-user balance records, with the sums over the log that the
 * balance records are supposed to agree with.
 */
module LedgerModel {
  import opened Wrappers

  /** Users are keyed by e-mail address, an opaque string. */
  type UserId = string

  /** A transaction is identified by its position in the append-only log. */
  type TxId = nat

  datatype TxKind = Deposit | Withdrawal | Plan | Earnings

  datatype Approval = Pending | Approved | Rejected

  /**
   * The attributes of `details` that the ledger reads, plus `extra` for the
   * ones it only stores (deposit address, proof URL, network, ...).
   */
  datatype Details = Details(
    planType: Option<string>,
    planName: Option<string>,
    sourceTxId: Option<TxId>,
    depositId: Option<string>,
    withdrawalId: Option<string>,
    auto: bool,
    extra: map<string, string>)

  /** The `planDetails` sub-document; an absent one has every field `None`. */
  datatype PlanDetails = PlanDetails(
    planType: Option<string>,
    planName: Option<string>,
    roiPercentage: Option<real>,
    lastEarningAt: Option<int>)

  datatype Transaction = Transaction(
    userId: UserId,
    kind: TxKind,
    amount: real,
    description: string,
    details: Details,
    status: Approval,
    submittedAt: int,
    approvedAt: Option<int>,
    approvedBy: Option<string>,
    rejectedAt: Option<int>,
    rejectionReason: Option<string>,
    rejectedBy: Option<string>,
    planDetails: PlanDetails)

  /** One entry of a balance record's audit trail. */
  datatype HistoryEntry = HistoryEntry(date: int, action: string, amount: real, balance: real)

  datatype BalanceRecord = BalanceRecord(
    currentBalance: real,
    totalDeposits: real,
    totalEarnings: real,
    totalWithdrawals: real,
    lastUpdated: int,
    history: seq<HistoryEntry>)

  /** The two collections: transactions and per-user balances. */
  datatype Ledger = Ledger(log: seq<Transaction>, balances: map<UserId, BalanceRecord>)

  function NoDetails(): Details {
    Details(None, None, None, None, None, false, map[])
  }

  function NoPlanDetails(): PlanDetails {
    PlanDetails(None, None, None, None)
  }

  /** A balance record as the schema defaults create it. */
  function ZeroRecord(now: int): BalanceRecord {
    BalanceRecord(0.0, 0.0, 0.0, 0.0, now, [])
  }

  /** The stored record of `u`, or the zeroed one `new UserBalance({userId})` builds. */
  function RecordOf(L: Ledger, u: UserId, now: int): BalanceRecord {
    if u in L.balances then L.balances[u] else ZeroRecord(now)
  }

  /** The amount `t` contributes to the approved total of kind `k` for user `u`. */
  function Contribution(t: Transaction, u: UserId, k: TxKind): real {
    if t.userId == u && t.status == Approved && t.kind == k then t.amount else 0.0
  }

  /** Sum of the amounts of `u`'s approved transactions of kind `k`. */
  function ApprovedSum(log: seq<Transaction>, u: UserId, k: TxKind): real
    decreases |log|
  {
    if |log| == 0 then 0.0 else Contribution(log[0], u, k) + ApprovedSum(log[1..], u, k)
  }

  /** Deposits as the log defines them: approved `deposit` and `plan` transactions. */
  function LogDeposits(log: seq<Transaction>, u: UserId): real {
    ApprovedSum(log, u, Deposit) + ApprovedSum(log, u, Plan)
  }

  function LogWithdrawals(log: seq<Transaction>, u: UserId): real {
    ApprovedSum(log, u, Withdrawal)
  }

  function LogEarnings(log: seq<Transaction>, u: UserId): real {
    ApprovedSum(log, u, Earnings)
  }

  /** The balance identity: earnings are part of the spendable balance. */
  predicate Consistent(b: BalanceRecord) {
    b.currentBalance == b.totalDeposits + b.totalEarnings - b.totalWithdrawals
  }

  /** `u`'s stored record agrees with the log and with the balance identity. */
  predicate Reconciled(L: Ledger, u: UserId) {
    && u in L.balances
    && L.balances[u].totalDeposits == LogDeposits(L.log, u)
    && L.balances[u].totalWithdrawals == LogWithdrawals(L.log, u)
    && L.balances[u].totalEarnings == LogEarnings(L.log, u)
    && Consistent(L.balances[u])
  }

  /** Two transactions that differ at most in `planDetails.lastEarningAt`. */
  predicate SameButLastEarning(a: Transaction, b: Transaction) {
    b == a.(planDetails := a.planDetails.(lastEarningAt := b.planDetails.lastEarningAt))
  }

  function WithLastEarning(t: Transaction, at: int): (r: Transaction)
    ensures SameButLastEarning(t, r) && r.planDetails.lastEarningAt == Some(at)
  {
    t.(planDetails := t.planDetails.(lastEarningAt := Some(at)))
  }

  /** `b` is `a`, possibly restamped with `lastEarningAt`s, followed by later entries. */
  predicate Restamped(a: seq<Transaction>, b: seq<Transaction>) {
    |a| <= |b| && forall i :: 0 <= i < |a| ==> SameButLastEarning(a[i], b[i])
  }

  lemma RestampedTransitive(a: seq<Transaction>, b: seq<Transaction>, c: seq<Transaction>)
    requires Restamped(a, b) && Restamped(b, c)
    ensures Restamped(a, c)
  {
  }
}

=== FILE: ledger_ops.dfy ===
/**
 * The ledger operations of `api/lib/db.js`, each a pure transformer of the
 * two collections: recording, approving and rejecting transactions, the
 * incremental balance updates, earnings credits and the full recomputation.
 */
module LedgerOps {
  import opened Wrappers
  import opened Text
  import opened Clock
  import opened LedgerModel
  import opened LedgerSums

  datatype LedgerError = NotFound | AlreadyApproved

  /** `u`'s record, created zeroed and stored when missing (`getUserBalance`). */
  function GetUserBalance(L: Ledger, u: UserId, now: int): (r: (Ledger, BalanceRecord))
    ensures u in r.0.balances && r.0.balances[u] == r.1
    ensures u in L.balances ==> r.0 == L && r.1 == L.balances[u]
    ensures u !in L.balances ==> r.1 == ZeroRecord(now) && r.0.log == L.log
    ensures r.0.balances - {u} == L.balances - {u}
  {
    if u in L.balances then (L, L.balances[u])
    else (L.(balances := L.balances[u := ZeroRecord(now)]), ZeroRecord(now))
  }

  /** Appends one pending transaction; no balance changes until it is approved. */
  function RecordTransaction(L: Ledger, u: UserId, kind: TxKind, amount: real, description: string,
                             details: Details, planDetails: PlanDetails, now: int): (r: (Ledger, TxId))
    ensures r.1 == |L.log| && |r.0.log| == |L.log| + 1 && r.0.log[..|L.log|] == L.log
    ensures r.0.log[r.1].userId == u && r.0.log[r.1].kind == kind && r.0.log[r.1].amount == amount
    ensures r.0.log[r.1].status == Pending && r.0.log[r.1].submittedAt == now
    ensures r.0.log[r.1].details == details && r.0.log[r.1].planDetails == planDetails
    ensures r.0.balances == L.balances
  {
    var t := Transaction(u, kind, amount, description, details, Pending, now,
                         None, None, None, None, None, planDetails);
    (L.(log := L.log + [t]), |L.log|)
  }

  /**
   * The incremental path: add `amount` to the category, then set
   * `currentBalance = totalDeposits - totalWithdrawals`, which leaves any
   * earnings out of the balance.
   */
  function UpdateUserBalance(L: Ledger, u: UserId, category: TxKind, amount: real,
                             action: string, now: int): (r: Ledger)
    ensures r.log == L.log && u in r.balances && r.balances - {u} == L.balances - {u}
    ensures var b := RecordOf(L, u, now); var b' := r.balances[u];
      && b'.totalDeposits == b.totalDeposits + (if category in {Deposit, Plan} then amount else 0.0)
      && b'.totalWithdrawals == b.totalWithdrawals + (if category == Withdrawal then amount else 0.0)
      && b'.totalEarnings == b.totalEarnings
      && b'.currentBalance == b'.totalDeposits - b'.totalWithdrawals
      && b'.lastUpdated == now
      && b'.history == b.history + [HistoryEntry(now, action, amount, b'.currentBalance)]
  {
    var b := RecordOf(L, u, now);
    var deposits := if category == Deposit || category == Plan then b.totalDeposits + amount else b.totalDeposits;
    var withdrawals := if category == Withdrawal then b.totalWithdrawals + amount else b.totalWithdrawals;
    var current := deposits - withdrawals;
    var b' := b.(totalDeposits := deposits, totalWithdrawals := withdrawals, currentBalance := current,
                 lastUpdated := now, history := b.history + [HistoryEntry(now, action, amount, current)]);
    L.(balances := L.balances[u := b'])
  }

  /** The pre-approved `earnings` transaction `recordEarningsTransaction` writes. */
  function EarningsTransaction(u: UserId, amount: real, planName: string, sourceTxId: Option<TxId>,
                               now: int): (t: Transaction)
    ensures t.userId == u && t.kind == Earnings && t.status == Approved && t.amount == amount
    ensures t.details.planName == Some(planName) && t.details.sourceTxId == sourceTxId
    ensures t.submittedAt == now && t.planDetails == NoPlanDetails()
  {
    Transaction(u, Earnings, amount, "Earnings for " + planName,
                Details(None, Some(planName), sourceTxId, None, None, true, map[]),
                Approved, now, Some(now), None, None, None, None, NoPlanDetails())
  }

  function RecordEarningsTransaction(L: Ledger, u: UserId, amount: real, planName: string,
                                     sourceTxId: Option<TxId>, now: int): (r: (Ledger, TxId))
    ensures r.1 == |L.log| && r.0.log == L.log + [EarningsTransaction(u, amount, planName, sourceTxId, now)]
    ensures r.0.balances == L.balances
  {
    (L.(log := L.log + [EarningsTransaction(u, amount, planName, sourceTxId, now)]), |L.log|)
  }

  /**
   * Credits earnings: both `totalEarnings` and `currentBalance` grow by
   * exactly `x`, one history entry records the new balance, and one approved
   * `earnings` transaction carrying `sourceTxId` is appended to the log.
   */
  function AddEarnings(L: Ledger, u: UserId, x: real, planName: string, sourceTxId: Option<TxId>,
                       now: int): (r: Ledger)
    ensures r.log == L.log + [EarningsTransaction(u, x, planName, sourceTxId, now)]
    ensures u in r.balances && r.balances - {u} == L.balances - {u}
    ensures var b := RecordOf(L, u, now); var b' := r.balances[u];
      && b'.totalEarnings == b.totalEarnings + x
      && b'.currentBalance == b.currentBalance + x
      && b'.totalDeposits == b.totalDeposits && b'.totalWithdrawals == b.totalWithdrawals
      && b'.history == b.history + [HistoryEntry(now, "earnings-" + planName, x, b'.currentBalance)]
  {
    var b := RecordOf(L, u, now);
    var current := b.currentBalance + x;
    var b' := b.(totalEarnings := b.totalEarnings + x, currentBalance := current, lastUpdated := now,
                 history := b.history + [HistoryEntry(now, "earnings-" + planName, x, current)]);
    var L1 := L.(balances := L.balances[u := b']);
    RecordEarningsTransaction(L1, u, x, planName, sourceTxId, now).0
  }

  /** Earnings keep a record that satisfies the balance identity consistent. */
  lemma AddEarningsKeepsConsistent(L: Ledger, u: UserId, x: real, planName: string,
                                   sourceTxId: Option<TxId>, now: int)
    requires u in L.balances && Consistent(L.balances[u])
    ensures Consistent(AddEarnings(L, u, x, planName, sourceTxId, now).balances[u])
  {
  }

  /** Earnings keep a record that agrees with the log in agreement: they write both sides. */
  lemma AddEarningsKeepsReconciled(L: Ledger, u: UserId, v: UserId, x: real, planName: string,
                                   sourceTxId: Option<TxId>, now: int)
    requires Reconciled(L, v)
    ensures Reconciled(AddEarnings(L, u, x, planName, sourceTxId, now), v)
  {
    var t := EarningsTransaction(u, x, planName, sourceTxId, now);
    SumAppend(L.log, t, v, Deposit);
    SumAppend(L.log, t, v, Plan);
    SumAppend(L.log, t, v, Withdrawal);
    SumAppend(L.log, t, v, Earnings);
  }

  // ---------------------------------------------------------------------
  // Approval

  /**
   * The ROI tier: a lower-cased `details.planType` of basic, standard or
   * premium fixes it at 4, 6 or 8; any other plan type falls back to the
   * amount brackets.
   */
  function ApprovalRoi(details: Details, amount: real): (roi: int)
    ensures roi in {4, 6, 8}
  {
    var planType := LowerAscii(details.planType.GetOr(""));
    if planType == "basic" then 4
    else if planType == "standard" then 6
    else if planType == "premium" then 8
    else if amount < 99.0 then 4
    else if amount < 499.0 then 6
    else 8
  }

  /** `details.planName || 'deposit'`. */
  function PlanNameOf(details: Details): string {
    if details.planName.Some? && details.planName.value != "" then details.planName.value else "deposit"
  }

  /** The earnings that `approveTransaction` looks for before crediting the instant day. */
  predicate IsSourceEarningsOn(t: Transaction, u: UserId, source: TxId, now: int) {
    t.userId == u && t.kind == Earnings && t.details.sourceTxId == Some(source) && OnDayOf(t.submittedAt, now)
  }

  predicate HasSourceEarningsOn(log: seq<Transaction>, u: UserId, source: TxId, now: int) {
    exists i :: 0 <= i < |log| && IsSourceEarningsOn(log[i], u, source, now)
  }

  /** The transaction after the approval fields and `planDetails` are stamped. */
  function StampApproval(t: Transaction, actor: string, now: int): Transaction {
    t.(status := Approved, approvedBy := Some(actor), approvedAt := Some(now),
       planDetails := PlanDetails(Some("daily-reward"), Some(PlanNameOf(t.details)),
                                  Some(ApprovalRoi(t.details, t.amount) as real), Some(Midnight(now))))
  }

  /** One day's profit at the approval tier. */
  function InstantCredit(t: Transaction): real {
    t.amount * (ApprovalRoi(t.details, t.amount) as real) / 100.0
  }

  /** Whether approving `id` credits the instant day: positive and not yet credited today. */
  predicate InstantDue(L: Ledger, id: TxId, now: int)
    requires id < |L.log|
  {
    InstantCredit(L.log[id]) > 0.0 && !HasSourceEarningsOn(L.log, L.log[id].userId, id, now)
  }

  /** What a successful approval of `id` did to the ledger. */
  predicate ApprovalEffect(L: Ledger, id: TxId, actor: string, now: int, r: Ledger)
    requires id < |L.log|
  {
    var t := L.log[id];
    var u := t.userId;
    var instant := if InstantDue(L, id, now) then InstantCredit(t) else 0.0;
    var b := RecordOf(L, u, now);
    && |r.log| == |L.log| + (if InstantDue(L, id, now) then 1 else 0)
    && (forall j :: 0 <= j < |L.log| && j != id ==> r.log[j] == L.log[j])
    && r.log[id] == StampApproval(t, actor, now)
    && (InstantDue(L, id, now) ==>
          r.log[|L.log|] == EarningsTransaction(u, instant, PlanNameOf(t.details) + "-instant", Some(id), now))
    && u in r.balances && r.balances - {u} == L.balances - {u}
    && r.balances[u].totalDeposits == b.totalDeposits + t.amount
    && r.balances[u].totalWithdrawals == b.totalWithdrawals
    && r.balances[u].totalEarnings == b.totalEarnings + instant
    && r.balances[u].currentBalance == r.balances[u].totalDeposits - r.balances[u].totalWithdrawals + instant
  }

  lemma StampKeepsSourceEarnings(log: seq<Transaction>, id: TxId, t: Transaction, u: UserId, now: int)
    requires id < |log|
    requires t.userId == log[id].userId && t.kind == log[id].kind
    requires t.details == log[id].details && t.submittedAt == log[id].submittedAt
    ensures HasSourceEarningsOn(log[id := t], u, id, now) == HasSourceEarningsOn(log, u, id, now)
  {
    if HasSourceEarningsOn(log, u, id, now) {
      var i :| 0 <= i < |log| && IsSourceEarningsOn(log[i], u, id, now);
      assert IsSourceEarningsOn(log[id := t][i], u, id, now);
    }
    if HasSourceEarningsOn(log[id := t], u, id, now) {
      var i :| 0 <= i < |log| && IsSourceEarningsOn(log[id := t][i], u, id, now);
      assert IsSourceEarningsOn(log[i], u, id, now);
    }
  }

  /**
   * `approveTransaction`: fails on a missing id or an already approved
   * transaction (a rejected one is not blocked); otherwise stamps the
   * approval, credits the amount through the `'deposit'` category whatever
   * the kind, and credits one instant day unless it was credited today.
   */
  function Approve(L: Ledger, id: TxId, actor: string, now: int): (r: Result<Ledger, LedgerError>)
    ensures id >= |L.log| ==> r == Err(NotFound)
    ensures id < |L.log| && L.log[id].status == Approved ==> r == Err(AlreadyApproved)
    ensures id < |L.log| && L.log[id].status != Approved ==> r.Ok? && ApprovalEffect(L, id, actor, now, r.value)
  {
    if id >= |L.log| then Err(NotFound)
    else if L.log[id].status == Approved then Err(AlreadyApproved)
    else
      var t := L.log[id];
      var L1 := L.(log := L.log[id := StampApproval(t, actor, now)]);
      var L2 := UpdateUserBalance(L1, t.userId, Deposit, t.amount, "deposit-" + NatToString(id), now);
      var instant := InstantCredit(t);
      StampKeepsSourceEarnings(L.log, id, StampApproval(t, actor, now), t.userId, now);
      if instant > 0.0 && !HasSourceEarningsOn(L2.log, t.userId, id, now) then
        Ok(AddEarnings(L2, t.userId, instant, PlanNameOf(t.details) + "-instant", Some(id), now))
      else
        Ok(L2)
  }

  /**
   * `rejectTransaction`: fails only on a missing id; stamps the rejection
   * on any transaction (approved ones included) and touches no balance.
   */
  function Reject(L: Ledger, id: TxId, reason: string, actor: string, now: int): (r: Result<Ledger, LedgerError>)
    ensures id >= |L.log| <==> r == Err(NotFound)
    ensures r.Ok? ==> r.value.balances == L.balances && |r.value.log| == |L.log|
    ensures r.Ok? ==> forall j :: 0 <= j < |L.log| && j != id ==> r.value.log[j] == L.log[j]
    ensures r.Ok? ==> var t := L.log[id]; var t' := r.value.log[id];
      && t'.status == Rejected && t'.rejectionReason == Some(reason) && t'.rejectedBy == Some(actor)
      && t'.rejectedAt == Some(now) && t'.userId == t.userId && t'.kind == t.kind && t'.amount == t.amount
      && t'.approvedBy == t.approvedBy && t'.planDetails == t.planDetails
      && t'.description == t.description && t'.details == t.details
      && t'.submittedAt == t.submittedAt && t'.approvedAt == t.approvedAt
  {
    if id >= |L.log| then Err(NotFound)
    else
      var t := L.log[id];
      var t' := t.(status := Rejected, rejectedAt := Some(now), rejectionReason := Some(reason), rejectedBy := Some(actor));
      Ok(L.(log := L.log[id := t']))
  }

  // ---------------------------------------------------------------------
  // Recomputation

  datatype Tally = Tally(deposits: real, withdrawals: real, earnings: real)

  /** One iteration of the recomputation loop. */
  function TallyStep(acc: Tally, t: Transaction, u: UserId): Tally {
    if t.userId != u || t.status != Approved then acc
    else match t.kind
      case Deposit => acc.(deposits := acc.deposits + t.amount)
      case Plan => acc.(deposits := acc.deposits + t.amount)
      case Withdrawal => acc.(withdrawals := acc.withdrawals + t.amount)
      case Earnings => acc.(earnings := acc.earnings + t.amount)
  }

  /** The recomputation loop over `log[i..]`, starting from `acc`. */
  function TallyFrom(log: seq<Transaction>, u: UserId, i: nat, acc: Tally): Tally
    requires i <= |log|
    decreases |log| - i
  {
    if i == |log| then acc else TallyFrom(log, u, i + 1, TallyStep(acc, log[i], u))
  }

  lemma {:induction false} TallyFromIsSum(log: seq<Transaction>, u: UserId, i: nat, acc: Tally)
    requires i <= |log|
    ensures TallyFrom(log, u, i, acc)
         == Tally(acc.deposits + LogDeposits(log[i..], u), acc.withdrawals + LogWithdrawals(log[i..], u),
                  acc.earnings + LogEarnings(log[i..], u))
    decreases |log| - i
  {
    if i < |log| {
      assert log[i..][1..] == log[i + 1..];
      TallyFromIsSum(log, u, i + 1, TallyStep(acc, log[i], u));
    }
  }

  /**
   * `recalculateUserBalance`: rebuilds `u`'s totals from the approved
   * transactions and sets `currentBalance = deposits - withdrawals + earnings`;
   * the log, the history and the other users are left as they were.
   */
  function Recalculate(L: Ledger, u: UserId, now: int): (r: Ledger)
    ensures Reconciled(r, u)
    ensures r.log == L.log && r.balances - {u} == L.balances - {u}
    ensures r.balances[u].history == RecordOf(L, u, now).history && r.balances[u].lastUpdated == now
  {
    var tally := TallyFrom(L.log, u, 0, Tally(0.0, 0.0, 0.0));
    TallyFromIsSum(L.log, u, 0, Tally(0.0, 0.0, 0.0));
    assert L.log[0..] == L.log;
    var b := RecordOf(L, u, now);
    var b' := b.(totalDeposits := tally.deposits, totalWithdrawals := tally.withdrawals,
                 totalEarnings := tally.earnings,
                 currentBalance := tally.deposits - tally.withdrawals + tally.earnings, lastUpdated := now);
    L.(balances := L.balances[u := b'])
  }

  /** Running the recomputation twice gives the totals of running it once. */
  lemma RecalculateIdempotent(L: Ledger, u: UserId, now: int, later: int)
    ensures var once := Recalculate(L, u, now); var twice := Recalculate(once, u, later);
      && twice.balances[u].totalDeposits == once.balances[u].totalDeposits
      && twice.balances[u].totalWithdrawals == once.balances[u].totalWithdrawals
      && twice.balances[u].totalEarnings == once.balances[u].totalEarnings
      && twice.balances[u].currentBalance == once.balances[u].currentBalance
      && twice.log == L.log
  {
  }

  /** The five figures `getBalanceSummary` reports; the history stays behind. */
  datatype Summary = Summary(currentBalance: real, totalDeposits: real, totalEarnings: real,
                             totalWithdrawals: real, lastUpdated: int)

  /** `getBalanceSummary`: the figures of `u`'s record, stored zeroed first when missing. */
  function GetBalanceSummary(L: Ledger, u: UserId, now: int): (r: (Ledger, Summary))
    ensures r.0.log == L.log && u in r.0.balances && r.0.balances - {u} == L.balances - {u}
    ensures u in L.balances ==> r.0 == L
    ensures var b := r.0.balances[u];
      r.1 == Summary(b.currentBalance, b.totalDeposits, b.totalEarnings, b.totalWithdrawals, b.lastUpdated)
    ensures u !in L.balances ==> r.1 == Summary(0.0, 0.0, 0.0, 0.0, now)
  {
    var (L1, b) := GetUserBalance(L, u, now);
    (L1, Summary(b.currentBalance, b.totalDeposits, b.totalEarnings, b.totalWithdrawals, b.lastUpdated))
  }
}

=== FILE: ledger_proofs.dfy ===
/**
 * Properties that relate several ledger operations: the approve-then-recompute
 * identity, the drift of the incremental path, rejection, and the worked
 * scenarios of the approval tier.
 */
module LedgerProofs {
  import opened Wrappers
  import opened Text
  import opened Clock
  import opened LedgerModel
  import opened LedgerSums
  import opened LedgerOps

  /** Both directions of the tier mapping of `approveTransaction`. */
  lemma ApprovalRoiTiers(d: Details, amount: real)
    ensures var pt := LowerAscii(d.planType.GetOr("")); var known := pt in {"basic", "standard", "premium"};
      && (ApprovalRoi(d, amount) == 4 <==> pt == "basic" || (!known && amount < 99.0))
      && (ApprovalRoi(d, amount) == 6 <==> pt == "standard" || (!known && 99.0 <= amount < 499.0))
      && (ApprovalRoi(d, amount) == 8 <==> pt == "premium" || (!known && amount >= 499.0))
  {
  }

  function DepositDetails(planType: Option<string>): Details {
    NoDetails().(planType := planType)
  }

  /** The worked tier examples: 50, 200 and 1000 without a plan type, and premium at 10. */
  lemma ApprovalRoiExamples()
    ensures ApprovalRoi(DepositDetails(None), 50.0) == 4
    ensures ApprovalRoi(DepositDetails(None), 200.0) == 6
    ensures ApprovalRoi(DepositDetails(None), 1000.0) == 8
    ensures ApprovalRoi(DepositDetails(Some("premium")), 10.0) == 8
    ensures ApprovalRoi(DepositDetails(Some("Premium")), 10.0) == 8
  {
    assert LowerAscii("") == "";
    assert LowerAscii("premium") == "premium";
    assert LowerAscii("Premium") == "premium";
  }

  /**
   * The reconciliation identity: after approving a transaction and
   * recomputing, the balance is deposits + earnings - withdrawals, and each
   * total is the old log total plus the approved amount in its own kind
   * (plus the instant day's earnings when it was credited).
   */
  lemma {:induction false} ApproveThenRecalculate(L: Ledger, id: TxId, actor: string, now: int, later: int)
    requires id < |L.log| && L.log[id].status != Approved
    ensures var t := L.log[id]; var u := t.userId;
      var b := Recalculate(Approve(L, id, actor, now).value, u, later).balances[u];
      var instant := if InstantDue(L, id, now) then InstantCredit(t) else 0.0;
      && b.currentBalance == b.totalDeposits + b.totalEarnings - b.totalWithdrawals
      && b.totalDeposits == LogDeposits(L.log, u) + (if t.kind in {Deposit, Plan} then t.amount else 0.0)
      && b.totalWithdrawals == LogWithdrawals(L.log, u) + (if t.kind == Withdrawal then t.amount else 0.0)
      && b.totalEarnings == LogEarnings(L.log, u) + (if t.kind == Earnings then t.amount else 0.0) + instant
  {
    var t := L.log[id];
    var u := t.userId;
    var s := StampApproval(t, actor, now);
    var L1 := Approve(L, id, actor, now).value;
    var stamped := L.log[id := s];
    assert L1.log[..|L.log|] == stamped;
    assert L1.log == stamped || L1.log == stamped + [L1.log[|L.log|]];
    forall k: TxKind
      ensures ApprovedSum(stamped, u, k) == ApprovedSum(L.log, u, k) + (if t.kind == k then t.amount else 0.0)
    {
      SumUpdate(L.log, id, s, u, k);
    }
    if InstantDue(L, id, now) {
      var e := L1.log[|L.log|];
      assert L1.log == stamped + [e];
      forall k: TxKind
        ensures ApprovedSum(L1.log, u, k) == ApprovedSum(stamped, u, k) + (if k == Earnings then InstantCredit(t) else 0.0)
      {
        SumAppend(stamped, e, u, k);
      }
    } else {
      assert L1.log == stamped;
    }
  }

  /**
   * The incremental path drifts: right after an approval the cached record
   * satisfies the balance identity exactly when the user had no earnings
   * before, because the deposit update drops earnings from the balance.
   */
  lemma ApprovalConsistentIffNoPriorEarnings(L: Ledger, id: TxId, actor: string, now: int)
    requires id < |L.log| && L.log[id].status != Approved
    ensures var u := L.log[id].userId;
      Consistent(Approve(L, id, actor, now).value.balances[u]) <==> RecordOf(L, u, now).totalEarnings == 0.0
  {
  }

  /** Approving a withdrawal adds its amount to `totalDeposits` on the incremental path. */
  lemma ApproveWithdrawalCreditsDeposits(L: Ledger, id: TxId, actor: string, now: int)
    requires id < |L.log| && L.log[id].status != Approved && L.log[id].kind == Withdrawal
    ensures var u := L.log[id].userId; var b := RecordOf(L, u, now);
      var b' := Approve(L, id, actor, now).value.balances[u];
      && b'.totalDeposits == b.totalDeposits + L.log[id].amount
      && b'.totalWithdrawals == b.totalWithdrawals
      && b'.currentBalance >= b.totalDeposits - b.totalWithdrawals + L.log[id].amount
  {
    assert InstantCredit(L.log[id]) <= 0.0 || InstantCredit(L.log[id]) > 0.0;
  }

  /** Approving twice: the second call fails and so cannot credit anything again. */
  lemma ApproveTwiceFails(L: Ledger, id: TxId, actor: string, actor2: string, now: int, later: int)
    requires Approve(L, id, actor, now).Ok?
    ensures Approve(Approve(L, id, actor, now).value, id, actor2, later) == Err(AlreadyApproved)
  {
  }

  /** A rejected transaction can still be approved. */
  lemma ApproveAfterRejectSucceeds(L: Ledger, id: TxId, reason: string, actor: string, now: int, later: int)
    requires id < |L.log|
    ensures Reject(L, id, reason, actor, now).Ok?
    ensures Approve(Reject(L, id, reason, actor, now).value, id, actor, later).Ok?
  {
  }

  /** Recording a pending transaction keeps every reconciled user reconciled. */
  lemma RecordKeepsReconciled(L: Ledger, v: UserId, u: UserId, kind: TxKind, amount: real,
                              description: string, details: Details, planDetails: PlanDetails, now: int)
    requires Reconciled(L, v)
    ensures Reconciled(RecordTransaction(L, u, kind, amount, description, details, planDetails, now).0, v)
  {
    var r := RecordTransaction(L, u, kind, amount, description, details, planDetails, now).0;
    assert r.log == L.log + [r.log[|L.log|]];
    forall k: TxKind ensures ApprovedSum(r.log, v, k) == ApprovedSum(L.log, v, k) {
      SumAppend(L.log, r.log[|L.log|], v, k);
    }
  }

  /**
   * Rejecting an approved transaction leaves the balance alone, and the next
   * recomputation takes its amount back out of its kind's total.
   */
  lemma {:induction false} RejectApprovedThenRecalculate(L: Ledger, id: TxId, reason: string, actor: string,
                                                         now: int, later: int)
    requires id < |L.log| && L.log[id].status == Approved
    ensures var t := L.log[id]; var u := t.userId;
      var L1 := Reject(L, id, reason, actor, now).value;
      var b := Recalculate(L1, u, later).balances[u];
      && L1.balances == L.balances
      && b.totalDeposits == LogDeposits(L.log, u) - (if t.kind in {Deposit, Plan} then t.amount else 0.0)
      && b.totalWithdrawals == LogWithdrawals(L.log, u) - (if t.kind == Withdrawal then t.amount else 0.0)
      && b.totalEarnings == LogEarnings(L.log, u) - (if t.kind == Earnings then t.amount else 0.0)
  {
    var t := L.log[id];
    var L1 := Reject(L, id, reason, actor, now).value;
    assert L1.log == L.log[id := L1.log[id]];
    forall k: TxKind
      ensures ApprovedSum(L1.log, t.userId, k) == ApprovedSum(L.log, t.userId, k) - (if t.kind == k then t.amount else 0.0)
    {
      SumUpdate(L.log, id, L1.log[id], t.userId, k);
    }
  }

  /**
   * The worked scenario: a deposit of 100 recorded, approved and recomputed
   * on an empty ledger gives deposits 100, earnings 6 (the 6% tier) and a
   * balance of 106.
   */
  lemma DepositOfHundredScenario(u: UserId, actor: string, now: int, later: int)
    ensures var L0 := Ledger([], map[]);
      var (L1, id) := RecordTransaction(L0, u, Deposit, 100.0, "Deposit", NoDetails(), NoPlanDetails(), now);
      var L2 := Approve(L1, id, actor, now);
      && L2.Ok?
      && var b := Recalculate(L2.value, u, later).balances[u];
      && b.totalDeposits == 100.0 && b.totalEarnings == 6.0 && b.totalWithdrawals == 0.0
      && b.currentBalance == 106.0
  {
    var L0 := Ledger([], map[]);
    var (L1, id) := RecordTransaction(L0, u, Deposit, 100.0, "Deposit", NoDetails(), NoPlanDetails(), now);
    assert LowerAscii("") == "";
    assert ApprovalRoi(L1.log[id].details, 100.0) == 6;
    assert !HasSourceEarningsOn(L1.log, u, id, now);
    assert InstantDue(L1, id, now) && InstantCredit(L1.log[id]) == 6.0;
    assert L1.log[1..] == [];
    forall k: TxKind ensures ApprovedSum(L1.log, u, k) == 0.0 {
      assert Contribution(L1.log[0], u, k) == 0.0;
      assert ApprovedSum(L1.log[1..], u, k) == 0.0;
    }
    assert LogDeposits(L1.log, u) == 0.0 && LogWithdrawals(L1.log, u) == 0.0 && LogEarnings(L1.log, u) == 0.0;
    ApproveThenRecalculate(L1, id, actor, now, later);
  }
}

=== FILE: ledger_sums.dfy ===
/**
 * How the approved sums over the log react to the three ways the ledger
 * changes the log: appending, rewriting one entry, and restamping
 * `lastEarningAt`.
 */
module LedgerSums {
  import opened LedgerModel

  lemma {:induction false} SumAppend(log: seq<Transaction>, t: Transaction, u: UserId, k: TxKind)
    ensures ApprovedSum(log + [t], u, k) == ApprovedSum(log, u, k) + Contribution(t, u, k)
    decreases |log|
  {
    if |log| > 0 {
      assert (log + [t])[1..] == log[1..] + [t];
      SumAppend(log[1..], t, u, k);
    }
  }

  lemma {:induction false} SumUpdate(log: seq<Transaction>, i: nat, t: Transaction, u: UserId, k: TxKind)
    requires i < |log|
    ensures ApprovedSum(log[i := t], u, k)
         == ApprovedSum(log, u, k) - Contribution(log[i], u, k) + Contribution(t, u, k)
    decreases |log|
  {
    if i > 0 {
      assert log[i := t][1..] == log[1..][i - 1 := t];
      SumUpdate(log[1..], i - 1, t, u, k);
    } else {
      assert log[i := t][1..] == log[1..];
    }
  }

  /** Logs whose entries contribute pointwise the same amounts have the same sum. */
  lemma {:induction false} SumPointwise(a: seq<Transaction>, b: seq<Transaction>, u: UserId, k: TxKind)
    requires |a| == |b|
    requires forall i :: 0 <= i < |a| ==> Contribution(a[i], u, k) == Contribution(b[i], u, k)
    ensures ApprovedSum(a, u, k) == ApprovedSum(b, u, k)
    decreases |a|
  {
    if |a| > 0 {
      SumPointwise(a[1..], b[1..], u, k);
    }
  }

  /** Restamping `lastEarningAt` changes no sum. */
  lemma SumStamped(a: seq<Transaction>, b: seq<Transaction>, u: UserId, k: TxKind)
    requires |a| == |b|
    requires forall i :: 0 <= i < |a| ==> SameButLastEarning(a[i], b[i])
    ensures ApprovedSum(a, u, k) == ApprovedSum(b, u, k)
  {
    SumPointwise(a, b, u, k);
  }

  /** Transactions of other users contribute nothing to `u`'s sums. */
  lemma SumAppendOther(log: seq<Transaction>, t: Transaction, u: UserId)
    requires t.userId != u
    ensures LogDeposits(log + [t], u) == LogDeposits(log, u)
    ensures LogWithdrawals(log + [t], u) == LogWithdrawals(log, u)
    ensures LogEarnings(log + [t], u) == LogEarnings(log, u)
  {
    SumAppend(log, t, u, Deposit);
    SumAppend(log, t, u, Plan);
    SumAppend(log, t, u, Withdrawal);
    SumAppend(log, t, u, Earnings);
  }
}

=== FILE: listing.dfy ===
/**
 * The read-only queries of `api/lib/db.js` over the transaction log: a
 * user's transactions newest first (optionally of one status), the pending
 * queue oldest first, and the per-user counts.
 */
module Listing {
  import opened Wrappers
  import opened LedgerModel

  /** The `approvalStatus` strings the store holds. */
  function StatusName(s: Approval): string {
    match s
    case Pending => "pending"
    case Approved => "approved"
    case Rejected => "rejected"
  }

  /** `if (status) query.approvalStatus = status`: an absent or empty filter keeps everything. */
  predicate StatusMatches(t: Transaction, status: Option<string>) {
    status.None? || status.value == "" || StatusName(t.status) == status.value
  }

  predicate Selected(t: Transaction, u: UserId, status: Option<string>) {
    t.userId == u && StatusMatches(t, status)
  }

  /** Ids of `u`'s transactions passing the filter, in log order. */
  function SelectedIds(log: seq<Transaction>, u: UserId, status: Option<string>): (ids: seq<TxId>)
    ensures forall k :: 0 <= k < |ids| ==> ids[k] < |log| && Selected(log[ids[k]], u, status)
    ensures forall i :: 0 <= i < |log| && Selected(log[i], u, status) ==> i in ids
    ensures forall k, l :: 0 <= k < l < |ids| ==> ids[k] < ids[l]
    decreases |log|
  {
    if |log| == 0 then []
    else
      var n := |log| - 1;
      var ids := SelectedIds(log[..n], u, status);
      if Selected(log[n], u, status) then ids + [n] else ids
  }

  /** Ids of the pending transactions of every user, in log order. */
  function PendingIds(log: seq<Transaction>): (ids: seq<TxId>)
    ensures forall k :: 0 <= k < |ids| ==> ids[k] < |log| && log[ids[k]].status == Pending
    ensures forall i :: 0 <= i < |log| && log[i].status == Pending ==> i in ids
    ensures forall k, l :: 0 <= k < l < |ids| ==> ids[k] < ids[l]
    decreases |log|
  {
    if |log| == 0 then []
    else
      var n := |log| - 1;
      var ids := PendingIds(log[..n]);
      if log[n].status == Pending then ids + [n] else ids
  }

  // ---------------------------------------------------------------------
  // Sorting by submission time

  predicate InLog(log: seq<Transaction>, ids: seq<TxId>) {
    forall k :: 0 <= k < |ids| ==> ids[k] < |log|
  }

  /** The submission time of `id`; ids outside the log never reach it. */
  function Time(log: seq<Transaction>, id: TxId): int {
    if id < |log| then log[id].submittedAt else 0
  }

  /** `a` may come before `b` under `.sort({submittedAt: newestFirst ? -1 : 1})`. */
  predicate Precedes(log: seq<Transaction>, a: TxId, b: TxId, newestFirst: bool) {
    if newestFirst then Time(log, a) >= Time(log, b) else Time(log, a) <= Time(log, b)
  }

  predicate SortedByTime(log: seq<Transaction>, ids: seq<TxId>, newestFirst: bool) {
    forall k, l :: 0 <= k < l < |ids| ==> Precedes(log, ids[k], ids[l], newestFirst)
  }

  function Insert(log: seq<Transaction>, x: TxId, ids: seq<TxId>, newestFirst: bool): (r: seq<TxId>)
    requires SortedByTime(log, ids, newestFirst)
    ensures SortedByTime(log, r, newestFirst)
    ensures multiset(r) == multiset(ids) + multiset{x}
    ensures forall k :: 0 <= k < |r| ==> r[k] == x || r[k] in ids
    decreases |ids|
  {
    if |ids| == 0 then [x]
    else if Precedes(log, x, ids[0], newestFirst) then
      PrependSorted(log, x, ids, newestFirst);
      [x] + ids
    else
      var rest := Insert(log, x, ids[1..], newestFirst);
      assert ids == [ids[0]] + ids[1..];
      InsertHeadSorted(log, ids[0], x, ids[1..], rest, newestFirst);
      ConsMembers(ids, x, rest);
      [ids[0]] + rest
  }

  /** An id that may come before the first of a sorted list may come before all of it. */
  lemma PrependSorted(log: seq<Transaction>, x: TxId, ids: seq<TxId>, newestFirst: bool)
    requires SortedByTime(log, ids, newestFirst)
    requires |ids| > 0 && Precedes(log, x, ids[0], newestFirst)
    ensures SortedByTime(log, [x] + ids, newestFirst)
  {
    var all := [x] + ids;
    forall k, l | 0 <= k < l < |all|
      ensures Precedes(log, all[k], all[l], newestFirst)
    {
      if k == 0 {
        assert all[l] == ids[l - 1];
        assert l - 1 == 0 || Precedes(log, ids[0], ids[l - 1], newestFirst);
      } else {
        assert all[k] == ids[k - 1] && all[l] == ids[l - 1];
      }
    }
  }

  /** Putting the head of `ids` before a list of `x` and the tail's ids gives a list of `x` and ids. */
  lemma ConsMembers(ids: seq<TxId>, x: TxId, rest: seq<TxId>)
    requires |ids| > 0
    requires forall k :: 0 <= k < |rest| ==> rest[k] == x || rest[k] in ids[1..]
    ensures forall k :: 0 <= k < |[ids[0]] + rest| ==> ([ids[0]] + rest)[k] == x || ([ids[0]] + rest)[k] in ids
  {
    forall k | 0 <= k < |[ids[0]] + rest|
      ensures ([ids[0]] + rest)[k] == x || ([ids[0]] + rest)[k] in ids
    {
      if k > 0 && rest[k - 1] != x {
        var j :| 0 <= j < |ids| - 1 && ids[1..][j] == rest[k - 1];
        assert ids[j + 1] == ids[1..][j];
      }
    }
  }

  lemma InsertHeadSorted(log: seq<Transaction>, h: TxId, x: TxId, tail: seq<TxId>, rest: seq<TxId>, newestFirst: bool)
    requires SortedByTime(log, [h] + tail, newestFirst) && SortedByTime(log, rest, newestFirst)
    requires !Precedes(log, x, h, newestFirst)
    requires forall k :: 0 <= k < |rest| ==> rest[k] == x || rest[k] in tail
    ensures SortedByTime(log, [h] + rest, newestFirst)
  {
    var all := [h] + rest;
    forall k, l | 0 <= k < l < |all|
      ensures Precedes(log, all[k], all[l], newestFirst)
    {
      if k == 0 {
        assert all[l] == rest[l - 1];
        if rest[l - 1] != x {
          var j :| 0 <= j < |tail| && tail[j] == rest[l - 1];
          assert ([h] + tail)[0] == h && ([h] + tail)[j + 1] == tail[j];
        }
      } else {
        assert all[k] == rest[k - 1] && all[l] == rest[l - 1];
      }
    }
  }

  /** A time-ordered rearrangement of `ids`; ties keep no particular order. */
  function SortByTime(log: seq<Transaction>, ids: seq<TxId>, newestFirst: bool): (r: seq<TxId>)
    ensures SortedByTime(log, r, newestFirst)
    ensures multiset(r) == multiset(ids)
    ensures forall k :: 0 <= k < |r| ==> r[k] in ids
    decreases |ids|
  {
    if |ids| == 0 then []
    else
      assert ids == [ids[0]] + ids[1..];
      Insert(log, ids[0], SortByTime(log, ids[1..], newestFirst), newestFirst)
  }

  /** `getUserTransactions(userId, status)`: ids of the selected transactions, newest first. */
  function GetUserTransactions(L: Ledger, u: UserId, status: Option<string>): (ids: seq<TxId>)
    ensures InLog(L.log, ids) && SortedByTime(L.log, ids, true)
    ensures forall i: TxId :: i in ids <==> i < |L.log| && Selected(L.log[i], u, status)
    ensures forall i :: multiset(ids)[i] <= 1
  {
    var sel := SelectedIds(L.log, u, status);
    var r := SortByTime(L.log, sel, true);
    DistinctCount(sel);
    SameElements(r, sel);
    forall i: TxId
      ensures i in r <==> i < |L.log| && Selected(L.log[i], u, status)
    {
      if i in sel {
        var k :| 0 <= k < |sel| && sel[k] == i;
      }
    }
    r
  }

  /** `getPendingTransactions()`: ids of all pending transactions, oldest first. */
  function GetPendingTransactions(L: Ledger): (ids: seq<TxId>)
    ensures InLog(L.log, ids) && SortedByTime(L.log, ids, false)
    ensures forall i: TxId :: i in ids <==> i < |L.log| && L.log[i].status == Pending
    ensures forall i :: multiset(ids)[i] <= 1
  {
    var pend := PendingIds(L.log);
    var r := SortByTime(L.log, pend, false);
    DistinctCount(pend);
    SameElements(r, pend);
    forall i: TxId
      ensures i in r <==> i < |L.log| && L.log[i].status == Pending
    {
      if i in pend {
        var k :| 0 <= k < |pend| && pend[k] == i;
      }
    }
    r
  }

  lemma SameElements(a: seq<TxId>, b: seq<TxId>)
    requires multiset(a) == multiset(b)
    ensures forall i :: i in a <==> i in b
  {
    forall i
      ensures i in a <==> i in b
    {
      assert i in a <==> i in multiset(a);
      assert i in b <==> i in multiset(b);
    }
  }

  /** A strictly increasing sequence holds each value at most once. */
  lemma {:induction false} DistinctCount(ids: seq<TxId>)
    requires forall k, l :: 0 <= k < l < |ids| ==> ids[k] < ids[l]
    ensures forall i :: multiset(ids)[i] <= 1
    decreases |ids|
  {
    if |ids| > 0 {
      DistinctCount(ids[1..]);
      assert ids == [ids[0]] + ids[1..];
      assert ids[0] !in ids[1..];
    }
  }

  // ---------------------------------------------------------------------
  // getTransactionStats

  datatype Stats = Stats(total: nat, pending: nat, approved: nat, rejected: nat,
                         deposits: nat, withdrawals: nat, plans: nat)

  function CountUser(log: seq<Transaction>, u: UserId): nat
    decreases |log|
  {
    if |log| == 0 then 0 else (if log[0].userId == u then 1 else 0) + CountUser(log[1..], u)
  }

  function CountStatus(log: seq<Transaction>, u: UserId, s: Approval): nat
    decreases |log|
  {
    if |log| == 0 then 0
    else (if log[0].userId == u && log[0].status == s then 1 else 0) + CountStatus(log[1..], u, s)
  }

  function CountKind(log: seq<Transaction>, u: UserId, k: TxKind): nat
    decreases |log|
  {
    if |log| == 0 then 0
    else (if log[0].userId == u && log[0].kind == k then 1 else 0) + CountKind(log[1..], u, k)
  }

  /** `getTransactionStats(userId)`. */
  function GetTransactionStats(L: Ledger, u: UserId): (s: Stats)
    ensures s.total == |SelectedIds(L.log, u, None)|
    ensures s.pending == |SelectedIds(L.log, u, Some("pending"))|
    ensures s.approved == |SelectedIds(L.log, u, Some("approved"))|
    ensures s.rejected == |SelectedIds(L.log, u, Some("rejected"))|
    ensures s.deposits == |KindPositions(L.log, u, Deposit)|
    ensures s.withdrawals == |KindPositions(L.log, u, Withdrawal)|
    ensures s.plans == |KindPositions(L.log, u, Plan)|
    ensures s.pending + s.approved + s.rejected == s.total
    ensures s.deposits + s.withdrawals + s.plans <= s.total
  {
    StatusCountsPartition(L.log, u);
    KindCountsPartition(L.log, u);
    CountUserIsSelected(L.log, u);
    CountStatusIsSelected(L.log, u, Pending);
    CountStatusIsSelected(L.log, u, Approved);
    CountStatusIsSelected(L.log, u, Rejected);
    CountKindIsPositions(L.log, u, Deposit);
    CountKindIsPositions(L.log, u, Withdrawal);
    CountKindIsPositions(L.log, u, Plan);
    Stats(CountUser(L.log, u), CountStatus(L.log, u, Pending), CountStatus(L.log, u, Approved),
          CountStatus(L.log, u, Rejected), CountKind(L.log, u, Deposit), CountKind(L.log, u, Withdrawal),
          CountKind(L.log, u, Plan))
  }

  /** Every transaction has exactly one of the three statuses. */
  lemma {:induction false} StatusCountsPartition(log: seq<Transaction>, u: UserId)
    ensures CountStatus(log, u, Pending) + CountStatus(log, u, Approved) + CountStatus(log, u, Rejected)
         == CountUser(log, u)
    decreases |log|
  {
    if |log| > 0 {
      StatusCountsPartition(log[1..], u);
    }
  }

  /** Every transaction has exactly one of the four kinds; earnings are not counted by type. */
  lemma {:induction false} KindCountsPartition(log: seq<Transaction>, u: UserId)
    ensures CountKind(log, u, Deposit) + CountKind(log, u, Withdrawal) + CountKind(log, u, Plan)
            + CountKind(log, u, Earnings) == CountUser(log, u)
    decreases |log|
  {
    if |log| > 0 {
      KindCountsPartition(log[1..], u);
    }
  }

  /** The total is the number of the user's transactions the listing returns. */
  lemma {:induction false} CountUserIsSelected(log: seq<Transaction>, u: UserId)
    ensures CountUser(log, u) == |SelectedIds(log, u, None)|
    decreases |log|
  {
    if |log| > 0 {
      var n := |log| - 1;
      CountUserIsSelected(log[..n], u);
      CountUserSnoc(log[..n], log[n], u);
      assert log[..n] + [log[n]] == log;
    }
  }

  lemma {:induction false} CountUserSnoc(log: seq<Transaction>, t: Transaction, u: UserId)
    ensures CountUser(log + [t], u) == CountUser(log, u) + (if t.userId == u then 1 else 0)
    decreases |log|
  {
    if |log| > 0 {
      assert (log + [t])[1..] == log[1..] + [t];
      CountUserSnoc(log[1..], t, u);
    }
  }

  /** Positions of `u`'s transactions of kind `k`: what `filter(t => t.type === k)` keeps. */
  function KindPositions(log: seq<Transaction>, u: UserId, k: TxKind): set<nat> {
    set i: nat | i < |log| && log[i].userId == u && log[i].kind == k
  }

  /** A status count is the length of the listing filtered by that status. */
  lemma {:induction false} CountStatusIsSelected(log: seq<Transaction>, u: UserId, s: Approval)
    ensures CountStatus(log, u, s) == |SelectedIds(log, u, Some(StatusName(s)))|
    decreases |log|
  {
    if |log| > 0 {
      var n := |log| - 1;
      SelectedIdsSnoc(log, u, Some(StatusName(s)));
      SelectedByStatus(log[n], u, s);
      CountStatusIsSelected(log[..n], u, s);
      CountStatusLast(log, u, s);
    }
  }

  /** Filtering by a status name keeps exactly the transactions with that status. */
  lemma SelectedByStatus(t: Transaction, u: UserId, s: Approval)
    ensures Selected(t, u, Some(StatusName(s))) <==> t.userId == u && t.status == s
  {
    var name := StatusName(s);
    assert name != "";
    assert StatusName(t.status) == name ==> StatusName(t.status)[0] == name[0] && |StatusName(t.status)| == |name|;
  }

  lemma CountStatusLast(log: seq<Transaction>, u: UserId, s: Approval)
    requires |log| > 0
    ensures var n := |log| - 1;
      CountStatus(log, u, s) == CountStatus(log[..n], u, s) + (if log[n].userId == u && log[n].status == s then 1 else 0)
  {
    var n := |log| - 1;
    CountStatusSnoc(log[..n], log[n], u, s);
    assert log[..n] + [log[n]] == log;
  }

  /** The listing of a log grows by one exactly when its last transaction passes the filter. */
  lemma SelectedIdsSnoc(log: seq<Transaction>, u: UserId, status: Option<string>)
    requires |log| > 0
    ensures |SelectedIds(log, u, status)|
         == |SelectedIds(log[..|log| - 1], u, status)| + (if Selected(log[|log| - 1], u, status) then 1 else 0)
  {
  }

  lemma {:induction false} CountStatusSnoc(log: seq<Transaction>, t: Transaction, u: UserId, s: Approval)
    ensures CountStatus(log + [t], u, s) == CountStatus(log, u, s) + (if t.userId == u && t.status == s then 1 else 0)
    decreases |log|
  {
    if |log| > 0 {
      assert (log + [t])[1..] == log[1..] + [t];
      CountStatusSnoc(log[1..], t, u, s);
    }
  }

  /** A kind count is the number of positions holding `u`'s transactions of that kind. */
  lemma {:induction false} CountKindIsPositions(log: seq<Transaction>, u: UserId, k: TxKind)
    ensures CountKind(log, u, k) == |KindPositions(log, u, k)|
    decreases |log|
  {
    if |log| > 0 {
      var n := |log| - 1;
      KindPositionsSnoc(log, u, k);
      CountKindIsPositions(log[..n], u, k);
      CountKindSnoc(log[..n], log[n], u, k);
      assert log[..n] + [log[n]] == log;
    }
  }

  /** The positions of a log are those of all but its last transaction, plus the last one when it matches. */
  lemma KindPositionsSnoc(log: seq<Transaction>, u: UserId, k: TxKind)
    requires |log| > 0
    ensures var n := |log| - 1;
      |KindPositions(log, u, k)| == |KindPositions(log[..n], u, k)| + (if log[n].userId == u && log[n].kind == k then 1 else 0)
  {
    var n := |log| - 1;
    var before := KindPositions(log[..n], u, k);
    var after := if log[n].userId == u && log[n].kind == k then before + {n} else before;
    forall i: nat ensures i in KindPositions(log, u, k) <==> i in after {
      if i < n {
        assert log[..n][i] == log[i];
      }
    }
    assert KindPositions(log, u, k) == after;
  }

  lemma {:induction false} CountKindSnoc(log: seq<Transaction>, t: Transaction, u: UserId, k: TxKind)
    ensures CountKind(log + [t], u, k) == CountKind(log, u, k) + (if t.userId == u && t.kind == k then 1 else 0)
    decreases |log|
  {
    if |log| > 0 {
      assert (log + [t])[1..] == log[1..] + [t];
      CountKindSnoc(log[1..], t, u, k);
    }
  }
}

=== FILE: otp.dfy ===
/**
 * The one-time password format: `generateOTP` in `api/lib/email.js` writes
 * a six-digit code as `ddd-ddd`, and the verification page of
 * `js/verify-email.js` reformats the six typed characters the same way
 * before sending them.
 */
module Otp {
  import opened Text

  /** `s.match(/.{1,3}/g)`: consecutive chunks of three characters, the last one possibly shorter. */
  function ChunksOfThree(s: string): (chunks: seq<string>)
    ensures forall i :: 0 <= i < |chunks| ==> 1 <= |chunks[i]| <= 3
    decreases |s|
  {
    if |s| == 0 then []
    else if |s| <= 3 then [s]
    else [s[..3]] + ChunksOfThree(s[3..])
  }

  /** `chunks.join(sep)`. */
  function Join(chunks: seq<string>, sep: string): string {
    if |chunks| == 0 then ""
    else if |chunks| == 1 then chunks[0]
    else chunks[0] + sep + Join(chunks[1..], sep)
  }

  /** Chunking then joining without a separator gives the string back. */
  lemma {:induction false} JoinChunks(s: string)
    ensures Join(ChunksOfThree(s), "") == s
    decreases |s|
  {
    if |s| > 3 {
      JoinChunks(s[3..]);
      assert s[..3] + s[3..] == s;
      var rest := ChunksOfThree(s[3..]);
      assert |rest| >= 1;
    }
  }

  /** The code as the server stores it: the digits of `draw` in chunks of three joined by `-`. */
  function GenerateOtp(draw: int): (otp: string)
    requires 100000 <= draw <= 999999
    ensures |otp| == 7 && otp[3] == '-'
    ensures forall i :: 0 <= i < 7 && i != 3 ==> IsDigit(otp[i])
    ensures otp[0] != '0'
    ensures |ChunksOfThree(NatToString(draw))| == 2
    ensures otp[..3] + otp[4..] == NatToString(draw)
  {
    var digits := NatToString(draw);
    NatToStringLength(draw, 5);
    assert digits[3..][3..] == [];
    assert ChunksOfThree(digits) == [digits[..3], digits[3..]];
    assert Join(ChunksOfThree(digits), "-") == digits[..3] + "-" + digits[3..];
    Join(ChunksOfThree(digits), "-")
  }

  /** The code `GenerateOtp` wrote reads back as the draw. */
  lemma GenerateOtpDecodes(draw: int)
    requires 100000 <= draw <= 999999
    ensures var otp := GenerateOtp(draw); AllDigits(otp[..3] + otp[4..]) && DecimalValue(otp[..3] + otp[4..]) == draw
  {
    DecimalValueOfNatToString(draw);
  }

  /** The typed code: each box trimmed, then concatenated. */
  function RawCode(boxes: seq<string>): string {
    if |boxes| == 0 then "" else RawCode(boxes[..|boxes| - 1]) + Trim(boxes[|boxes| - 1])
  }

  /** The submit handler's reformatting: six characters become `ddd-ddd`, anything else is sent as typed. */
  function FormatTypedCode(raw: string): (otp: string)
    ensures |raw| == 6 ==> |otp| == 7 && otp[3] == '-' && otp[..3] + otp[4..] == raw
    ensures |raw| != 6 ==> otp == raw
  {
    if |raw| == 6 then
      var otp := raw[..3] + "-" + raw[3..];
      assert otp[..3] == raw[..3] && otp[4..] == raw[3..];
      otp
    else raw
  }

  /** Typing the six digits of a generated code reproduces the stored code exactly. */
  lemma TypedCodeMatchesGenerated(draw: int)
    requires 100000 <= draw <= 999999
    ensures FormatTypedCode(NatToString(draw)) == GenerateOtp(draw)
  {
    NatToStringLength(draw, 5);
    var otp := GenerateOtp(draw);
    var typed := FormatTypedCode(NatToString(draw));
    assert typed[..3] == otp[..3] && typed[4..] == otp[4..];
    assert otp == otp[..3] + "-" + otp[4..];
    assert typed == typed[..3] + "-" + typed[4..];
  }

  /** Six boxes holding one digit each give the generator's `ddd-ddd` shape. */
  lemma SixDigitBoxes(boxes: seq<string>)
    requires |boxes| == 6 && forall i :: 0 <= i < 6 ==> |boxes[i]| == 1 && IsDigit(boxes[i][0])
    ensures var otp := FormatTypedCode(RawCode(boxes));
      |otp| == 7 && otp[3] == '-' && forall i :: 0 <= i < 7 && i != 3 ==> IsDigit(otp[i])
  {
    var raw := RawCode(boxes);
    RawCodeOfDigitBoxes(boxes);
    var otp := FormatTypedCode(raw);
    forall i | 0 <= i < 7 && i != 3 ensures IsDigit(otp[i]) {
      if i < 3 {
        assert otp[i] == (otp[..3] + otp[4..])[i];
      } else {
        assert otp[i] == (otp[..3] + otp[4..])[i - 1];
      }
    }
  }

  lemma {:induction false} RawCodeOfDigitBoxes(boxes: seq<string>)
    requires forall i :: 0 <= i < |boxes| ==> |boxes[i]| == 1 && IsDigit(boxes[i][0])
    ensures |RawCode(boxes)| == |boxes| && AllDigits(RawCode(boxes))
    decreases |boxes|
  {
    if |boxes| > 0 {
      var last := boxes[|boxes| - 1];
      RawCodeOfDigitBoxes(boxes[..|boxes| - 1]);
      TrimOfOneChar(last);
      DigitsAppend(RawCode(boxes[..|boxes| - 1]), last);
    }
  }

  lemma DigitsAppend(a: string, b: string)
    requires AllDigits(a) && AllDigits(b)
    ensures AllDigits(a + b)
  {
    forall i | 0 <= i < |a + b| ensures IsDigit((a + b)[i]) {
      if i >= |a| {
        assert (a + b)[i] == b[i - |a|];
      }
    }
  }
}

=== FILE: server_rules.dfy ===
/**
 * The pure rules of `server/index.js`: the plan tables, the affiliate tiers
 * and referral registration, the custom-deposit and withdrawal submission
 * checks, and the admin approve routes that bring the linked ledger
 * transaction to `approved`.
 */
module ServerRules {
  import opened Wrappers
  import opened LedgerModel
  import opened LedgerOps
  import opened JsNumbers
  import Affiliate
  import WithdrawForm
  import Accrual
  import AccrualProofs

  // ---------------------------------------------------------------------
  // Plan tables

  predicate IsKnownPlan(planType: string) {
    planType == "basic" || planType == "standard" || planType == "premium"
  }

  /** `getPlanAmount`: the price of a plan; unknown plan types cost 0. */
  function PlanAmount(planType: string): (a: real)
    ensures planType == "basic" ==> a == 50.0
    ensures planType == "standard" ==> a == 100.0
    ensures planType == "premium" ==> a == 500.0
    ensures a != 0.0 <==> IsKnownPlan(planType)
  {
    if planType == "basic" then 50.0
    else if planType == "standard" then 100.0
    else if planType == "premium" then 500.0
    else 0.0
  }

  /** `getPlanDailyROI`: the daily rate as a fraction; unknown plan types earn 0. */
  function PlanDailyRoi(planType: string): (r: real)
    ensures planType == "basic" ==> r == 0.005
    ensures planType == "standard" ==> r == 0.0075
    ensures planType == "premium" ==> r == 0.01
    ensures r != 0.0 <==> IsKnownPlan(planType)
  {
    if planType == "basic" then 0.5 / 100.0
    else if planType == "standard" then 0.75 / 100.0
    else if planType == "premium" then 1.0 / 100.0
    else 0.0
  }

  /** A dearer plan earns a strictly higher daily rate. */
  lemma PlanTablesAgree(p: string, q: string)
    requires PlanAmount(p) < PlanAmount(q)
    ensures PlanDailyRoi(p) < PlanDailyRoi(q)
  {
  }

  // ---------------------------------------------------------------------
  // Affiliate tiers and referral registration

  /** The stage and reward the affiliate-info route reports; an absent count reads as 0. */
  function AffiliateInfoTier(referralsCount: Option<int>): (t: Affiliate.Tier)
    ensures t.reward == Affiliate.RewardOf(t.stage)
  {
    var count := referralsCount.GetOr(0);
    if count > 25 then Affiliate.Tier(Affiliate.Platinum, 10)
    else if count == 25 then Affiliate.Tier(Affiliate.Gold, 8)
    else if count >= 10 then Affiliate.Tier(Affiliate.Silver, 5)
    else Affiliate.Tier(Affiliate.Bronze, 2)
  }

  /** The reward paid when a referral brings the referrer to `newCount` referrals. */
  function RegistrationReward(newCount: int): (reward: int)
    ensures reward in {2, 5, 8, 10}
  {
    if newCount > 25 then 10
    else if newCount == 25 then 8
    else if newCount >= 10 then 5
    else 2
  }

  /** The server's info route and the page's tier table agree on every count. */
  lemma AffiliateInfoMatchesPage(referralsCount: Option<int>)
    ensures AffiliateInfoTier(referralsCount) == Affiliate.StageForCount(referralsCount.GetOr(0))
  {
  }

  /** Registration pays the reward of the stage the new count reaches. */
  lemma RegistrationRewardMatchesStage(newCount: int)
    ensures RegistrationReward(newCount) == Affiliate.StageForCount(newCount).reward
  {
  }

  /** The fields of a user account that referral registration reads and writes. */
  datatype Account = Account(
    id: string,
    email: UserId,
    referralCode: Option<string>,
    referredBy: Option<string>,
    referrals: seq<string>,
    referralsCount: int,
    totalReferralRewards: real)

  /** A string attribute that JavaScript treats as set: present and non-empty. */
  predicate IsSet(s: Option<string>) {
    s.Some? && s.value != ""
  }

  /** The first account (in collection order) matching `code`. */
  function FindByCode(accounts: seq<Account>, code: string): (r: Option<nat>)
    ensures r.Some? ==> r.value < |accounts| && accounts[r.value].referralCode == Some(code)
    ensures r.None? ==> forall i :: 0 <= i < |accounts| ==> accounts[i].referralCode != Some(code)
  {
    if |accounts| == 0 then None
    else if accounts[0].referralCode == Some(code) then Some(0)
    else match FindByCode(accounts[1..], code)
      case None => None
      case Some(i) => Some(i + 1)
  }

  /** The account with identifier `id`. */
  function FindById(accounts: seq<Account>, id: string): (r: Option<nat>)
    ensures r.Some? ==> r.value < |accounts| && accounts[r.value].id == id
    ensures r.None? ==> forall i :: 0 <= i < |accounts| ==> accounts[i].id != id
  {
    if |accounts| == 0 then None
    else if accounts[0].id == id then Some(0)
    else match FindById(accounts[1..], id)
      case None => None
      case Some(i) => Some(i + 1)
  }

  datatype ReferralError = MissingReferralField | ReferrerNotFound | ReferredNotFound | AlreadyReferred

  datatype Registration = Registration(accounts: seq<Account>, ledger: Ledger, reward: int)

  /**
   * `POST /api/affiliate/register`: links the referred account to the
   * referrer once, bumps the referrer's count, and credits the reward of the
   * new count to both users as `referral` earnings.
   */
  function RegisterReferral(accounts: seq<Account>, L: Ledger, refCode: string, referredId: string,
                            now: int): (r: Result<Registration, ReferralError>)
    ensures refCode == "" || referredId == "" ==> r == Err(MissingReferralField)
    ensures r == Err(AlreadyReferred) <==>
      && refCode != "" && referredId != ""
      && FindByCode(accounts, refCode).Some? && FindById(accounts, referredId).Some?
      && IsSet(accounts[FindById(accounts, referredId).value].referredBy)
    ensures r.Ok? ==> FindByCode(accounts, refCode).Some? && FindById(accounts, referredId).Some?
    ensures r.Ok? ==> |r.value.accounts| == |accounts| && forall i :: 0 <= i < |accounts| ==> r.value.accounts[i].id == accounts[i].id
    ensures r.Ok? ==>
      var ri := FindByCode(accounts, refCode).value;
      var di := FindById(accounts, referredId).value;
      var referrer := r.value.accounts[ri];
      && !IsSet(accounts[di].referredBy)
      && r.value.accounts[di].referredBy == Some(accounts[ri].id)
      && referrer.referralsCount == accounts[ri].referralsCount + 1
      && referrer.referrals == accounts[ri].referrals + [referredId]
      && r.value.reward == Affiliate.StageForCount(referrer.referralsCount).reward
      && referrer.totalReferralRewards == accounts[ri].totalReferralRewards + r.value.reward as real
      && (forall i :: 0 <= i < |accounts| && i != ri && i != di ==> r.value.accounts[i] == accounts[i])
      && (di != ri ==> r.value.accounts[di] == accounts[di].(referredBy := Some(accounts[ri].id)))
      && (di != ri ==> referrer == accounts[ri].(referrals := referrer.referrals, referralsCount := referrer.referralsCount,
                                                 totalReferralRewards := referrer.totalReferralRewards))
      && |r.value.ledger.log| == |L.log| + 2
      && r.value.ledger.log[|L.log|] == EarningsTransaction(accounts[ri].email, r.value.reward as real, "referral", None, now)
      && r.value.ledger.log[|L.log| + 1] == EarningsTransaction(accounts[di].email, r.value.reward as real, "referral", None, now)
  {
    if refCode == "" || referredId == "" then Err(MissingReferralField)
    else match FindByCode(accounts, refCode)
      case None => Err(ReferrerNotFound)
      case Some(ri) =>
        match FindById(accounts, referredId)
        case None => Err(ReferredNotFound)
        case Some(di) =>
          if IsSet(accounts[di].referredBy) then Err(AlreadyReferred)
          else
            var marked := accounts[di := accounts[di].(referredBy := Some(accounts[ri].id))];
            var referrer := marked[ri];
            var count := referrer.referralsCount + 1;
            var reward := RegistrationReward(count);
            RegistrationRewardMatchesStage(count);
            var L1 := AddEarnings(L, accounts[ri].email, reward as real, "referral", None, now);
            var L2 := AddEarnings(L1, accounts[di].email, reward as real, "referral", None, now);
            var referrer' := referrer.(referrals := referrer.referrals + [referredId], referralsCount := count,
                                       totalReferralRewards := referrer.totalReferralRewards + reward as real);
            Ok(Registration(marked[ri := referrer'], L2, reward))
  }

  /**
   * Both `referral` credits reach the users' balance records: each gains the
   * reward in earnings and current balance (twice over when both accounts
   * share an email), no other record changes, and reconciled users stay
   * reconciled.
   */
  lemma RegisterReferralCredits(accounts: seq<Account>, L: Ledger, refCode: string, referredId: string, now: int, v: UserId)
    requires RegisterReferral(accounts, L, refCode, referredId, now).Ok?
    ensures var reg := RegisterReferral(accounts, L, refCode, referredId, now).value;
      var e1 := accounts[FindByCode(accounts, refCode).value].email;
      var e2 := accounts[FindById(accounts, referredId).value].email;
      var x := reg.reward as real;
      var B := reg.ledger.balances;
      && e1 in B && e2 in B && B - {e1, e2} == L.balances - {e1, e2}
      && (e1 != e2 ==>
            && B[e1].totalEarnings == RecordOf(L, e1, now).totalEarnings + x
            && B[e1].currentBalance == RecordOf(L, e1, now).currentBalance + x
            && B[e2].totalEarnings == RecordOf(L, e2, now).totalEarnings + x
            && B[e2].currentBalance == RecordOf(L, e2, now).currentBalance + x)
      && (e1 == e2 ==>
            && B[e1].totalEarnings == RecordOf(L, e1, now).totalEarnings + 2.0 * x
            && B[e1].currentBalance == RecordOf(L, e1, now).currentBalance + 2.0 * x)
      && (Reconciled(L, v) ==> Reconciled(reg.ledger, v))
  {
    var ri := FindByCode(accounts, refCode).value;
    var di := FindById(accounts, referredId).value;
    var reg := RegisterReferral(accounts, L, refCode, referredId, now).value;
    var e1 := accounts[ri].email;
    var e2 := accounts[di].email;
    var x := reg.reward as real;
    assert reg.ledger == AddEarnings(AddEarnings(L, e1, x, "referral", None, now), e2, x, "referral", None, now);
    TwoReferralCredits(L, e1, e2, x, now, v);
  }

  /** Two `referral` credits of `x`, to `e1` and then to `e2`. */
  lemma TwoReferralCredits(L: Ledger, e1: UserId, e2: UserId, x: real, now: int, v: UserId)
    ensures var L1 := AddEarnings(L, e1, x, "referral", None, now);
      var B := AddEarnings(L1, e2, x, "referral", None, now).balances;
      && e1 in B && e2 in B && B - {e1, e2} == L.balances - {e1, e2}
      && (e1 != e2 ==>
            && B[e1].totalEarnings == RecordOf(L, e1, now).totalEarnings + x
            && B[e1].currentBalance == RecordOf(L, e1, now).currentBalance + x
            && B[e2].totalEarnings == RecordOf(L, e2, now).totalEarnings + x
            && B[e2].currentBalance == RecordOf(L, e2, now).currentBalance + x)
      && (e1 == e2 ==>
            && B[e1].totalEarnings == RecordOf(L, e1, now).totalEarnings + 2.0 * x
            && B[e1].currentBalance == RecordOf(L, e1, now).currentBalance + 2.0 * x)
      && (Reconciled(L, v) ==> Reconciled(AddEarnings(L1, e2, x, "referral", None, now), v))
  {
    var L1 := AddEarnings(L, e1, x, "referral", None, now);
    if Reconciled(L, v) {
      AddEarningsKeepsReconciled(L, e1, v, x, "referral", None, now);
      AddEarningsKeepsReconciled(L1, e2, v, x, "referral", None, now);
    }
  }

  /** Account identifiers are non-empty, as the store's object ids are. */
  predicate WellFormedAccounts(accounts: seq<Account>) {
    forall i :: 0 <= i < |accounts| ==> accounts[i].id != ""
  }

  lemma {:induction false} FindByIdSameIds(a: seq<Account>, b: seq<Account>, id: string)
    requires |a| == |b| && forall i :: 0 <= i < |a| ==> a[i].id == b[i].id
    ensures FindById(a, id) == FindById(b, id)
  {
    if |a| > 0 {
      assert forall i :: 0 <= i < |a| - 1 ==> a[1..][i].id == b[1..][i].id by {
        forall i | 0 <= i < |a| - 1 ensures a[1..][i].id == b[1..][i].id {
          assert a[1..][i] == a[i + 1] && b[1..][i] == b[i + 1];
        }
      }
      FindByIdSameIds(a[1..], b[1..], id);
    }
  }

  /** A referred user can be registered at most once: a second registration is refused. */
  lemma ReferralRegisteredOnce(accounts: seq<Account>, L: Ledger, refCode: string, refCode2: string,
                               referredId: string, now: int, later: int)
    requires WellFormedAccounts(accounts) && refCode2 != ""
    requires RegisterReferral(accounts, L, refCode, referredId, now).Ok?
    requires FindByCode(RegisterReferral(accounts, L, refCode, referredId, now).value.accounts, refCode2).Some?
    ensures var first := RegisterReferral(accounts, L, refCode, referredId, now).value;
      RegisterReferral(first.accounts, first.ledger, refCode2, referredId, later) == Err(AlreadyReferred)
  {
    var first := RegisterReferral(accounts, L, refCode, referredId, now).value;
    FindByIdSameIds(first.accounts, accounts, referredId);
  }

  // ---------------------------------------------------------------------
  // Custom deposits

  /** A value of a JSON request body. */
  datatype JsonValue = JNull | JBool(b: bool) | JNumber(n: real) | JString(s: string) | JComposite

  /** JavaScript truthiness of a JSON value. */
  predicate Truthy(v: JsonValue) {
    match v
    case JNull => false
    case JBool(b) => b
    case JNumber(n) => n != 0.0
    case JString(s) => s != ""
    case JComposite => true
  }

  datatype DepositError = MissingDepositField | InvalidAmount | AmountTooLarge

  const MaxCustomDeposit: real := 1000000.0

  /** The checks of `POST /api/deposits/custom`, in the route's order. */
  function ValidateCustomDeposit(amount: JsonValue, depositAddress: JsonValue, proofUrl: JsonValue): (r: Result<real, DepositError>)
    ensures r.Ok? <==> Truthy(depositAddress) && Truthy(proofUrl) && amount.JNumber? && 0.0 < amount.n <= MaxCustomDeposit
    ensures r.Ok? ==> r.value == amount.n
    ensures r == Err(AmountTooLarge) <==>
      Truthy(depositAddress) && Truthy(proofUrl) && amount.JNumber? && amount.n > MaxCustomDeposit
  {
    if !Truthy(amount) || !Truthy(depositAddress) || !Truthy(proofUrl) then Err(MissingDepositField)
    else if !amount.JNumber? || amount.n <= 0.0 then Err(InvalidAmount)
    else if amount.n > MaxCustomDeposit then Err(AmountTooLarge)
    else Ok(amount.n)
  }

  /**
   * A custom deposit that passes the checks is recorded as one pending
   * deposit; a refused one records nothing. `amountText` is the amount as
   * JavaScript renders it into the description.
   */
  function SubmitCustomDeposit(L: Ledger, u: UserId, amount: JsonValue, amountText: string, depositAddress: JsonValue,
                               proofUrl: JsonValue, details: Details, now: int): (r: (Ledger, Result<TxId, DepositError>))
    ensures r.1.Err? ==> r.0 == L && ValidateCustomDeposit(amount, depositAddress, proofUrl) == Err(r.1.error)
    ensures r.1.Ok? <==> ValidateCustomDeposit(amount, depositAddress, proofUrl).Ok?
    ensures r.1.Ok? ==>
      && r.1.value == |L.log| && |r.0.log| == |L.log| + 1 && r.0.log[..|L.log|] == L.log && r.0.balances == L.balances
      && var t := r.0.log[r.1.value];
      t.userId == u && t.kind == Deposit && t.status == Pending && t.amount == amount.n
      && t.description == "Custom deposit of " + amountText + " USDT"
  {
    match ValidateCustomDeposit(amount, depositAddress, proofUrl)
    case Err(e) => (L, Err(e))
    case Ok(x) =>
      var recorded := RecordTransaction(L, u, Deposit, x, "Custom deposit of " + amountText + " USDT", details, NoPlanDetails(), now);
      (recorded.0, Ok(recorded.1))
  }

  // ---------------------------------------------------------------------
  // Withdrawal submission

  /** The `amount` body field as the route reads it: its truthiness and what `parseFloat` makes of it. */
  datatype AmountField = AmountField(truthy: bool, parsed: JsNumber)

  datatype WithdrawError = MissingWithdrawField | InvalidAddress | BelowMinimum | InsufficientBalance(available: real)

  /** The amount checks of the withdrawal route against the stored balance. */
  predicate WithdrawalAmountAccepted(amount: JsNumber, balance: real) {
    amount.Finite? && WithdrawForm.MinAmount <= amount.value <= balance
  }

  /**
   * `POST /api/withdrawals`: required fields, the ERC20 format, the $50
   * minimum, and the balance (read through the balance summary, which stores
   * a zeroed record for a new user). A request that passes is recorded as
   * one pending withdrawal of the parsed amount; a refused one records no
   * transaction.
   */
  function SubmitWithdrawal(L: Ledger, u: UserId, address: string, amount: AmountField, network: string,
                            details: Details, now: int): (r: (Ledger, Result<TxId, WithdrawError>))
    ensures r.1.Err? ==> r.0.log == L.log
    ensures r.0.balances - {u} == L.balances - {u}
    ensures u in L.balances ==> r.0.balances == L.balances
    ensures r.1.Ok? <==>
      && address != "" && amount.truthy && network != ""
      && WithdrawForm.IsValidErc20Address(address)
      && WithdrawalAmountAccepted(amount.parsed, RecordOf(L, u, now).currentBalance)
    ensures r.1.Ok? ==>
      && r.1.value == |L.log| && |r.0.log| == |L.log| + 1 && r.0.log[..|L.log|] == L.log
      && var t := r.0.log[r.1.value];
      t.userId == u && t.kind == Withdrawal && t.status == Pending && t.amount == amount.parsed.value
      && t.description == "Withdrawal request to " + address
  {
    if address == "" || !amount.truthy || network == "" then (L, Err(MissingWithdrawField))
    else if !WithdrawForm.MatchesErc20Pattern(address) then
      WithdrawForm.Erc20PatternIsFormat(address);
      (L, Err(InvalidAddress))
    else if amount.parsed.NaN? || Below(amount.parsed, WithdrawForm.MinAmount) then
      WithdrawForm.Erc20PatternIsFormat(address);
      (L, Err(BelowMinimum))
    else
      WithdrawForm.Erc20PatternIsFormat(address);
      var summary := GetBalanceSummary(L, u, now);
      var balance := summary.1.currentBalance;
      if Above(amount.parsed, balance) then (summary.0, Err(InsufficientBalance(balance)))
      else
        var recorded := RecordTransaction(summary.0, u, Withdrawal, amount.parsed.value, "Withdrawal request to " + address,
                                          details, NoPlanDetails(), now);
        (recorded.0, Ok(recorded.1))
  }

  /** A request the withdrawal form accepts is accepted by the server against the same balance. */
  lemma FormValidImpliesSubmitted(L: Ledger, u: UserId, address: string, amount: AmountField, network: string,
                                  details: Details, now: int)
    requires amount.truthy && network != ""
    requires WithdrawForm.ValidateWithdrawalAddress(address) == WithdrawForm.AddressOk
    requires WithdrawForm.ValidateWithdrawalAmount(amount.parsed, RecordOf(L, u, now).currentBalance) == WithdrawForm.AmountOk
    ensures SubmitWithdrawal(L, u, address, amount, network, details, now).1.Ok?
  {
    WithdrawForm.ValidAddressIsFormat(address);
  }

  /** The server has no upper limit: with a large enough balance it accepts amounts the form refuses. */
  lemma ServerHasNoMaximum(L: Ledger, u: UserId, address: string, details: Details, now: int)
    requires u in L.balances && L.balances[u].currentBalance == 2000000.0
    requires WithdrawForm.IsValidErc20Address(address)
    ensures var amount := AmountField(true, Finite(1500000.0));
      && SubmitWithdrawal(L, u, address, amount, "ERC20", details, now).1.Ok?
      && WithdrawForm.ValidateWithdrawalAmount(amount.parsed, 2000000.0) == WithdrawForm.AboveMaximum
  {
  }

  // ---------------------------------------------------------------------
  // Admin approve routes

  /** What the routes look the ledger transaction up by: the deposit or withdrawal document id. */
  datatype Link = DepositLink(depositId: string) | WithdrawalLink(withdrawalId: string)

  predicate Links(t: Transaction, link: Link) {
    match link
    case DepositLink(d) => t.kind == Deposit && t.details.depositId == Some(d)
    case WithdrawalLink(w) => t.kind == Withdrawal && t.details.withdrawalId == Some(w)
  }

  /** The first logged transaction carrying the link. */
  function FindLinked(log: seq<Transaction>, link: Link, from: nat): (r: Option<TxId>)
    requires from <= |log|
    ensures r.Some? ==> from <= r.value < |log| && Links(log[r.value], link)
    ensures r.Some? ==> forall j :: from <= j < r.value ==> !Links(log[j], link)
    ensures r.None? ==> forall j :: from <= j < |log| ==> !Links(log[j], link)
    decreases |log| - from
  {
    if from == |log| then None
    else if Links(log[from], link) then Some(from)
    else FindLinked(log, link, from + 1)
  }

  /** The transaction an approve route records when none is linked yet. */
  datatype Fallback = Fallback(owner: UserId, kind: TxKind, amount: real, description: string, details: Details)

  datatype Synced = Synced(ledger: Ledger, txId: TxId)

  /**
   * The synchronisation shared by the approve routes: approve the found
   * transaction unless it is already approved, or record the fallback and
   * approve it at once. An approval error is caught by the route and ends
   * the synchronisation with the ledger as it stands.
   */
  function ApproveLinked(L: Ledger, found: Option<TxId>, fallback: Fallback, actor: string, now: int): (r: Result<Synced, Ledger>)
    requires found.Some? ==> found.value < |L.log|
    ensures r.Ok?
    ensures found.Some? ==> r.value.txId == found.value && |r.value.ledger.log| >= |L.log|
    ensures found.None? ==> r.value.txId == |L.log| && |r.value.ledger.log| >= |L.log| + 1
    ensures r.value.ledger.log[r.value.txId].status == Approved
    ensures found.Some? && L.log[found.value].status == Approved ==> r.value.ledger == L
    ensures found.Some? && L.log[found.value].status != Approved ==> ApprovalEffect(L, found.value, actor, now, r.value.ledger)
    ensures found.None? ==> var t := r.value.ledger.log[r.value.txId];
      t.userId == fallback.owner && t.kind == fallback.kind && t.amount == fallback.amount && t.details == fallback.details
      && t.description == fallback.description
  {
    match found
    case Some(id) =>
      if L.log[id].status == Approved then Ok(Synced(L, id))
      else (
        match Approve(L, id, actor, now)
        case Ok(L1) => Ok(Synced(L1, id))
        case Err(_) => Err(L))
    case None =>
      var recorded := RecordTransaction(L, fallback.owner, fallback.kind, fallback.amount, fallback.description,
                                        fallback.details, NoPlanDetails(), now);
      match Approve(recorded.0, recorded.1, actor, now)
      case Ok(L1) => Ok(Synced(L1, recorded.1))
      case Err(_) => Err(recorded.0)
  }

  /** The ledger after a route's synchronisation: approval, then recomputation of the owner's balance. */
  function SyncAndRecalculate(L: Ledger, found: Option<TxId>, fallback: Fallback, actor: string, now: int): (r: Synced)
    requires found.Some? ==> found.value < |L.log|
    ensures r.txId < |r.ledger.log| && r.ledger.log[r.txId].status == Approved
    ensures found.Some? ==> r.txId == found.value
    ensures found.None? ==> r.txId == |L.log|
    ensures found.None? ==> var t := r.ledger.log[r.txId];
      t.userId == fallback.owner && t.kind == fallback.kind && t.amount == fallback.amount && t.details == fallback.details
      && t.description == fallback.description
    ensures Reconciled(r.ledger, fallback.owner)
  {
    var s := ApproveLinked(L, found, fallback, actor, now).value;
    Synced(Recalculate(s.ledger, fallback.owner, now), s.txId)
  }

  /** `deposit.planName || 'plan'`. */
  function PlanNameOrDefault(planName: Option<string>): string {
    if planName.Some? && planName.value != "" then planName.value else "plan"
  }

  /**
   * `POST /api/admin/deposits/:id/approve`, after the deposit document is
   * marked approved; `planName` is the deposit document's plan name.
   */
  function ApproveDepositRoute(L: Ledger, depositId: string, owner: UserId, amount: real, planName: Option<string>,
                               actor: string, now: int): (r: Synced)
    ensures r.txId < |r.ledger.log| && r.ledger.log[r.txId].status == Approved && Reconciled(r.ledger, owner)
    ensures FindLinked(L.log, DepositLink(depositId), 0).Some? ==> r.txId == FindLinked(L.log, DepositLink(depositId), 0).value
    ensures FindLinked(L.log, DepositLink(depositId), 0).None? ==>
      r.txId == |L.log| && Links(r.ledger.log[r.txId], DepositLink(depositId)) && r.ledger.log[r.txId].amount == amount
      && r.ledger.log[r.txId].userId == owner
      && r.ledger.log[r.txId].description == "Deposit approved for " + PlanNameOrDefault(planName)
  {
    var details := NoDetails().(depositId := Some(depositId));
    var found := FindLinked(L.log, DepositLink(depositId), 0);
    var description := "Deposit approved for " + PlanNameOrDefault(planName);
    SyncAndRecalculate(L, found, Fallback(owner, Deposit, amount, description, details), actor, now)
  }

  /**
   * `POST /api/admin/withdrawals/:id/approve`, after the withdrawal document
   * is marked approved; `address` is the document's withdrawal address.
   */
  function ApproveWithdrawalRoute(L: Ledger, withdrawalId: string, owner: UserId, amount: real, address: string,
                                  actor: string, now: int): (r: Synced)
    ensures r.txId < |r.ledger.log| && r.ledger.log[r.txId].status == Approved && Reconciled(r.ledger, owner)
    ensures FindLinked(L.log, WithdrawalLink(withdrawalId), 0).Some? ==> r.txId == FindLinked(L.log, WithdrawalLink(withdrawalId), 0).value
    ensures FindLinked(L.log, WithdrawalLink(withdrawalId), 0).None? ==>
      r.txId == |L.log| && Links(r.ledger.log[r.txId], WithdrawalLink(withdrawalId)) && r.ledger.log[r.txId].amount == amount
      && r.ledger.log[r.txId].userId == owner && r.ledger.log[r.txId].description == "Withdrawal to " + address
  {
    var details := NoDetails().(withdrawalId := Some(withdrawalId));
    var found := FindLinked(L.log, WithdrawalLink(withdrawalId), 0);
    SyncAndRecalculate(L, found, Fallback(owner, Withdrawal, amount, "Withdrawal to " + address, details), actor, now)
  }

  /**
   * `POST /api/admin/plans/:id/approve`: the transaction of the enrollment's
   * deposit (when the enrollment names one that exists), else a fallback
   * deposit of the plan amount carrying the plan's id and name; then both
   * accrual passes run.
   */
  function ApprovePlanRoute(L: Ledger, depositId: Option<string>, owner: UserId, amount: real, planId: string,
                            planName: string, actor: string, now: int): (r: Synced)
    ensures r.txId < |r.ledger.log| && r.ledger.log[r.txId].status == Approved && Reconciled(r.ledger, owner)
    ensures depositId.Some? && FindLinked(L.log, DepositLink(depositId.value), 0).Some? ==>
      r.txId == FindLinked(L.log, DepositLink(depositId.value), 0).value
    ensures depositId.None? || FindLinked(L.log, DepositLink(depositId.value), 0).None? ==>
      && r.txId == |L.log|
      && var t := r.ledger.log[r.txId];
      && t.userId == owner && t.kind == Deposit && t.amount == amount
      && t.description == "Plan enrollment approved: " + planName
      && t.details.planName == Some(planName) && t.details.extra == map["planId" := planId]
  {
    var found := if depositId.Some? then FindLinked(L.log, DepositLink(depositId.value), 0) else None;
    var details := NoDetails().(planName := Some(planName), extra := map["planId" := planId]);
    var fallback := Fallback(owner, Deposit, amount, "Plan enrollment approved: " + planName, details);
    var s := SyncAndRecalculate(L, found, fallback, actor, now);
    var L1 := Accrual.EnsureDailyRewardsForToday(s.ledger, now);
    var L2 := Accrual.ProcessDailyEarnings(L1, now);
    AccrualProofs.RunSettlesAll(Accrual.EnsureToday, s.ledger, now);
    AccrualProofs.RunSettlesAll(Accrual.CatchUp, L1, now);
    AccrualProofs.AccrualKeepsReconciled(s.ledger, now, owner);
    AccrualProofs.AccrualKeepsReconciled(L1, now, owner);
    assert SameButLastEarning(s.ledger.log[s.txId], L1.log[s.txId]);
    assert SameButLastEarning(L1.log[s.txId], L2.log[s.txId]);
    Synced(L2, s.txId)
  }

  /** Approval changes the status and stamps of a transaction, never who owns it, its kind, amount or details. */
  lemma ApproveKeepsIdentity(L: Ledger, id: TxId, actor: string, now: int)
    requires id < |L.log| && L.log[id].status != Approved
    ensures var t := Approve(L, id, actor, now).value.log[id];
      t.userId == L.log[id].userId && t.kind == L.log[id].kind && t.amount == L.log[id].amount
      && t.details == L.log[id].details
  {
  }
}

=== FILE: text.dfy ===
/**
 * Character and string helpers shared by the model: decimal digits and the
 * decimal rendering of numbers (JavaScript's `Number.prototype.toString` on
 * integers), `parseInt(s, 10)`, ECMAScript white space, and ASCII case folding.
 */
module Text {
  import opened Wrappers

  predicate IsDigit(c: char) {
    '0' <= c <= '9'
  }

  predicate AllDigits(s: string) {
    forall i :: 0 <= i < |s| ==> IsDigit(s[i])
  }

  /** One character of the class `[a-fA-F0-9]`. */
  predicate IsHexDigit(c: char) {
    IsDigit(c) || 'a' <= c <= 'f' || 'A' <= c <= 'F'
  }

  function DigitChar(d: nat): (c: char)
    requires d < 10
    ensures IsDigit(c)
  {
    (('0' as int) + d) as char
  }

  function DigitValue(c: char): (d: nat)
    requires IsDigit(c)
    ensures d < 10 && DigitChar(d) == c
  {
    (c as int) - ('0' as int)
  }

  /** The value of a string of decimal digits (the empty string reads as 0). */
  function DecimalValue(s: string): nat
    requires AllDigits(s)
  {
    if |s| == 0 then 0 else DecimalValue(s[..|s| - 1]) * 10 + DigitValue(s[|s| - 1])
  }

  /** Decimal rendering of a natural number, without leading zeros. */
  function NatToString(n: nat): (s: string)
    ensures |s| >= 1 && AllDigits(s)
    ensures s[0] == '0' ==> n == 0
    ensures n < 10 <==> |s| == 1
  {
    if n < 10 then [DigitChar(n)] else NatToString(n / 10) + [DigitChar(n % 10)]
  }

  /** Decimal rendering of an integer, with a leading `-` when negative. */
  function IntToString(i: int): (s: string)
    ensures |s| >= 1
  {
    if i < 0 then "-" + NatToString(-i) else NatToString(i)
  }

  lemma {:induction false} DecimalValueOfNatToString(n: nat)
    ensures DecimalValue(NatToString(n)) == n
  {
    if n >= 10 {
      var s := NatToString(n);
      assert s[..|s| - 1] == NatToString(n / 10);
      DecimalValueOfNatToString(n / 10);
    }
  }

  function Pow10(k: nat): (p: nat)
    ensures p >= 1
  {
    if k == 0 then 1 else 10 * Pow10(k - 1)
  }

  /** A number with k+1 digits renders as a string of length k+1. */
  lemma {:induction false} NatToStringLength(n: nat, k: nat)
    requires Pow10(k) <= n < Pow10(k + 1)
    ensures |NatToString(n)| == k + 1
  {
    if k > 0 {
      assert Pow10(k - 1) <= n / 10 < Pow10(k);
      NatToStringLength(n / 10, k - 1);
    }
  }

  /** White space and line terminators as ECMAScript's `trim` and `parseInt` skip them. */
  predicate IsJsSpace(c: char) {
    c == ' ' || c == '\t' || c == '\n' || c == '\r' || c == '\U{000B}' || c == '\U{000C}'
    || c == '\U{00A0}' || c == '\U{1680}' || ('\U{2000}' <= c <= '\U{200A}')
    || c == '\U{2028}' || c == '\U{2029}' || c == '\U{202F}' || c == '\U{205F}'
    || c == '\U{3000}' || c == '\U{FEFF}'
  }

  /** True when `s.trim() === ''`. */
  predicate IsBlank(s: string) {
    forall i :: 0 <= i < |s| ==> IsJsSpace(s[i])
  }

  /** `s` without its leading white space. */
  function TrimStart(s: string): (r: string)
    ensures |r| <= |s| && r == s[|s| - |r|..]
    ensures |r| > 0 ==> !IsJsSpace(r[0])
    ensures forall i :: 0 <= i < |s| - |r| ==> IsJsSpace(s[i])
  {
    if |s| > 0 && IsJsSpace(s[0]) then TrimStart(s[1..]) else s
  }

  /** `s` without its trailing white space. */
  function TrimEnd(s: string): (r: string)
    ensures |r| <= |s| && r == s[..|r|]
    ensures |r| > 0 ==> !IsJsSpace(r[|r| - 1])
    ensures forall i :: |r| <= i < |s| ==> IsJsSpace(s[i])
  {
    if |s| > 0 && IsJsSpace(s[|s| - 1]) then TrimEnd(s[..|s| - 1]) else s
  }

  /** `s.trim()`. */
  function Trim(s: string): (r: string)
    ensures |r| <= |s|
    ensures |r| > 0 ==> !IsJsSpace(r[0]) && !IsJsSpace(r[|r| - 1])
    ensures IsBlank(s) <==> r == ""
  {
    TrimEnd(TrimStart(s))
  }

  /**
   * `s` is a blank prefix of length `k`, then its trim, then a blank suffix:
   * the trim is exactly the stretch between the first and the last
   * non-space character.
   */
  lemma TrimSlice(s: string) returns (k: nat)
    ensures k + |Trim(s)| <= |s|
    ensures Trim(s) == s[k..k + |Trim(s)|]
    ensures IsBlank(s[..k]) && IsBlank(s[k + |Trim(s)|..])
  {
    var front := TrimStart(s);
    var r := TrimEnd(front);
    assert Trim(s) == r;
    k := |s| - |front|;
    assert front == s[k..];
    assert r == front[..|r|];
    BlankHead(s);
    BlankTail(front);
    BlankAround(s, k, front, r);
  }

  /** A blank prefix of `s`, then a prefix `r` of the rest, then a blank remainder: `r` sits at `k` in `s`. */
  lemma BlankAround(s: string, k: nat, front: string, r: string)
    requires k <= |s| && front == s[k..] && |r| <= |front| && r == front[..|r|]
    requires IsBlank(front[|r|..])
    ensures k + |r| <= |s| && r == s[k..k + |r|]
    ensures IsBlank(s[k + |r|..])
  {
    assert s[k + |r|..] == front[|r|..];
  }

  /** What `TrimStart` drops is blank. */
  lemma BlankHead(s: string)
    ensures IsBlank(s[..|s| - |TrimStart(s)|])
  {
    var head := s[..|s| - |TrimStart(s)|];
    forall i | 0 <= i < |head| ensures IsJsSpace(head[i]) {
      assert head[i] == s[i];
    }
  }

  /** What `TrimEnd` drops is blank. */
  lemma BlankTail(s: string)
    ensures IsBlank(s[|TrimEnd(s)|..])
  {
    var n := |TrimEnd(s)|;
    var tail := s[n..];
    forall i | 0 <= i < |tail| ensures IsJsSpace(tail[i]) {
      assert tail[i] == s[n + i];
    }
  }

  /** A single non-space character is its own trim. */
  lemma TrimOfOneChar(s: string)
    requires |s| == 1 && !IsJsSpace(s[0])
    ensures Trim(s) == s
  {
    assert TrimStart(s) == s;
  }

  /** The longest prefix of `s` made of decimal digits. */
  function DigitPrefix(s: string): (r: string)
    ensures |r| <= |s| && r == s[..|r|] && AllDigits(r)
    ensures |r| < |s| ==> !IsDigit(s[|r|])
  {
    if |s| > 0 && IsDigit(s[0]) then [s[0]] + DigitPrefix(s[1..]) else ""
  }

  /**
   * `parseInt(s, 10)`: skip leading white space, read an optional sign and
   * the longest run of decimal digits; `None` stands for `NaN` (no digits).
   */
  function ParseInt(s: string): Option<int> {
    ParseSigned(TrimStart(s))
  }

  /** An optional sign, then the longest run of decimal digits. */
  function ParseSigned(t: string): Option<int> {
    if |t| > 0 && t[0] == '-' then
      var magnitude := ParseDigits(t[1..]);
      if magnitude.Some? then Some(-magnitude.value) else None
    else if |t| > 0 && t[0] == '+' then ParseDigits(t[1..])
    else ParseDigits(t)
  }

  /** The value of the longest run of decimal digits at the start of `s`, `None` without one. */
  function ParseDigits(s: string): Option<int> {
    var digits := DigitPrefix(s);
    if |digits| == 0 then None else Some(DecimalValue(digits))
  }

  lemma DigitPrefixOfDigits(s: string)
    requires AllDigits(s)
    ensures DigitPrefix(s) == s
  {
  }

  /** `parseInt` reads back what integer rendering writes. */
  lemma ParseIntOfIntToString(i: int)
    ensures ParseInt(IntToString(i)) == Some(i)
  {
    var n: nat := if i < 0 then -i else i;
    DecimalValueOfNatToString(n);
    if i < 0 {
      ParseIntOfNegativeDigits(NatToString(n));
    } else {
      ParseIntOfDigits(NatToString(n));
    }
  }

  /** A run of digits reads back as its value. */
  lemma ParseIntOfDigits(digits: string)
    requires |digits| > 0 && AllDigits(digits)
    ensures ParseInt(digits) == Some(DecimalValue(digits) as int)
  {
    TrimStartOfNonSpace(digits);
    DigitPrefixOfDigits(digits);
  }

  /** A `-` followed by a run of digits reads back as the negated value. */
  lemma ParseIntOfNegativeDigits(digits: string)
    requires |digits| > 0 && AllDigits(digits)
    ensures ParseInt("-" + digits) == Some(-(DecimalValue(digits) as int))
  {
    var s := "-" + digits;
    assert s[0] == '-' && s[1..] == digits;
    TrimStartOfNonSpace(s);
    DigitPrefixOfDigits(digits);
    assert ParseDigits(digits) == Some(DecimalValue(digits) as int);
  }

  /** A string that starts with a non-space character is its own `TrimStart`. */
  lemma TrimStartOfNonSpace(s: string)
    requires |s| > 0 && !IsJsSpace(s[0])
    ensures TrimStart(s) == s
  {
  }

  /** ASCII upper case letters mapped to lower case, everything else unchanged. */
  function LowerAscii(s: string): (r: string)
    ensures |r| == |s|
    ensures forall i :: 0 <= i < |s| && !('A' <= s[i] <= 'Z') ==> r[i] == s[i]
    ensures forall i :: 0 <= i < |s| && 'A' <= s[i] <= 'Z' ==> r[i] == (s[i] as int + 32) as char
  {
    seq(|s|, i requires 0 <= i < |s| => if 'A' <= s[i] <= 'Z' then (s[i] as int + 32) as char else s[i])
  }
}

=== FILE: today_rewards.dfy ===
/**
 * The per-transaction reward route `GET /api/user/ensure-today-rewards`:
 * for each of the caller's approved daily-reward transactions that carries
 * an ROI, credit one day of `amount * roi / 100` unless an earnings entry
 * linked to that transaction was already submitted today.
 */
module TodayRewards {
  import opened Wrappers
  import opened Clock
  import opened LedgerModel
  import opened LedgerSums
  import opened LedgerOps

  /** One row of the route's `credited` list. */
  datatype Credit = Credit(txId: TxId, amount: real)

  /** The route's query: approved daily-reward transactions of `u` with an ROI. */
  predicate IsRewardTx(t: Transaction, u: UserId) {
    && t.userId == u && t.status == Approved
    && t.planDetails.planType == Some("daily-reward") && t.planDetails.roiPercentage.Some?
  }

  /** The ids the query returns, in log order. */
  function RewardTxIds(log: seq<Transaction>, u: UserId): (ids: seq<TxId>)
    ensures forall k :: 0 <= k < |ids| ==> ids[k] < |log| && IsRewardTx(log[ids[k]], u)
    ensures forall i :: 0 <= i < |log| && IsRewardTx(log[i], u) ==> i in ids
    ensures forall k, l :: 0 <= k < l < |ids| ==> ids[k] < ids[l]
    decreases |log|
  {
    if |log| == 0 then []
    else
      var n := |log| - 1;
      var ids := RewardTxIds(log[..n], u);
      if IsRewardTx(log[n], u) then ids + [n] else ids
  }

  /** One day of a transaction's reward; zero when the ROI is missing or not positive. */
  function DailyEarning(t: Transaction): (e: real)
    ensures e > 0.0 ==> t.planDetails.roiPercentage.Some? && t.planDetails.roiPercentage.value > 0.0
  {
    var roi := t.planDetails.roiPercentage.GetOr(0.0);
    if roi <= 0.0 then 0.0 else t.amount * (roi / 100.0)
  }

  /** `pd.planName || 'daily-reward'`. */
  function RewardPlanName(pd: PlanDetails): string {
    if pd.planName.Some? && pd.planName.value != "" then pd.planName.value else "daily-reward"
  }

  /** `Math.round(x * 100) / 100`, with `Math.round(y) = floor(y + 0.5)`. */
  function RoundCents(x: real): (r: real)
    ensures x - 0.005 < r <= x + 0.005
    ensures (r * 100.0).Floor as real == r * 100.0
  {
    ((x * 100.0 + 0.5).Floor as real) / 100.0
  }

  /** Whether the route has nothing to credit for `id` today. */
  predicate Settled(L: Ledger, u: UserId, id: TxId, now: int)
    requires id < |L.log|
  {
    HasSourceEarningsOn(L.log, u, id, now) || DailyEarning(L.log[id]) <= 0.0
  }

  /** The body of the loop for the snapshot transaction `id`. */
  function RewardStep(L: Ledger, snap: seq<Transaction>, u: UserId, id: TxId, now: int): (r: (Ledger, Option<Credit>))
    requires id < |snap| && Restamped(snap, L.log)
    ensures Restamped(L.log, r.0.log)
    ensures forall i :: |snap| <= i < |L.log| ==> r.0.log[i] == L.log[i]
    ensures forall i :: |L.log| <= i < |r.0.log| ==> r.0.log[i].planDetails == NoPlanDetails()
    ensures Settled(r.0, u, id, now)
    ensures r.1.None? <==> Settled(L, u, id, now)
    ensures r.1.None? ==> r.0 == L
    ensures r.1.Some? ==>
      && r.1.value == Credit(id, RoundCents(DailyEarning(snap[id])))
      && r.0.log == (L.log + [EarningsTransaction(u, DailyEarning(snap[id]), RewardPlanName(snap[id].planDetails), Some(id), now)])
                      [id := WithLastEarning(L.log[id], Midnight(now))]
      && u in r.0.balances && r.0.balances - {u} == L.balances - {u}
      && r.0.balances[u].totalEarnings == RecordOf(L, u, now).totalEarnings + DailyEarning(snap[id])
      && r.0.balances[u].currentBalance == RecordOf(L, u, now).currentBalance + DailyEarning(snap[id])
  {
    var t := snap[id];
    assert SameButLastEarning(t, L.log[id]);
    if HasSourceEarningsOn(L.log, u, id, now) then (L, None)
    else
      var e := DailyEarning(t);
      if e <= 0.0 then (L, None)
      else
        var L1 := AddEarnings(L, u, e, RewardPlanName(t.planDetails), Some(id), now);
        var n := |L.log|;
        assert IsSourceEarningsOn(L1.log[n], u, id, now);
        var r := L1.(log := L1.log[id := WithLastEarning(L1.log[id], Midnight(now))]);
        assert r.log[n] == L1.log[n];
        (r, Some(Credit(id, RoundCents(e))))
  }

  /** The loop `for (const tx of txs)` over the snapshot ids. */
  function RewardsPass(L: Ledger, snap: seq<Transaction>, u: UserId, ids: seq<TxId>, now: int): (r: (Ledger, seq<Credit>))
    requires Restamped(snap, L.log)
    requires forall k :: 0 <= k < |ids| ==> ids[k] < |snap|
    ensures Restamped(L.log, r.0.log)
    ensures forall i :: |snap| <= i < |L.log| ==> r.0.log[i] == L.log[i]
    ensures forall i :: |L.log| <= i < |r.0.log| ==> r.0.log[i].planDetails == NoPlanDetails()
    ensures forall k :: 0 <= k < |r.1| ==> r.1[k].txId in ids && r.1[k].txId < |snap|
    ensures forall k :: 0 <= k < |r.1| ==> r.1[k].amount == RoundCents(DailyEarning(snap[r.1[k].txId]))
    decreases |ids|
  {
    if |ids| == 0 then (L, [])
    else
      var step := RewardStep(L, snap, u, ids[0], now);
      RestampedTransitive(snap, L.log, step.0.log);
      var rest := RewardsPass(step.0, snap, u, ids[1..], now);
      var head := if step.1.Some? then [step.1.value] else [];
      FramesCompose(snap, L.log, step.0.log, rest.0.log);
      CreditsCompose(snap, ids, head, rest.1);
      (rest.0, head + rest.1)
  }

  /** Two passes that each restamp, keep the entries after the snapshot and append plan-less entries compose into one. */
  lemma FramesCompose(snap: seq<Transaction>, a: seq<Transaction>, b: seq<Transaction>, c: seq<Transaction>)
    requires Restamped(snap, a) && Restamped(a, b) && Restamped(b, c)
    requires forall i :: |snap| <= i < |a| ==> b[i] == a[i]
    requires forall i :: |a| <= i < |b| ==> b[i].planDetails == NoPlanDetails()
    requires forall i :: |snap| <= i < |b| ==> c[i] == b[i]
    requires forall i :: |b| <= i < |c| ==> c[i].planDetails == NoPlanDetails()
    ensures Restamped(a, c)
    ensures forall i :: |snap| <= i < |a| ==> c[i] == a[i]
    ensures forall i :: |a| <= i < |c| ==> c[i].planDetails == NoPlanDetails()
  {
    RestampedTransitive(a, b, c);
  }

  /** The credit of the first id followed by the credits of the others are all credits of the ids, at their rounded daily earning. */
  lemma CreditsCompose(snap: seq<Transaction>, ids: seq<TxId>, head: seq<Credit>, rest: seq<Credit>)
    requires |ids| > 0
    requires forall k :: 0 <= k < |head| ==> head[k].txId == ids[0] && ids[0] < |snap|
    requires forall k :: 0 <= k < |head| ==> head[k].amount == RoundCents(DailyEarning(snap[ids[0]]))
    requires forall k :: 0 <= k < |rest| ==> rest[k].txId in ids[1..] && rest[k].txId < |snap|
    requires forall k :: 0 <= k < |rest| ==> rest[k].amount == RoundCents(DailyEarning(snap[rest[k].txId]))
    ensures forall k :: 0 <= k < |head + rest| ==> (head + rest)[k].txId in ids && (head + rest)[k].txId < |snap|
    ensures forall k :: 0 <= k < |head + rest| ==> (head + rest)[k].amount == RoundCents(DailyEarning(snap[(head + rest)[k].txId]))
  {
    forall k | 0 <= k < |head + rest|
      ensures (head + rest)[k].txId in ids && (head + rest)[k].txId < |snap|
    {
      if k >= |head| {
        assert (head + rest)[k] == rest[k - |head|];
        var j :| 0 <= j < |ids| - 1 && ids[1..][j] == rest[k - |head|].txId;
        assert ids[j + 1] == ids[1..][j];
      }
    }
  }

  /** The route: credit what is due, then report the caller's balance summary. */
  function EnsureTodayRewards(L: Ledger, u: UserId, now: int): (r: (Ledger, seq<Credit>, Summary))
  {
    var pass := RewardsPass(L, L.log, u, RewardTxIds(L.log, u), now);
    var summary := GetBalanceSummary(pass.0, u, now);
    (summary.0, pass.1, summary.1)
  }

  // ---------------------------------------------------------------------
  // Properties

  /** Settledness survives restamping and later entries. */
  lemma SettledKeeps(a: Ledger, b: Ledger, u: UserId, id: TxId, now: int)
    requires id < |a.log| && Restamped(a.log, b.log) && Settled(a, u, id, now)
    ensures Settled(b, u, id, now)
  {
    assert SameButLastEarning(a.log[id], b.log[id]);
    if HasSourceEarningsOn(a.log, u, id, now) {
      var i :| 0 <= i < |a.log| && IsSourceEarningsOn(a.log[i], u, id, now);
      assert SameButLastEarning(a.log[i], b.log[i]);
      assert IsSourceEarningsOn(b.log[i], u, id, now);
    }
  }

  /** After the loop, every snapshot id has been credited today or has nothing to credit. */
  lemma {:induction false} RewardsPassSettles(L: Ledger, snap: seq<Transaction>, u: UserId, ids: seq<TxId>, now: int)
    requires Restamped(snap, L.log)
    requires forall k :: 0 <= k < |ids| ==> ids[k] < |snap|
    ensures var r := RewardsPass(L, snap, u, ids, now).0;
      forall k :: 0 <= k < |ids| ==> Settled(r, u, ids[k], now)
    decreases |ids|
  {
    if |ids| > 0 {
      var L1 := RewardStep(L, snap, u, ids[0], now).0;
      RestampedTransitive(snap, L.log, L1.log);
      var tail := ids[1..];
      RewardsPassUnfold(L, snap, u, ids, now);
      var r := RewardsPass(L1, snap, u, tail, now).0;
      RewardsPassSettles(L1, snap, u, tail, now);
      SettledKeeps(L1, r, u, ids[0], now);
    }
  }

  /** The pass over `ids` leaves the ledger the pass over the rest leaves after the first step. */
  lemma RewardsPassUnfold(L: Ledger, snap: seq<Transaction>, u: UserId, ids: seq<TxId>, now: int)
    requires Restamped(snap, L.log)
    requires |ids| > 0 && forall k :: 0 <= k < |ids| ==> ids[k] < |snap|
    ensures var L1 := RewardStep(L, snap, u, ids[0], now).0;
      Restamped(snap, L1.log)
      && RewardsPass(L, snap, u, ids, now).0 == RewardsPass(L1, snap, u, ids[1..], now).0
  {
    RestampedTransitive(snap, L.log, RewardStep(L, snap, u, ids[0], now).0.log);
  }

  /** A loop over settled ids credits nothing and changes nothing. */
  lemma {:induction false} RewardsPassOfSettled(L: Ledger, u: UserId, ids: seq<TxId>, now: int)
    requires forall k :: 0 <= k < |ids| ==> ids[k] < |L.log| && Settled(L, u, ids[k], now)
    ensures RewardsPass(L, L.log, u, ids, now) == (L, [])
    decreases |ids|
  {
    if |ids| > 0 {
      var step := RewardStep(L, L.log, u, ids[0], now);
      assert step == (L, None);
      RewardsPassOfSettled(L, u, ids[1..], now);
      var rest := RewardsPass(step.0, L.log, u, ids[1..], now);
      assert rest == (L, []);
      assert RewardsPass(L, L.log, u, ids, now) == (rest.0, [] + rest.1);
      assert [] + rest.1 == [];
      assert RewardsPass(L, L.log, u, ids, now).0 == L;
      assert RewardsPass(L, L.log, u, ids, now).1 == [];
    }
  }

  /** After a call, every transaction the route selects is settled for the day. */
  lemma EnsureTodayRewardsSettlesAll(L: Ledger, u: UserId, now: int)
    ensures var L1 := EnsureTodayRewards(L, u, now).0;
      forall id: TxId :: id < |L1.log| && IsRewardTx(L1.log[id], u) ==> Settled(L1, u, id, now)
  {
    var ids := RewardTxIds(L.log, u);
    var P := RewardsPass(L, L.log, u, ids, now).0;
    RewardsPassSettles(L, L.log, u, ids, now);
    var L1 := GetBalanceSummary(P, u, now).0;
    assert L1.log == P.log;
    forall id: TxId | id < |L1.log| && IsRewardTx(L1.log[id], u)
      ensures Settled(L1, u, id, now)
    {
      assert id < |L.log|;
      assert SameButLastEarning(L.log[id], P.log[id]);
      var j :| 0 <= j < |ids| && ids[j] == id;
    }
  }

  /** Settledness only depends on the day of the instant. */
  lemma SettledSameDay(L: Ledger, u: UserId, id: TxId, t1: int, t2: int)
    requires id < |L.log| && Midnight(t1) == Midnight(t2) && Settled(L, u, id, t1)
    ensures Settled(L, u, id, t2)
  {
    if HasSourceEarningsOn(L.log, u, id, t1) {
      var i :| 0 <= i < |L.log| && IsSourceEarningsOn(L.log[i], u, id, t1);
      assert IsSourceEarningsOn(L.log[i], u, id, t2);
    }
  }

  /** A second call on the same day credits nothing and reports the same summary. */
  lemma EnsureTodayRewardsIdempotent(L: Ledger, u: UserId, t1: int, t2: int)
    requires Midnight(t1) == Midnight(t2)
    ensures var first := EnsureTodayRewards(L, u, t1);
      EnsureTodayRewards(first.0, u, t2) == (first.0, [], first.2)
  {
    var L1 := EnsureTodayRewards(L, u, t1).0;
    EnsureTodayRewardsSettlesAll(L, u, t1);
    var ids := RewardTxIds(L1.log, u);
    forall k | 0 <= k < |ids|
      ensures ids[k] < |L1.log| && Settled(L1, u, ids[k], t2)
    {
      SettledSameDay(L1, u, ids[k], t1, t2);
    }
    RewardsPassOfSettled(L1, u, ids, t2);
  }

  lemma RewardStepKeepsReconciled(L: Ledger, snap: seq<Transaction>, u: UserId, id: TxId, now: int, v: UserId)
    requires id < |snap| && Restamped(snap, L.log) && Reconciled(L, v)
    ensures Reconciled(RewardStep(L, snap, u, id, now).0, v)
  {
    var r := RewardStep(L, snap, u, id, now);
    if r.1.Some? {
      var e := DailyEarning(snap[id]);
      var L1 := AddEarnings(L, u, e, RewardPlanName(snap[id].planDetails), Some(id), now);
      AddEarningsKeepsReconciled(L, u, v, e, RewardPlanName(snap[id].planDetails), Some(id), now);
      assert r.0.log == L1.log[id := WithLastEarning(L1.log[id], Midnight(now))];
      SumStamped(L1.log, r.0.log, v, Deposit);
      SumStamped(L1.log, r.0.log, v, Plan);
      SumStamped(L1.log, r.0.log, v, Withdrawal);
      SumStamped(L1.log, r.0.log, v, Earnings);
    }
  }

  lemma {:induction false} RewardsPassKeepsReconciled(L: Ledger, snap: seq<Transaction>, u: UserId, ids: seq<TxId>,
                                                      now: int, v: UserId)
    requires Restamped(snap, L.log)
    requires forall k :: 0 <= k < |ids| ==> ids[k] < |snap|
    requires Reconciled(L, v)
    ensures Reconciled(RewardsPass(L, snap, u, ids, now).0, v)
    decreases |ids|
  {
    if |ids| > 0 {
      var L1 := RewardStep(L, snap, u, ids[0], now).0;
      RewardStepKeepsReconciled(L, snap, u, ids[0], now, v);
      RestampedTransitive(snap, L.log, L1.log);
      RewardsPassKeepsReconciled(L1, snap, u, ids[1..], now, v);
    }
  }

  /** The route keeps every reconciled record reconciled, and credits each transaction at most once, in log order. */
  lemma EnsureTodayRewardsProperties(L: Ledger, u: UserId, now: int, v: UserId)
    ensures var r := EnsureTodayRewards(L, u, now);
      && (Reconciled(L, v) ==> Reconciled(r.0, v))
      && InTxOrder(r.1)
      && (forall k :: 0 <= k < |r.1| ==> r.1[k].txId < |L.log| && IsRewardTx(L.log[r.1[k].txId], u))
  {
    var ids := RewardTxIds(L.log, u);
    if Reconciled(L, v) {
      RewardsPassKeepsReconciled(L, L.log, u, ids, now, v);
    }
    CreditsFollowIds(L, L.log, u, ids, now);
  }

  /** Credits ordered by transaction id. */
  predicate InTxOrder(cs: seq<Credit>) {
    forall k, l :: 0 <= k < l < |cs| ==> cs[k].txId < cs[l].txId
  }

  lemma InTxOrderCons(h: Option<Credit>, cs: seq<Credit>, x: TxId)
    requires h.Some? ==> h.value.txId == x
    requires forall k :: 0 <= k < |cs| ==> x < cs[k].txId
    requires InTxOrder(cs)
    ensures InTxOrder((if h.Some? then [h.value] else []) + cs)
  {
    var all := (if h.Some? then [h.value] else []) + cs;
    if h.Some? {
      forall k, l | 0 <= k < l < |all|
        ensures all[k].txId < all[l].txId
      {
        assert all[l] == cs[l - 1];
        if k > 0 {
          assert all[k] == cs[k - 1];
        }
      }
    }
  }

  lemma {:induction false} CreditsFollowIds(L: Ledger, snap: seq<Transaction>, u: UserId, ids: seq<TxId>, now: int)
    requires Restamped(snap, L.log)
    requires forall k :: 0 <= k < |ids| ==> ids[k] < |snap|
    requires forall k, l :: 0 <= k < l < |ids| ==> ids[k] < ids[l]
    ensures InTxOrder(RewardsPass(L, snap, u, ids, now).1)
    decreases |ids|
  {
    if |ids| > 0 {
      var step := RewardStep(L, snap, u, ids[0], now);
      RestampedTransitive(snap, L.log, step.0.log);
      var rest := ids[1..];
      var cs := RewardsPass(step.0, snap, u, rest, now).1;
      CreditsFollowIds(step.0, snap, u, rest, now);
      forall k | 0 <= k < |cs|
        ensures ids[0] < cs[k].txId
      {
        var j :| 0 <= j < |rest| && rest[j] == cs[k].txId;
        assert rest[j] == ids[j + 1];
      }
      InTxOrderCons(step.1, cs, ids[0]);
    }
  }
}

=== FILE: transactions_view.dfy ===
/**
 * The transaction list page of `js/transactions.js`: normalising the API's
 * transaction objects and the filter buttons.
 */
module TransactionsView {
  import opened Wrappers
  import opened JsNumbers

  /** A string attribute of a raw API object; `None` and `Some("")` are both falsy. */
  type Field = Option<string>

  predicate IsSet(f: Field) {
    f.Some? && f.value != ""
  }

  /** `a || b || fallback` over string attributes. */
  function FirstSet(a: Field, b: Field, fallback: string): (r: string)
    ensures IsSet(a) ==> r == a.value
    ensures !IsSet(a) && IsSet(b) ==> r == b.value
    ensures !IsSet(a) && !IsSet(b) ==> r == fallback
  {
    if IsSet(a) then a.value else if IsSet(b) then b.value else fallback
  }

  /** A transaction object as the API may send it; `amount` is what `parseFloat` makes of it. */
  datatype RawTx = RawTx(
    id: Field, mongoId: Field, kind: Field, amount: JsNumber, status: Field, approvalStatus: Field,
    submittedAt: Field, createdAt: Field, approvedAt: Field, rejectionReason: Field, description: Field,
    details: Option<map<string, string>>)

  /** The normalised transaction the page renders. */
  datatype ViewTx = ViewTx(
    id: string, mongoId: string, kind: string, amount: JsNumber, status: string, approvalStatus: string,
    submittedAt: string, createdAt: string, approvedAt: Option<string>, rejectionReason: Option<string>,
    description: string, details: map<string, string>)

  /** `parseFloat(tx.amount) || 0`: `NaN` and zero both become 0. */
  function AmountOrZero(n: JsNumber): (r: JsNumber)
    ensures r.Finite? || r == n
    ensures n.NaN? ==> r == Finite(0.0)
    ensures !n.NaN? ==> r == n
  {
    if n.NaN? || n == Finite(0.0) then Finite(0.0) else n
  }

  /**
   * `normalizeTransaction`: `null` stays null; otherwise each attribute
   * falls back to its sibling, then to a default (`'pending'` for the
   * statuses, `'unknown'` for the type and ids, the clock for the dates).
   */
  function NormalizeTransaction(tx: Option<RawTx>, nowIso: string): (r: Option<ViewTx>)
    ensures r.None? <==> tx.None?
    ensures tx.Some? ==> var t := tx.value; var v := r.value;
      && v.status == FirstSet(t.status, t.approvalStatus, "pending")
      && v.approvalStatus == FirstSet(t.approvalStatus, t.status, "pending")
      && v.kind == FirstSet(t.kind, None, "unknown")
      && v.amount == AmountOrZero(t.amount)
      && v.details == t.details.GetOr(map[])
      && v.description == FirstSet(t.description, None, "")
  {
    match tx
    case None => None
    case Some(t) =>
      Some(ViewTx(
        FirstSet(t.id, t.mongoId, "unknown"),
        FirstSet(t.mongoId, t.id, "unknown"),
        FirstSet(t.kind, None, "unknown"),
        AmountOrZero(t.amount),
        FirstSet(t.status, t.approvalStatus, "pending"),
        FirstSet(t.approvalStatus, t.status, "pending"),
        FirstSet(t.submittedAt, t.createdAt, nowIso),
        FirstSet(t.createdAt, t.submittedAt, nowIso),
        if IsSet(t.approvedAt) then t.approvedAt else None,
        if IsSet(t.rejectionReason) then t.rejectionReason else None,
        FirstSet(t.description, None, ""),
        t.details.GetOr(map[])))
  }

  /** A normalised transaction always has a status; when the raw object had one of the two, both agree with it. */
  lemma NormalizedStatusesAgree(t: RawTx, nowIso: string)
    requires IsSet(t.status) != IsSet(t.approvalStatus) || !IsSet(t.status)
    ensures var v := NormalizeTransaction(Some(t), nowIso).value;
      v.status == v.approvalStatus && v.status != ""
  {
  }

  // ---------------------------------------------------------------------
  // applyFilters

  predicate IsStatusFilter(filter: string) {
    filter == "pending" || filter == "approved" || filter == "rejected"
  }

  predicate IsTypeFilter(filter: string) {
    filter == "deposit" || filter == "withdrawal" || filter == "plan" || filter == "earnings"
  }

  /** Whether the filter button keeps a transaction; `all` and unknown filters keep everything. */
  predicate Keeps(filter: string, tx: ViewTx) {
    if IsStatusFilter(filter) then tx.status == filter || tx.approvalStatus == filter
    else if IsTypeFilter(filter) then tx.kind == filter
    else true
  }

  /** `a` is `b` with some elements removed, in the original order. */
  predicate Subsequence<T(==)>(a: seq<T>, b: seq<T>)
    decreases |b|
  {
    if |a| == 0 then true
    else if |b| == 0 then false
    else (a[0] == b[0] && Subsequence(a[1..], b[1..])) || Subsequence(a, b[1..])
  }

  /** `Array.prototype.filter` with the filter's test. */
  function Filter(txs: seq<ViewTx>, filter: string): (r: seq<ViewTx>)
    ensures |r| <= |txs|
    ensures forall i :: 0 <= i < |r| ==> Keeps(filter, r[i])
    ensures forall i :: 0 <= i < |txs| && Keeps(filter, txs[i]) ==> txs[i] in r
    ensures forall x :: x in r ==> x in txs
  {
    if |txs| == 0 then []
    else
      var rest := Filter(txs[1..], filter);
      assert forall i :: 1 <= i < |txs| ==> txs[i] == txs[1..][i - 1];
      if Keeps(filter, txs[0]) then [txs[0]] + rest else rest
  }

  /** The filter keeps every copy of a kept transaction and none of a dropped one. */
  lemma {:induction false} FilterCounts(txs: seq<ViewTx>, filter: string)
    ensures forall t :: multiset(Filter(txs, filter))[t] == if Keeps(filter, t) then multiset(txs)[t] else 0
    decreases |txs|
  {
    if |txs| > 0 {
      FilterCounts(txs[1..], filter);
      FilterCountsStep(txs, filter, Filter(txs[1..], filter), Filter(txs, filter));
    }
  }

  /** Keeping or dropping the head keeps the filtered counts of the tail in step with the whole list. */
  lemma FilterCountsStep(txs: seq<ViewTx>, filter: string, rest: seq<ViewTx>, r: seq<ViewTx>)
    requires |txs| > 0
    requires forall t :: multiset(rest)[t] == if Keeps(filter, t) then multiset(txs[1..])[t] else 0
    requires r == if Keeps(filter, txs[0]) then [txs[0]] + rest else rest
    ensures forall t :: multiset(r)[t] == if Keeps(filter, t) then multiset(txs)[t] else 0
  {
    assert txs == [txs[0]] + txs[1..];
    assert multiset(txs) == multiset{txs[0]} + multiset(txs[1..]);
    if Keeps(filter, txs[0]) {
      assert multiset(r) == multiset{txs[0]} + multiset(rest);
    }
  }

  lemma {:induction false} FilterIsSubsequence(txs: seq<ViewTx>, filter: string)
    ensures Subsequence(Filter(txs, filter), txs)
    decreases |txs|
  {
    if |txs| > 0 {
      FilterIsSubsequence(txs[1..], filter);
      var r := Filter(txs, filter);
      if Keeps(filter, txs[0]) {
        assert r[1..] == Filter(txs[1..], filter);
      }
    }
  }

  /** Filtering what a filter returned changes nothing. */
  lemma {:induction false} FilterIdempotent(txs: seq<ViewTx>, filter: string)
    ensures Filter(Filter(txs, filter), filter) == Filter(txs, filter)
    decreases |txs|
  {
    if |txs| > 0 {
      FilterIdempotent(txs[1..], filter);
      var r := Filter(txs, filter);
      if Keeps(filter, txs[0]) {
        assert r[1..] == Filter(txs[1..], filter);
      }
    }
  }

  /** `applyFilters`: a non-array yields `[]`; otherwise the transactions the filter keeps, in order. */
  function ApplyFilters(txs: Option<seq<ViewTx>>, filter: string): (r: seq<ViewTx>)
    ensures txs.None? ==> r == []
    ensures txs.Some? && !IsStatusFilter(filter) && !IsTypeFilter(filter) ==> r == txs.value
    ensures txs.Some? ==> Subsequence(r, txs.value)
    ensures forall i :: 0 <= i < |r| ==> Keeps(filter, r[i])
    ensures txs.Some? ==> forall i :: 0 <= i < |txs.value| && Keeps(filter, txs.value[i]) ==> txs.value[i] in r
    ensures txs.Some? ==> forall t :: multiset(r)[t] == if Keeps(filter, t) then multiset(txs.value)[t] else 0
  {
    match txs
    case None => []
    case Some(xs) =>
      FilterIsSubsequence(xs, filter);
      FilterCounts(xs, filter);
      if !IsStatusFilter(filter) && !IsTypeFilter(filter) then
        AllKeptFilter(xs, filter);
        xs
      else Filter(xs, filter)
  }

  lemma {:induction false} AllKeptFilter(txs: seq<ViewTx>, filter: string)
    requires !IsStatusFilter(filter) && !IsTypeFilter(filter)
    ensures Filter(txs, filter) == txs
    decreases |txs|
  {
    if |txs| > 0 {
      AllKeptFilter(txs[1..], filter);
      assert [txs[0]] + txs[1..] == txs;
    }
  }

  /** Pressing the same filter twice shows the same list. */
  lemma ApplyFiltersIdempotent(txs: seq<ViewTx>, filter: string)
    ensures ApplyFilters(Some(ApplyFilters(Some(txs), filter)), filter) == ApplyFilters(Some(txs), filter)
  {
    FilterIdempotent(txs, filter);
    if !IsStatusFilter(filter) && !IsTypeFilter(filter) {
      AllKeptFilter(txs, filter);
    }
  }
}

=== FILE: withdraw_form.dfy ===
/**
 * The withdrawal form checks of `js/withdraw.js`: the ERC20 address format
 * and the amount limits, each returning the first failing rule.
 */
module WithdrawForm {
  import opened Text
  import opened JsNumbers

  const MinAmount: real := 50.0
  const MaxAmount: real := 1000000.0

  /** The address format: `0x` followed by exactly 40 hexadecimal digits. */
  predicate IsValidErc20Address(a: string) {
    |a| == 42 && a[..2] == "0x" && forall i :: 2 <= i < 42 ==> IsHexDigit(a[i])
  }

  /** The number of hexadecimal digits at the start of `s`. */
  function HexRun(s: string): (n: nat)
    ensures n <= |s| && forall i :: 0 <= i < n ==> IsHexDigit(s[i])
    ensures n < |s| ==> !IsHexDigit(s[n])
  {
    if |s| > 0 && IsHexDigit(s[0]) then 1 + HexRun(s[1..]) else 0
  }

  /**
   * The regular expression `^0x[a-fA-F0-9]{40}$` read left to right: the
   * prefix `0x`, a run of hexadecimal digits, and the end of input exactly
   * after the fortieth.
   */
  predicate MatchesErc20Pattern(a: string) {
    |a| >= 2 && a[0] == '0' && a[1] == 'x' && HexRun(a[2..]) >= 40 && |a| == 42
  }

  /** The left-to-right match and the declarative format agree on every string. */
  lemma Erc20PatternIsFormat(a: string)
    ensures MatchesErc20Pattern(a) <==> IsValidErc20Address(a)
  {
    if IsValidErc20Address(a) {
      var rest := a[2..];
      assert forall i :: 0 <= i < |rest| ==> IsHexDigit(rest[i]) by {
        forall i | 0 <= i < |rest| ensures IsHexDigit(rest[i]) {
          assert rest[i] == a[i + 2];
        }
      }
    }
    if MatchesErc20Pattern(a) {
      forall i | 2 <= i < 42 ensures IsHexDigit(a[i]) {
        assert a[2..][i - 2] == a[i];
      }
      assert a[..2] == [a[0], a[1]];
    }
  }

  datatype AmountCheck = AmountOk | NotANumber | BelowMinimum | AboveMaximum | InsufficientBalance

  /** `validateWithdrawalAmount` on the parsed amount: the first failing rule wins. */
  function ValidateWithdrawalAmount(amount: JsNumber, balance: real): (r: AmountCheck)
    ensures r == AmountOk <==> amount.Finite? && MinAmount <= amount.value <= MaxAmount && amount.value <= balance
    ensures r == NotANumber <==> amount.NaN?
    ensures r == BelowMinimum <==> Below(amount, MinAmount)
    ensures r == AboveMaximum <==> Above(amount, MaxAmount)
    ensures r == InsufficientBalance <==> !amount.NaN? && !Below(amount, MinAmount) && !Above(amount, MaxAmount) && Above(amount, balance)
  {
    if amount.NaN? then NotANumber
    else if Below(amount, MinAmount) then BelowMinimum
    else if Above(amount, MaxAmount) then AboveMaximum
    else if Above(amount, balance) then InsufficientBalance
    else AmountOk
  }

  datatype AddressCheck = AddressOk | AddressMissing | AddressMalformed

  /** `validateWithdrawalAddress`: blank addresses are reported before the format check. */
  function ValidateWithdrawalAddress(address: string): (r: AddressCheck)
    ensures r == AddressOk <==> !IsBlank(address) && IsValidErc20Address(address)
    ensures r == AddressMissing <==> IsBlank(address)
  {
    if |address| == 0 || IsBlank(address) then AddressMissing
    else if !MatchesErc20Pattern(address) then AddressMalformed
    else
      Erc20PatternIsFormat(address);
      AddressOk
  }

  /** A well-formed address is never blank, so the format check alone decides validity. */
  lemma ValidAddressIsFormat(address: string)
    ensures ValidateWithdrawalAddress(address) == AddressOk <==> IsValidErc20Address(address)
  {
    Erc20PatternIsFormat(address);
    if IsValidErc20Address(address) {
      assert !IsJsSpace(address[0]);
    }
  }
}

=== FILE: wrappers.dfy ===
/** Failure-compatible wrappers shared by every module of the model. */
module Wrappers {

  /** A value that may be absent: JavaScript's `undefined`/`null` for a field. */
  datatype Option<+T> = None | Some(value: T) {

    /** The carried value, or `default` when absent. */
    function GetOr(default: T): T {
      match this
      case Some(v) => v
      case None => default
    }
  }

  /** The outcome of an operation that can fail with an error the caller sees. */
  datatype Result<+T, +E> = Ok(value: T) | Err(error: E) {

    predicate IsFailure() {
      Err?
    }

    function PropagateFailure<U>(): Result<U, E>
      requires Err?
    {
      Err(error)
    }

    function Extract(): T
      requires Ok?
    {
      value
    }
  }
}
